=== FILE: README.md ===
# notion-backend: page history, block tables and helpers in Dafny

This project models the data core of a Notion-style backend:

- **Page edit history.** The `block_history` table and its queries: append a record, list a page's history a page at a time, build the timeline with previews, rebuild a page at a point in history, list recent snapshots, and delete records by age and owner.
- **Whole-page block operations.** The operations of the `Block` model: the dynamic `UPDATE` builder, `reorderBlocks`, the delete-and-reinsert `saveBlocks`, and the id-preserving merge `updateBlocks`.
- **Page model.** Defaults applied on create, the `coverImage` → `cover_image` field mapping on update, and the `findAll` default-parameter filter.
- **History controller.** Its handlers, each running the 401 → 404 → 403 guard before it touches history; the operation labels; and the checks `restoreSnapshot` makes.
- **Pure helpers.** Slugs, file names, UUIDs and extensions; the upload middleware (stored file name, destination directory, MIME allowlist, error mapping and file URL); and the application error handler.

How the model represents the system:

- **Tables.** Every table (`blocks`, `pages`, `block_history`) is a sequence of immutable rows.
- **Queries.** Each SQL query is a filter, a stable sort or a slice of such a sequence.
- **Mutations.** A mutation is a pure function that returns the new table and the next auto-increment id. A rolled-back transaction returns the old table unchanged.
- **Ordering.** `ORDER BY created_at DESC` has no tie-break. The model fixes one order: a stable sort, so rows with equal `created_at` keep their table order. Contracts that name positions (paging, recent snapshots) speak of that order. When the rows involved have distinct `created_at` values it is the only newest-first order (`BlockHistory.ListingDetermined`), so those positions are the database's too.
- **JSON.** JSON values are the datatype `Json.JValue`, with JavaScript truthiness (`Json.Truthy`); `undefined` is `Option.None`. `JSON.parse` on text is the parameter `parse`: `None` means it threw.
- **External inputs.** The clock (`now`), the random upload suffix, `NODE_ENV` and `BASE_URL` are parameters too.
- **Errors.** An error a query catches becomes its empty or null result. An error a handler lets escape is `None`.

## Model

| member | source | states |
|---|---|---|
| BlockHistory.Create | src/models/BlockHistory.js:4-39 | Appends exactly one record iff `user_id` is truthy, `page_id` is given and the operation fits its column (foreign keys are not checked, see Left out); otherwise the table and counter are unchanged and the result is null. The new record gets a fresh id. A truthy `block_id`, operation and `created_by` are stored as given. Falsy ones become null, 'update' and the owner. Both payloads become `{}` when falsy and are kept verbatim when truthy. |
| Json.SafeParse | src/models/BlockHistory.js:41-52 | Never fails. A falsy input gives `{}`, an object or array comes back unchanged, a string is parsed (`{}` if parsing throws), and any other value gives `{}`. |
| Json.SafeParseIdempotent | src/models/BlockHistory.js:41-52 | A normalised object is a fixed point, so normalising again changes nothing. |
| BlockHistory.Listing | src/models/BlockHistory.js:58-69 | The listing is exactly the multiset of rows passing the filter, newest first. |
| BlockHistory.ListingDetermined | src/models/BlockHistory.js:56-69 | When the filtered rows have distinct `created_at` values, every newest-first arrangement of them is the listing. |
| BlockHistory.TotalPages | src/models/BlockHistory.js:85 | For a positive limit, `totalPages` is the least n with `total <= n*limit`. A zero limit gives `NaN` for no rows and `Infinity` otherwise. |
| BlockHistory.GetPageHistory | src/models/BlockHistory.js:54-97 | Returns only records of that page and user, newest first. It skips `(page-1)*limit` rows and keeps at most `limit`. `total` counts every match and `totalPages = ceil(total/limit)`. A negative offset or limit (an SQL error) gives the empty answer. |
| BlockHistory.PagesCover | src/models/BlockHistory.js:56-86 | When the page's records have distinct `created_at` values, paging loses nothing: the k-th record of the listing appears at index `k % limit` of page `k / limit + 1`, and that page is within `totalPages`. |
| BlockHistory.PageShows | src/models/BlockHistory.js:56-86 | Index i of page p is row `(p-1)*limit + i` of the listing, and p is at most `totalPages`. |
| BlockHistory.PageWithin | src/models/BlockHistory.js:56-85 | Any page that starts before the end of the listing is numbered at most `ceil(total/limit)`. |
| Timeline.GetTimelineEntries | src/models/BlockHistory.js:99-172 | Returns at most `limit` entries, one per meaningful record of the page and user, in listing order. The result is `[]` exactly when the limit is non-positive, no record qualifies, or deriving any shown entry throws. |
| Timeline.TimelineEntriesSound | src/models/BlockHistory.js:112-117 | Every entry comes from a record of that page and user that has a non-empty payload, and entries are newest first. |
| Timeline.EmptyRecordsHidden | src/models/BlockHistory.js:112-117 | A record whose snapshot and block data are both `{}` never appears on the timeline. |
| Timeline.EntryOf | src/models/BlockHistory.js:121-166 | `has_snapshot` iff the parsed snapshot has truthy `blocks`. In that case `preview` is the types of at most the first 3 blocks and the text comes from the first block's title. Otherwise the text comes from `new`, falling back to `old`, and `preview` is `[block_type]` iff the joined type exists. `has_block_data` iff `new` or `old` is truthy. The entry throws exactly when the snapshot's `blocks` is not an array or one of its first three is null. |
| Timeline.TypesOf | src/models/BlockHistory.js:129 | Lists the `type` of at most the first 3 blocks, in order. It throws exactly for a non-array or a null among those three. |
| Timeline.TitleText | src/models/BlockHistory.js:132-134 | When `title` is an array whose first element is truthy, the preview text is `title[0][0]` if that is truthy and `''` otherwise. In every other case it is `''`. The text is never a falsy value other than `''`. |
| Timeline.EmptySnapshotCounts | src/models/BlockHistory.js:128-135 | An empty `blocks` array still counts as a snapshot, with an empty preview and no text. |
| Timeline.SnapshotTitlePreview | src/models/BlockHistory.js:128-135 | A snapshot whose first block is titled `[[t, …]]` previews the text `t` and that block's type. |
| BlockHistory.GetPageAtHistory | src/models/BlockHistory.js:174-227 | Returns null iff no record has that id and `page_id` (the lookup is not user-filtered). With snapshot `blocks`, those blocks are returned verbatim with `is_full_snapshot`. Otherwise the page's current blocks are returned in `order_index` order. Title, icon and cover are the joined page's when truthy; otherwise they are 'Untitled', '📄' and null. |
| BlockHistory.CreateThenPageAtHistory | src/models/BlockHistory.js:4-39 | After `create` with a snapshot holding truthy `blocks`, `getPageAtHistory` for the returned id gives back exactly those blocks as a full snapshot taken at `now`. |
| BlockHistory.GetRecentSnapshots | src/models/BlockHistory.js:229-254 | Returns the newest `min(limit, n)` records of the page and user with non-empty snapshot data, newest first. Each carries its parsed snapshot and `change_count` 1. |
| BlockHistory.GetHistoryById | src/models/BlockHistory.js:256-280 | Returns null iff no record has that id and user; otherwise that record's view. |
| BlockHistory.CreateThenGetById | src/models/BlockHistory.js:4-39 | A record `create` appended is found again by its owner under the returned id, with object payloads unchanged. |
| BlockHistory.CleanupOldHistory | src/models/BlockHistory.js:282-301 | Removes exactly the records created before `now - days*86400`, and only the user's when a user is given. Every other record stays, with its multiplicity. Returns the number removed. |
| BlockHistory.CleanupIdempotent | src/models/BlockHistory.js:284-296 | A second cleanup with the same cutoff removes nothing. |
| BlockHistory.CleanupScoped | src/models/BlockHistory.js:287-293 | A cleanup scoped to a user never removes another user's record. |
| Blocks.Create | src/models/Block.js:5-39 | Succeeds iff `page_id` and a valid `type` are given, and then appends one row with a fresh id. Defaults: `properties`/`format` `{}`, `parent_id` null, `order_index` 0. The row is then among the page's blocks. |
| Blocks.FindByPageId | src/models/Block.js:41-47 | Returns exactly the page's rows, as a multiset, ascending by `order_index`. |
| Blocks.FindById | src/models/Block.js:49-52 | Finds a row with that id iff one exists. |
| Blocks.Update | src/models/Block.js:54-79 | Throws "No fields to update" when every value is undefined. A key naming no column of `blocks` fails even when no row matches. Otherwise only the row with that id changes: every named column holds its last value (serialised for `properties`/`format`) and every other column is unchanged. A new `id` that another row has fails as a duplicate key. The ids stay the same unless `id` is named. The result is the row read back under the requested id. Conversely, on a table with distinct ids, an update with a defined value, whose every value its column accepts and which writes `id` only as the row's own id, succeeds, whether or not a row matches. |
| Blocks.EchoedIdAccepted | src/models/Block.js:54-79 | An update that repeats the row's own `id` next to a new `type` succeeds and reads back the new type. |
| UpdateBuilder.Build | src/models/Block.js:58-70 | The `SET` list has one assignment per defined key, in key order. It fails with "No fields to update" iff every value is undefined. |
| UpdateBuilder.Fields | src/models/Block.js:58-66 | Each defined key yields its assignment, and every assignment comes from a defined key. The i-th key's assignment sits at the position given by the number of defined keys before it, so assignments follow key order. |
| Blocks.ApplyFields | src/models/Block.js:73-75 | Applying a `SET` list succeeds iff every value is one its column accepts (`Blocks.Accepts`). Then the last assignment to a column wins and unnamed columns keep their values. |
| Blocks.Delete | src/models/Block.js:81-84 | Returns true iff a row had the id; the table loses exactly the rows with that id. |
| BlockBatch.ReorderBlocks | src/models/Block.js:86-107 | Throws and rolls back, leaving the table unchanged, iff some element of the list is `null`. Otherwise each listed block of the page gets its (last) list position as `order_index`. Rows of other pages, unlisted rows and every other column are never changed. |
| BlockBatch.LastIndex | src/models/Block.js:92-97 | Finds the last position listing an id, or -1 iff none does. |
| BlockBatch.SaveBlocks | src/models/Block.js:110-152 | Fails, leaving the table as before, iff some input has no valid type. On success the page's blocks are exactly the inputs in order, with `order_index` = position, defaults applied and fresh ids. `count` = number of inputs, and other pages' rows are unchanged. |
| BlockBatch.PageAfterSave | src/models/Block.js:117-135 | After the delete and the inserts, the page's blocks are exactly the inserted rows. |
| BlockBatch.OthersAfterSave | src/models/Block.js:117-135 | Rows of other pages are untouched by the delete and the inserts. |
| BlockBatch.ApplyInput | src/models/Block.js:181-237 | One merge step: update in place the page's row with that id, insert with the given id, or insert with a fresh id. It fails iff the type is invalid or the id belongs to another page. |
| BlockBatch.UpdateBlocks | src/models/Block.js:155-248 | Fails, leaving the table as before, iff an input has an invalid type or a foreign id. On success: page rows whose id is not among the inputs are gone, other pages are untouched, and each input with an id is stored with its position as `order_index`. When every sent id is below the counter, each idless input has exactly one row under a fresh id, and every fresh-id row is one of them. |
| BlockBatch.StepKeepsOthers | src/models/Block.js:191-237 | A single update or insert never modifies another page's rows. |
| BlockBatch.DeletedStayDeleted | src/models/Block.js:171-178 | A page row deleted for missing from the inputs never comes back. |
| Pages.Create | src/models/Page.js:5-37 | Appends one row with a fresh id at time `now` iff the values fit their columns, and the row is then found by id. |
| Pages.CreateDefaults | src/models/Page.js:16-22 | Falsy fields are stored as title 'Untitled', content `{}`, parent null, icon '📄', no cover. Present values are stored as given. |
| Pages.FindById | src/models/Page.js:100-103 | Finds a page with that id iff one exists. |
| Pages.FindAll | src/models/Page.js:105-119 | Returns exactly the pages under the given parent (top-level for null), newest first. |
| Pages.FindAllDefault | src/models/Page.js:105-118 | Calling `findAll()` lists the top-level pages, exactly as `findAll(null)` does. |
| Pages.Update | src/models/Page.js:121-156 | Throws "No fields to update" when every value is undefined. A key naming no column fails even when no row matches. Otherwise only the row with that id changes: each named column holds its last value and the others are unchanged. A new `id` that another row has fails as a duplicate key. The ids stay the same unless `id` is named. The result is the row read back under the requested id. Conversely, on a table with distinct ids, an update with a defined value, whose every value its column accepts (`Pages.Accepts`) and which writes `id` only as the row's own id, succeeds, whether or not a row matches. |
| Pages.EchoedIdAccepted | src/models/Page.js:121-156 | An update that repeats the row's own `id` next to a new `title` succeeds and reads back the new title. |
| Pages.LaterKeyWins | src/models/Page.js:128-151 | `{coverImage: a, cover_image: b}` writes `cover_image` twice, left to right. The update succeeds and reads back `b`. |
| Pages.UpdateMapping | src/models/Page.js:123-142 | `coverImage` is written to `cover_image`, `content` is serialised, and every other key passes through under its own name. |
| Pages.Delete | src/models/Page.js:158-161 | Returns true iff a row had the id; the table loses exactly the rows with that id. |
| HistoryController.Guard | src/controllers/blockHistoryController.js:12-33 | Checks run in order: 401 iff there is no user, then 404 iff the page is missing, then 403 iff the owner is not the user. It passes otherwise. |
| HistoryController.GuardBeforeHistory | src/controllers/blockHistoryController.js:12-40 | When the guard stops a handler, its answer does not depend on the history table at all. |
| HistoryController.GetPageHistory | src/controllers/blockHistoryController.js:7-46 | Succeeds iff the guard passes, and then answers the model's page with defaults page 1 and limit 20. |
| HistoryController.OperationLabel | src/controllers/blockHistoryController.js:82-85 | 'create' → Created, 'delete' → Deleted, 'snapshot' → Saved, and anything else → Updated. Each direction is an iff. |
| HistoryController.GetTimelineEntries | src/controllers/blockHistoryController.js:49-107 | Succeeds iff the guard passes; each model entry is sent once, in order, with its label (default limit 50). |
| HistoryController.GetPageAtHistory | src/controllers/blockHistoryController.js:110-150 | After the guard, answers 404 "History entry not found" exactly when the model returns null; otherwise the model's page. |
| HistoryController.RestoreSnapshot | src/controllers/blockHistoryController.js:153-200 | Checks in order: 401 without a user, 404 when the entry is not the user's, 400 without snapshot blocks, 403 when the page is missing or not owned. Success returns the entry's snapshot and `page_id` and changes no table. |
| HistoryController.SnapshotPreview | src/controllers/blockHistoryController.js:242 | The preview is the types of at most the first 3 snapshot blocks, or `[]` when `blocks` is missing or null. |
| HistoryController.GetRecentSnapshots | src/controllers/blockHistoryController.js:203-250 | After the guard: a 500 answer iff some preview throws; otherwise one entry per model snapshot, in order, with its id and preview. |
| HistoryController.CleanupHistory | src/controllers/blockHistoryController.js:253-271 | 401 without a user. Otherwise exactly that user's records created before `now - days*86400` are deleted (`days` defaults to 30), every other record keeps its multiplicity, and the number removed is answered. |
| Helpers.Slug | src/utils/helpers.js:79-85 | A slug holds only lower-case ASCII letters, digits and `-`, never starts or ends with `-`, and has no `--`. |
| Helpers.SlugJoinsWords | src/utils/helpers.js:79-85 | Two words joined by any run of spaces, underscores or dashes give the lower-cased words joined by one dash. |
| Helpers.SlugIdempotent | src/utils/helpers.js:79-85 | Slugging a slug returns it unchanged. |
| Helpers.SlugKeepsAlnum | src/utils/helpers.js:80-84 | Without its dashes, the slug is exactly the title's ASCII letters and digits, lower-cased, in order. |
| Helpers.SanitizeFilename | src/utils/helpers.js:20-25 | The length is `min(n, 100)`. Character i is the lower-cased input character if it is in `[A-Za-z0-9.-]`, else `_`. |
| Helpers.SanitizeFilenameIdempotent | src/utils/helpers.js:20-25 | A sanitised name uses only `[a-z0-9._-]`, and sanitising it again changes nothing. |
| Helpers.UUIDPositions | src/utils/helpers.js:14-17 | Valid iff: length 36; dashes at 8, 13, 18 and 23; hex digits elsewhere; a version digit 1-5 at 14; a variant digit `89abAB` at 19. |
| Helpers.Extname | src/utils/helpers.js:28-30 | The extension is dot-led with no further dot or slash, and ends the last path segment. It is empty iff that segment has no dot after its first character, or is `..`. |
| Helpers.ExtnameOfStemAndExtension | src/utils/helpers.js:28-30 | A plain stem followed by `.ext` has extension exactly `.ext`. |
| Helpers.GetFileExtension | src/utils/helpers.js:28-30 | The result is the extension with each ASCII upper-case letter lower-cased and every other character kept. |
| Helpers.ImageFileByExtension | src/utils/helpers.js:33-36 | `stem.ext` is an image iff the lower-cased `.ext` is one of `.jpg .jpeg .png .gif .webp .svg`. A name without an extension is not an image. |
| Helpers.MergeObjects | src/utils/helpers.js:96-98 | The keys are both sides' keys; source values win, and target-only keys keep their values. |
| Helpers.MergeObjectsIdempotent | src/utils/helpers.js:96-98 | Merging the same source twice equals merging it once, and merging nothing changes nothing. |
| Upload.SafeName | src/middleware/upload.js:40 | Preserves length; letters and digits are lower-cased, everything else becomes `_`. |
| Upload.SafeNameIdempotent | src/middleware/upload.js:40 | A safe name holds only `[a-z0-9_]` and is its own safe name. |
| Upload.Stem | src/middleware/upload.js:38-39 | Stem followed by extension is the base name. |
| Upload.StoredFilename | src/middleware/upload.js:36-42 | The stored name is the safe stem, `-`, the suffix, then the original extension verbatim; each part is pinned to its position. |
| Upload.StoredKeepsExtension | src/middleware/upload.js:36-42 | For a suffix with no dot or slash (a timestamp and a number), the stored name has the original extension. |
| Upload.MimeCategory | src/middleware/upload.js:27 | The category is the slash-free prefix of the MIME type up to its first `/`. |
| Upload.Destination | src/middleware/upload.js:26-35 | The images directory iff the MIME category is `image`, otherwise the files directory. |
| Upload.DestinationByPrefix | src/middleware/upload.js:26-35 | The images directory iff the MIME type is `image` or starts with `image/`. |
| Upload.FileFilter | src/middleware/upload.js:46-73 | Accepts iff the MIME type is one of the 26 allowed types. A rejection's message starts with "Invalid file type" and lists them all. |
| Upload.AcceptedDestinations | src/middleware/upload.js:26-73 | An accepted file goes to the images directory iff its type starts with `image/`. |
| Upload.HandleUploadError | src/middleware/upload.js:86-107 | Multer's `LIMIT_FILE_SIZE` and `LIMIT_FILE_COUNT` give 400 with their messages. A message starting with "Invalid file type" gives 400 with that message. Every other error is passed on unchanged. |
| Upload.RejectedTypeAnswered | src/middleware/upload.js:68-106 | A file the filter rejects is answered 400 with the allowed-types message. |
| Upload.GetFileUrl | src/middleware/upload.js:110-113 | The URL is `BASE_URL` (default `http://localhost:5000`), then `/uploads/`, and ends with `<type>s/<filename>` (type default `file`). |
| Upload.UrlMatchesDirectory | src/middleware/upload.js:26-35 | The URL of a file of a kind points into the directory the storage puts that kind in; without a kind it points into the files directory. |
| ErrorHandler.CodeRule | src/middleware/errorHandler.js:10-22 | `ValidationError` wins first, then codes 23505, 23503 and 22P02, each matched exactly. |
| ErrorHandler.RuleOf | src/middleware/errorHandler.js:10-32 | An earlier rule wins. A "not found" message comes before "invalid"/"Invalid", which comes before a `statusCode`, which comes before the fallback. |
| ErrorHandler.Answer | src/middleware/errorHandler.js:5-32 | Per rule: 400 "Validation Error" with the messages (throws without them), 409 "Duplicate entry", 400 "Referenced record not found", 400 "Invalid input data", 404 or 400 with the error's own message, the error's `statusCode` with its message or the default, and otherwise 500 "Internal Server Error". Only the validation rule carries `errors`. |
| ErrorHandler.Classify | src/middleware/errorHandler.js:5-32 | The evidently intended classification: it throws only for a `ValidationError` without `errors`. Message rules answer the error's own message, a `statusCode` rule answers that status, and the fallback is 500 "Internal Server Error". |
| ErrorHandler.ClassifyAsWritten | src/middleware/errorHandler.js:26 | As written, the handler throws also for every error without a message that no code rule catches. |
| ErrorHandler.AsWrittenAgrees | src/middleware/errorHandler.js:23-32 | Where the written handler does not throw, it agrees with the intended one. It throws in addition exactly for message-less errors past the code rules. |
| ErrorHandler.BareStatusErrorThrows | src/middleware/errorHandler.js:26-31 | `{ statusCode: 403 }` makes the written handler throw, where the intent is 403 "Internal Server Error". |
| ErrorHandler.EarlierRuleWins | src/middleware/errorHandler.js:10-32 | A validation error or a database code decides the answer whatever `statusCode` the error carries. |
| ErrorHandler.NotFoundMessageWins | src/middleware/errorHandler.js:23-25 | A "not found" message gives 404 with that message whatever `statusCode` the error carries. |
| ErrorHandler.HandleError | src/middleware/errorHandler.js:1-51 | The answer's status, error and `errors` are the classification's; `errors` is present only for a validation error and is then its message list. The raw message and stack are included iff the mode is development. |
| ErrorHandler.ModesDifferOnlyInExtras | src/middleware/errorHandler.js:35-50 | Development and production answers differ only in the development extras. |
| ErrorHandler.NotFound | src/middleware/errorHandler.js:54-58 | The error carries `statusCode` 404 and message "Not Found - " + url. |
| ErrorHandler.NotFoundAnswer | src/middleware/errorHandler.js:23-32 | An unmatched route answers 404 with its message, except that a URL containing "invalid"/"Invalid" (and not "not found") gives 400. |

## Left out

- Connection pools, `beginTransaction`/`commit`/`release` and logging are left out. A transaction is all-or-nothing state return, and a rollback returns the old table.
- The DDL's foreign-key cascades and timestamps other than `created_at` are not modelled.
- `Blocks.Create`: the foreign key on `page_id` (src/config/database.js:77) is not checked; an insert for a page that does not exist succeeds in the model and fails in the database.
- `BlockBatch.SaveBlocks`, `BlockBatch.ApplyInput` and `BlockBatch.UpdateBlocks`: the foreign key on `parent_id` (src/config/database.js:78) is not checked. An input whose `parent_id` names no block, including one of the page's blocks that `saveBlocks` has just deleted, succeeds in the model and rolls the transaction back in the database.
- `BlockHistory.Create`: the foreign keys on `page_id` and `block_id` (src/config/database.js:95-96) are not checked. For a missing page, or a truthy `block_id` naming no block, the database rejects the insert, which `create` catches and answers with null; the model appends the record.
- `Pages.Create`: the foreign key on `parent_id` (src/config/database.js:61) is not checked. A `parent_id` naming no page succeeds in the model and fails in the database.
- `Blocks.Update`: the foreign keys on `page_id` and `parent_id` (src/config/database.js:77-78) are not checked. `Blocks.Accepts` takes any number for them, so an update pointing at a missing page or block succeeds in the model and fails in the database.
- `Pages.Update`: the foreign key on `parent_id` (src/config/database.js:61) is not checked. `Pages.Accepts` takes any number for it, so an update pointing at a missing page succeeds in the model and fails in the database.
- `Pages.Create`: the DDL's `slug` is NOT NULL without a default and the insert does not supply it. The model follows the insert's column list and lets it succeed.
- `BlockHistory.PagesCover`: with equal `created_at` values MySQL may order ties differently in each `LIMIT ? OFFSET ?` query, so a record on a page boundary can appear twice or never. The lemma is stated only for distinct `created_at` values.
- The DDL lacks the `user_id` columns the queries use. The model follows the queries' column set.
- `BlockHistory.GetPageAtHistory`: the fallback query filters blocks by a `user_id` column the `blocks` table does not have. It is modelled as the page's current blocks in `order_index` order, not as the SQL error it would raise.
- `snapshot_data != '{}'` is modelled as "not SQL NULL and not the empty object". How the database compares a JSON column with the text `'{}'` is not modelled.
- `BlockHistory.CleanupOldHistory`: timestamps are integer seconds, and "`daysToKeep` days ago" is `now - days*86400`. Calendar and time-zone arithmetic are not modelled.
- Query parameters arrive as numbers. `parseInt` of a malformed string (`NaN`) is not modelled.
- `BlockHistory.TotalPages`: a negative limit is answered by the SQL error path before `Math.ceil` is reached, so that case is not stated.
- `BlockBatch.SaveBlocks` and `BlockBatch.UpdateBlocks`: the input list has no `null` elements. A `null` element passes the controllers' `Array.isArray` check, then throws a TypeError when `block.type` or `b.id` is read (src/models/Block.js:128 and 168). The transaction is rolled back and the error rethrown. The model cannot express that input, so these members promise success for every list of valid types.
- `BlockBatch.UpdateBlocks`: the promises about idless inputs (one row each, under a fresh id) are proved only when every sent id is below the auto-increment counter. Without that, a sent id can equal a fresh id handed out earlier in the same call: for `[{type}, {id: next, type}]` the second input updates the first input's new row in place, and the first input's content is lost.
- `BlockBatch.ReorderBlocks`: each element of the list is abstracted to `null` or to its numeric `id`, if it has one. An element whose `id` is a string that MySQL would convert is not modelled. The block controller passes bare ids, whose `id` is undefined, so the updates match no row; that controller is not part of this model.
- `Pages.Update`: a key that is an inherited property name of the mapping object (such as `toString`) is not modelled; only `coverImage` is renamed.
- `Blocks.Update` and `Pages.Update`: a key naming no column is an SQL error (`Failure`) whether or not a row matches, and so is a value the column cannot take. MySQL's implicit conversions are not modelled. The row model does not carry the timestamps, or the pages' `slug` and `is_published`. A `slug` must be a string of at most 255 characters, and `is_published` a boolean, null or a signed byte, as the DDL's types demand. The unique key on `slug` is not checked. The timestamps take any value, so the success clause promises success for a malformed timestamp that the database would reject.
- `Blocks.Update` and `Pages.Update`: the success direction is stated for tables with distinct ids, as the primary key guarantees, and for lists that write `id` only as the row's own id. That an update moving a row to an unused new id succeeds is not stated.
- `Page.createAlternative` and `Page.createBestPractice` are left out. One depends on reading back the latest row under concurrent inserts; the other depends on a database-generated UUID.
- `formatFileSize` (floating point and logarithms) is left out.
- `generateId` (clock and randomness) is left out.
- `safeJSONParse` and `deepClone` (JSON text parsing) are left out.
- `deleteFile`, `ensureDir`, `delay` and `ensureUploadDirs` (file-system and timer I/O) are left out.
- Locale date and time text in the controller responses is not modelled; entries carry the raw timestamp.
- Upload size and count limits are constants only. Enforcing them is multer's job, and only its error codes are modelled.
- Case mapping covers ASCII letters only. Strings are sequences of Unicode scalar values. Paths are POSIX paths.
- `Helpers.SanitizeFilename` and `Upload.SafeName`: JavaScript strings are UTF-16 code units. A character outside the Basic Multilingual Plane is one character in the model but two units in JavaScript, so the source writes two `_` for it where the model writes one, and the 100-character cut counts such characters differently.
- A handler that throws is answered 500 by Express. Invalid HTTP status codes are not modelled.
- `ErrorHandler.NotFound`: the error's stack trace is not modelled.
- `ErrorHandler.Classify`: `errors` entries that are themselves null would throw inside the `map`; entries are modelled as already-read optional messages.
- `asyncHandler` only forwards a rejected promise to the error handler and is not modelled.
- The auth middleware, the user model and route wiring are not part of this model.
- The block and page controllers are not part of this model.

## Findings

| source | as written | input that shows it | evidently intended | confidence | as-written member | corrected member |
|---|---|---|---|---|---|---|
| src/middleware/errorHandler.js:26 | `err.message && err.message.includes('invalid') \|\| err.message.includes('Invalid')` parses as `(a && b) \|\| c`. The right operand reads `err.message.includes` even when there is no message, and throws a TypeError inside the error handler. | `next({ statusCode: 403 })`: an error with a status code and no message | `err.message && (… \|\| …)`: answer 403 with the default message | not executed | ErrorHandler.ClassifyAsWritten, ErrorHandler.BareStatusErrorThrows | ErrorHandler.Classify |

=== FILE: block_batch.dfy ===
/** The three whole-page operations of the `Block` model — `reorderBlocks`, `saveBlocks` and
    `updateBlocks` — each one SQL transaction over the `blocks` table. */
module BlockBatch {
  import opened Wrappers
  import opened Json
  import opened Seqs
  import opened Blocks

  // ----- reorderBlocks ----------------------------------------------------------------------

  /** The last position at which `id` is listed, or -1. */
  function LastIndex(ids: seq<Option<int>>, id: int): (r: int)
    ensures -1 <= r < |ids|
    ensures r >= 0 ==> ids[r] == Some(id) && forall j :: r < j < |ids| ==> ids[j] != Some(id)
    ensures r == -1 <==> forall j :: 0 <= j < |ids| ==> ids[j] != Some(id)
  {
    if |ids| == 0 then -1
    else if ids[|ids| - 1] == Some(id) then |ids| - 1
    else LastIndex(ids[..|ids| - 1], id)
  }

  /** The table after reordering, stated row by row: a row of the page that is listed takes the
      position of its last listing as `order_index`; every other row is unchanged. */
  function Reordered(table: seq<Block>, pageId: int, ids: seq<Option<int>>): seq<Block> {
    seq(|table|, k requires 0 <= k < |table| =>
      var i := LastIndex(ids, table[k].id);
      if table[k].pageId == pageId && i >= 0 then table[k].(orderIndex := i) else table[k])
  }

  /** `UPDATE blocks SET order_index = i WHERE id = ? AND page_id = ?`. */
  function SetOrder(table: seq<Block>, pageId: int, id: Option<int>, i: int): seq<Block> {
    seq(|table|, k requires 0 <= k < |table| =>
      if id == Some(table[k].id) && table[k].pageId == pageId then table[k].(orderIndex := i) else table[k])
  }

  /** `blocks[i].id` for each listed element: `None` for an element that has no numeric `id`, which
      matches no row. A `null` element, whose `id` cannot be read, also gives `None` here; the
      operation throws before it is used. */
  function ListedIds(blocks: seq<Option<Option<int>>>): (r: seq<Option<int>>)
    ensures |r| == |blocks|
    ensures forall i :: 0 <= i < |blocks| && blocks[i].Some? ==> r[i] == blocks[i].value
  {
    seq(|blocks|, i requires 0 <= i < |blocks| => if blocks[i].Some? then blocks[i].value else None)
  }

  /** `Block.reorderBlocks`: one update per listed element, in list order, in one transaction.
      `blocks[i]` is `None` for a `null` element, `Some(None)` for one without a numeric `id`, and
      `Some(Some(n))` for one with `id` n. Reading the `id` of a `null` element throws; the
      transaction is then rolled back and the error rethrown, which `ok == false` stands for. */
  method ReorderBlocks(table: seq<Block>, pageId: int, blocks: seq<Option<Option<int>>>)
    returns (after: seq<Block>, ok: bool)
    ensures ok <==> forall i :: 0 <= i < |blocks| ==> blocks[i].Some?
    ensures !ok ==> after == table
    ensures ok ==> after == Reordered(table, pageId, ListedIds(blocks))
    ensures |after| == |table|
    ensures forall k :: 0 <= k < |table| ==> after[k] == table[k].(orderIndex := after[k].orderIndex)
    ensures forall k :: 0 <= k < |table| && table[k].pageId != pageId ==> after[k] == table[k]
    ensures ok ==> forall k, i ::
              0 <= k < |table| && 0 <= i < |blocks| && table[k].pageId == pageId && blocks[i] == Some(Some(table[k].id))
              ==> after[k].orderIndex >= i
    ensures forall k :: 0 <= k < |table| && Some(Some(table[k].id)) !in blocks ==> after[k] == table[k]
  {
    var ids := ListedIds(blocks);
    after := table;
    var i := 0;
    while i < |blocks|
      invariant 0 <= i <= |blocks|
      invariant forall j :: 0 <= j < i ==> blocks[j].Some?
      invariant after == Reordered(table, pageId, ids[..i])
    {
      if blocks[i].None? {
        return table, false;
      }
      var next := SetOrder(after, pageId, ids[i], i);
      forall k | 0 <= k < |table|
        ensures next[k] == Reordered(table, pageId, ids[..i + 1])[k]
      {
        assert ids[..i + 1][..i] == ids[..i];
      }
      after := next;
      i := i + 1;
    }
    assert ids[..i] == ids;
    ok := true;
  }

  // ----- saveBlocks -------------------------------------------------------------------------

  /** The rows `saveBlocks` inserts: the input list in order, with added ids `next + i`, and
      `order_index` equal to the position. */
  function Inserted(pageId: int, inputs: seq<BlockInput>, next: int): (r: seq<Block>)
    requires forall i :: 0 <= i < |inputs| ==> ValidType(inputs[i].btype)
  {
    seq(|inputs|, i requires 0 <= i < |inputs| => Stored(pageId, inputs[i], next + i, i))
  }

  /** The result of a committed bulk save. */
  datatype Saved = Saved(count: nat, blocks: seq<Block>)

  /** `Block.saveBlocks`: delete every row of the page, then insert the inputs in order, all in one
      transaction. Returns the table and counter afterwards and the outcome; on failure the
      transaction is rolled back and the table is returned unchanged. */
  function SaveBlocks(table: seq<Block>, next: int, pageId: int, inputs: seq<BlockInput>)
    : (r: (seq<Block>, int, Result<Saved>))
    requires WellFormed(table, next)
    ensures r.2.Failure? <==> exists i :: 0 <= i < |inputs| && !ValidType(inputs[i].btype)
    ensures r.2.Failure? ==> r.0 == table && r.1 == next
    ensures r.2.Success? ==> WellFormed(r.0, r.1) && r.2.value.count == |inputs|
    ensures r.2.Success? ==> r.2.value.blocks == FindByPageId(r.0, pageId)
    ensures r.2.Success? ==>
              && |r.2.value.blocks| == |inputs|
              && forall i :: 0 <= i < |inputs| ==>
                   r.2.value.blocks[i] == Stored(pageId, inputs[i], r.2.value.blocks[i].id, i)
    ensures r.2.Success? ==> forall i, b :: 0 <= i < |inputs| && b in table ==> r.2.value.blocks[i].id != b.id
    ensures r.2.Success? ==> Filter(r.0, OffPage(pageId)) == Filter(table, OffPage(pageId))
  {
    var bad := FindIndex(inputs, (x: BlockInput) => !ValidType(x.btype));
    if bad >= 0 then (table, next, Failure(TypeError(inputs[bad].btype)))
    else
      var added := Inserted(pageId, inputs, next);
      var t := Filter(table, OffPage(pageId)) + added;
      SaveBlocksFacts(table, next, pageId, inputs, added, t);
      SaveBlocksResult(table, next, pageId, inputs, added);
      (t, next + |inputs|, Success(Saved(|inputs|, FindByPageId(t, pageId))))
  }

  lemma SaveBlocksResult(table: seq<Block>, next: int, pageId: int, inputs: seq<BlockInput>, added: seq<Block>)
    requires WellFormed(table, next)
    requires forall i :: 0 <= i < |inputs| ==> ValidType(inputs[i].btype)
    requires added == Inserted(pageId, inputs, next)
    ensures |added| == |inputs|
    ensures forall i :: 0 <= i < |inputs| ==> added[i] == Stored(pageId, inputs[i], added[i].id, i)
    ensures forall i, b :: 0 <= i < |inputs| && b in table ==> added[i].id != b.id
  {
    forall i, b | 0 <= i < |inputs| && b in table
      ensures added[i].id != b.id
    {
      assert added[i].id == next + i;
    }
  }

  lemma SaveBlocksFacts(table: seq<Block>, next: int, pageId: int, inputs: seq<BlockInput>, added: seq<Block>, t: seq<Block>)
    requires WellFormed(table, next)
    requires forall i :: 0 <= i < |inputs| ==> ValidType(inputs[i].btype)
    requires added == Inserted(pageId, inputs, next)
    requires t == Filter(table, OffPage(pageId)) + added
    ensures FindByPageId(t, pageId) == added
    ensures Filter(t, OffPage(pageId)) == Filter(table, OffPage(pageId))
    ensures WellFormed(t, next + |inputs|)
  {
    InsertedShape(pageId, inputs, next);
    var others := Filter(table, OffPage(pageId));
    PageAfterSave(others, added, pageId);
    OthersAfterSave(table, others, added, pageId);
    SavedWellFormed(table, next, pageId, others, added);
  }

  lemma InsertedShape(pageId: int, inputs: seq<BlockInput>, next: int)
    requires forall i :: 0 <= i < |inputs| ==> ValidType(inputs[i].btype)
    ensures var added := Inserted(pageId, inputs, next);
            && |added| == |inputs|
            && forall i :: 0 <= i < |added| ==> added[i].pageId == pageId && added[i].orderIndex == i && added[i].id == next + i
  {
  }

  lemma PageAfterSave(others: seq<Block>, added: seq<Block>, pageId: int)
    requires forall b :: b in others ==> b.pageId != pageId
    requires forall i :: 0 <= i < |added| ==> added[i].pageId == pageId && added[i].orderIndex == i
    ensures FindByPageId(others + added, pageId) == added
  {
    NoneOnPage(others, pageId);
    FilterConcat(others, added, OnPage(pageId));
    FilterAll(added, OnPage(pageId));
    assert Filter(others + added, OnPage(pageId)) == added;
    SortBySorted(added, OrderIndex);
  }

  lemma OthersAfterSave(table: seq<Block>, others: seq<Block>, added: seq<Block>, pageId: int)
    requires others == Filter(table, OffPage(pageId))
    requires forall i :: 0 <= i < |added| ==> added[i].pageId == pageId
    ensures Filter(others + added, OffPage(pageId)) == others
  {
    AllOnPage(added, pageId);
    FilterConcat(others, added, OffPage(pageId));
    FilterIdempotent(table, OffPage(pageId));
  }

  lemma NoneOnPage(others: seq<Block>, pageId: int)
    requires forall b :: b in others ==> b.pageId != pageId
    ensures Filter(others, OnPage(pageId)) == []
  {
  }

  lemma AllOnPage(added: seq<Block>, pageId: int)
    requires forall i :: 0 <= i < |added| ==> added[i].pageId == pageId
    ensures Filter(added, OffPage(pageId)) == []
  {
  }

  lemma SavedWellFormed(table: seq<Block>, next: int, pageId: int, others: seq<Block>, added: seq<Block>)
    requires WellFormed(table, next)
    requires others == Filter(table, OffPage(pageId))
    requires forall i :: 0 <= i < |added| ==> added[i].id == next + i
    ensures WellFormed(others + added, next + |added|)
  {
    FilterDistinct(table, OffPage(pageId));
    assert forall b :: b in others ==> b.id < next by {
      forall b | b in others ensures b.id < next {
        var k :| 0 <= k < |table| && table[k] == b;
      }
    }
    AppendNumbered(others, added, next);
  }

  /** Rows numbered from the counter on can follow rows with distinct ids below the counter. */
  lemma AppendNumbered(others: seq<Block>, added: seq<Block>, next: int)
    requires DistinctIds(others) && forall b :: b in others ==> b.id < next
    requires forall i :: 0 <= i < |added| ==> added[i].id == next + i
    ensures WellFormed(others + added, next + |added|)
  {
    var t := others + added;
    forall i | 0 <= i < |t|
      ensures i < |others| ==> t[i].id < next
      ensures i >= |others| ==> t[i].id == next + i - |others|
    {
      if i < |others| {
        assert t[i] == others[i] && others[i] in others;
      } else {
        assert t[i] == added[i - |others|];
      }
    }
    forall i, j | 0 <= i < j < |t|
      ensures t[i].id != t[j].id
    {
      if j < |others| {
        assert t[i] == others[i] && t[j] == others[j];
      }
    }
  }

  /** Filtering a table with distinct ids keeps the ids distinct. */
  lemma {:induction false} FilterDistinct(table: seq<Block>, p: Block -> bool)
    requires DistinctIds(table)
    ensures DistinctIds(Filter(table, p))
  {
    if |table| > 0 {
      var init := table[..|table| - 1];
      var last := table[|table| - 1];
      DistinctInit(table);
      FilterDistinct(init, p);
      FilterSnoc(table, p);
      if p(last) {
        var f := Filter(init, p);
        assert forall b :: b in f ==> b.id != last.id;
        DistinctSnoc(f, last);
      }
    }
  }

  /** All but the last row of a table with distinct ids have distinct ids, none the last one's. */
  lemma DistinctInit(table: seq<Block>)
    requires DistinctIds(table) && |table| > 0
    ensures DistinctIds(table[..|table| - 1])
    ensures forall b :: b in table[..|table| - 1] ==> b.id != table[|table| - 1].id
  {
    var init := table[..|table| - 1];
    assert forall i :: 0 <= i < |init| ==> init[i] == table[i];
    forall b | b in init
      ensures b.id != table[|table| - 1].id
    {
      var k :| 0 <= k < |init| && init[k] == b;
      assert table[k] == b;
    }
  }

  /** A row whose id no row of `f` carries can be appended to `f` keeping ids distinct. */
  lemma DistinctSnoc(f: seq<Block>, last: Block)
    requires DistinctIds(f)
    requires forall b :: b in f ==> b.id != last.id
    ensures DistinctIds(f + [last])
  {
    var t := f + [last];
    forall i, j | 0 <= i < j < |t|
      ensures t[i].id != t[j].id
    {
      assert t[i] == f[i];
      if j < |f| {
        assert t[j] == f[j];
      }
    }
  }

  // ----- updateBlocks -----------------------------------------------------------------------

  /** The truthy ids among the inputs. */
  function InputIds(inputs: seq<BlockInput>): set<int> {
    set i | 0 <= i < |inputs| && Present(inputs[i].id) :: inputs[i].id.value
  }

  /** The rows the initial `DELETE` keeps: every row of another page, and the page's rows whose id
      is among the input ids. */
  function KeptBy(pageId: int, ids: set<int>): Block -> bool {
    (b: Block) => b.pageId != pageId || b.id in ids
  }

  /** `id` is truthy and already used by a row of another page, so inserting it violates the
      primary key. */
  predicate ForeignId(table: seq<Block>, pageId: int, id: Option<int>) {
    Present(id) && exists k :: 0 <= k < |table| && table[k].id == id.value && table[k].pageId != pageId
  }

  /** The row written for `input` at position `i`: its own id when it has one, `n` otherwise. */
  function RowFor(pageId: int, input: BlockInput, n: int, i: int): Block
    requires ValidType(input.btype)
  {
    Stored(pageId, input, if Present(input.id) then input.id.value else n, i)
  }

  /** `t'` is `t` with `row` written: either appended, or in place of the row of the same page
      carrying the same id. */
  predicate Replaces(t: seq<Block>, t': seq<Block>, row: Block) {
    || t' == t + [row]
    || exists k :: 0 <= k < |t| && t[k].id == row.id && t[k].pageId == row.pageId && t' == t[k := row]
  }

  /** One iteration of the `updateBlocks` loop for the input at position `i`: update the page's row
      with that id in place, or insert the block with its own id, or with the next generated id when
      it has none. */
  function ApplyInput(t: seq<Block>, n: int, pageId: int, i: int, input: BlockInput): (r: Result<(seq<Block>, int)>)
    requires WellFormed(t, n)
    ensures r.Failure? <==> !ValidType(input.btype) || ForeignId(t, pageId, input.id)
    ensures r.Success? ==> WellFormed(r.value.0, r.value.1) && r.value.1 >= n
    ensures r.Success? ==> Replaces(t, r.value.0, RowFor(pageId, input, n, i))
    ensures r.Success? && !Present(input.id) ==> r.value.0 == t + [RowFor(pageId, input, n, i)] && r.value.1 == n + 1
    ensures r.Success? && Present(input.id) ==> r.value.1 == Max(n, input.id.value + 1)
  {
    if !ValidType(input.btype) then Failure(TypeError(input.btype))
    else if !Present(input.id) then
      var row := RowFor(pageId, input, n, i);
      assert WellFormed(t + [row], n + 1);
      Success((t + [row], n + 1))
    else
      var id := input.id.value;
      var row := RowFor(pageId, input, n, i);
      var k := FindIndex(t, (b: Block) => b.id == id && b.pageId == pageId);
      if k >= 0 then
        assert WellFormed(t[k := row], n) by {
          assert forall m :: 0 <= m < |t| && m != k ==> t[k := row][m] == t[m];
        }
        Success((t[k := row], n))
      else if FindIndex(t, HasId(id)) >= 0 then
        Failure("Duplicate entry for key 'PRIMARY'")
      else
        assert WellFormed(t + [row], Max(n, id + 1));
        Success((t + [row], Max(n, id + 1)))
  }

  /** Position `j` is the last input before position `i` carrying its id. */
  predicate LastBefore(inputs: seq<BlockInput>, j: int, i: int)
    requires 0 <= j < |inputs| && i <= |inputs|
  {
    forall m :: j < m < i ==> inputs[m].id != inputs[j].id
  }

  /** Every truthy input id is below the auto-increment counter: the client only sends ids the
      server handed out. */
  predicate IdsBelow(inputs: seq<BlockInput>, next: int) {
    forall i :: 0 <= i < |inputs| && Present(inputs[i].id) ==> inputs[i].id.value < next
  }

  /** The rows written for the explicit-id inputs before position `i` that no later input
      overwrote are in `t`. */
  ghost predicate ExplicitWritten(t: seq<Block>, pageId: int, inputs: seq<BlockInput>, i: int)
    requires 0 <= i <= |inputs|
  {
    forall j :: 0 <= j < i && Present(inputs[j].id) && ValidType(inputs[j].btype) && LastBefore(inputs, j, i)
                ==> Stored(pageId, inputs[j], inputs[j].id.value, j) in t
  }

  /** The idless inputs before position `i` each have a row in `t` under a generated id. */
  ghost predicate FreshWritten(t: seq<Block>, pageId: int, inputs: seq<BlockInput>, next: int, i: int)
    requires 0 <= i <= |inputs|
  {
    forall j :: 0 <= j < i && !Present(inputs[j].id) && ValidType(inputs[j].btype)
                ==> exists c :: c in t && c.id >= next && c == Stored(pageId, inputs[j], c.id, j)
  }

  /** Every row of `t` with a generated id was written for one idless input before position `i`,
      and no two such rows carry the same position: no idless input was inserted twice. */
  ghost predicate FreshExact(t: seq<Block>, pageId: int, inputs: seq<BlockInput>, next: int, i: int)
    requires 0 <= i <= |inputs|
  {
    && (forall c :: c in t && c.id >= next ==>
          exists j :: 0 <= j < i && !Present(inputs[j].id) && ValidType(inputs[j].btype)
                      && c == Stored(pageId, inputs[j], c.id, j))
    && (forall x, y :: 0 <= x < y < |t| && t[x].id >= next && t[y].id >= next ==> t[x].orderIndex != t[y].orderIndex)
  }

  /** The page's rows in `t` carry a sent id or a generated one. */
  ghost predicate PageIdsFrom(t: seq<Block>, pageId: int, ids: set<int>, next: int) {
    forall c :: c in t && c.pageId == pageId ==> c.id in ids || c.id >= next
  }

  /** `Block.updateBlocks`: the id-preserving merge. In one transaction it deletes the page's rows
      whose id is not among the inputs, then updates or inserts each input in order with its
      position as `order_index`. Returns the table and counter afterwards and the outcome; on
      failure the transaction is rolled back. */
  method UpdateBlocks(table: seq<Block>, next: int, pageId: int, inputs: seq<BlockInput>)
    returns (after: seq<Block>, nextAfter: int, r: Result<nat>)
    requires WellFormed(table, next)
    ensures r.Failure? <==>
              exists i :: 0 <= i < |inputs| && (!ValidType(inputs[i].btype) || ForeignId(table, pageId, inputs[i].id))
    ensures r.Failure? ==> after == table && nextAfter == next
    ensures r.Success? ==> r.value == |inputs| && WellFormed(after, nextAfter)
    ensures r.Success? ==> Filter(after, OffPage(pageId)) == Filter(table, OffPage(pageId))
    ensures r.Success? ==> forall b, c :: b in table && b.pageId == pageId && b.id !in InputIds(inputs) && c in after
                                         ==> c.id != b.id
    ensures r.Success? ==> forall c :: c in after && c.pageId == pageId ==> c.id in InputIds(inputs) || c.id >= next
    ensures r.Success? ==> forall i :: 0 <= i < |inputs| && Present(inputs[i].id) && LastBefore(inputs, i, |inputs|)
                                       ==> Stored(pageId, inputs[i], inputs[i].id.value, i) in after
    ensures r.Success? && IdsBelow(inputs, next) ==>
              forall i :: 0 <= i < |inputs| && !Present(inputs[i].id)
                          ==> exists c :: c in after && c.id >= next && c == Stored(pageId, inputs[i], c.id, i)
    ensures r.Success? && IdsBelow(inputs, next) ==> FreshExact(after, pageId, inputs, next, |inputs|)
  {
    var t, n, error := MergeInputs(table, next, pageId, inputs);
    if error.Some? {
      return table, next, Failure(error.value);
    }
    FinishProgress(table, next, pageId, inputs, t, n);
    return t, n, Success(|inputs|);
  }

  /** The body of the `updateBlocks` transaction: the initial `DELETE`, then one step per input,
      stopping at the first SQL error. */
  method MergeInputs(table: seq<Block>, next: int, pageId: int, inputs: seq<BlockInput>)
    returns (t: seq<Block>, n: int, error: Option<string>)
    requires WellFormed(table, next)
    ensures error.Some? <==>
              exists i :: 0 <= i < |inputs| && (!ValidType(inputs[i].btype) || ForeignId(table, pageId, inputs[i].id))
    ensures error.None? ==> Progress(table, next, pageId, inputs, t, n, |inputs|)
  {
    t := Filter(table, KeptBy(pageId, InputIds(inputs)));
    StartProgress(table, next, pageId, inputs);
    n := next;
    var i := 0;
    while i < |inputs|
      invariant 0 <= i <= |inputs|
      invariant Progress(table, next, pageId, inputs, t, n, i)
    {
      ForeignSame(t, table, pageId, inputs[i].id);
      var step := ApplyInput(t, n, pageId, i, inputs[i]);
      if step.Failure? {
        assert !ValidType(inputs[i].btype) || ForeignId(table, pageId, inputs[i].id);
        return t, n, Some(step.error);
      }
      StepProgress(table, next, pageId, inputs, t, n, i, step.value.0, step.value.1);
      t, n := step.value.0, step.value.1;
      i := i + 1;
    }
    return t, n, None;
  }

  /** The loop invariant of `UpdateBlocks` after the inputs before position `i`. */
  ghost predicate Progress(table: seq<Block>, next: int, pageId: int, inputs: seq<BlockInput>,
                           t: seq<Block>, n: int, i: int)
    requires 0 <= i <= |inputs|
  {
    && WellFormed(t, n) && n >= next
    && Filter(t, OffPage(pageId)) == Filter(table, OffPage(pageId))
    && (forall j :: 0 <= j < i ==> ValidType(inputs[j].btype) && !ForeignId(table, pageId, inputs[j].id))
    && PageIdsFrom(t, pageId, InputIds(inputs), next)
    && ExplicitWritten(t, pageId, inputs, i)
    && (IdsBelow(inputs, next) ==> FreshWritten(t, pageId, inputs, next, i) && FreshExact(t, pageId, inputs, next, i))
  }

  lemma StartProgress(table: seq<Block>, next: int, pageId: int, inputs: seq<BlockInput>)
    requires WellFormed(table, next)
    ensures Progress(table, next, pageId, inputs, Filter(table, KeptBy(pageId, InputIds(inputs))), next, 0)
  {
    var ids := InputIds(inputs);
    var t := Filter(table, KeptBy(pageId, ids));
    FilterWeaker(table, KeptBy(pageId, ids), OffPage(pageId));
    FilterDistinct(table, KeptBy(pageId, ids));
    assert forall c :: c in t ==> c in table && KeptBy(pageId, ids)(c);
    assert forall c :: c in t ==> c.id < next;
    NoneGenerated(t, pageId, inputs, next);
    assert PageIdsFrom(t, pageId, ids, next);
  }

  /** A table whose ids are all below the counter holds no generated row yet. */
  lemma NoneGenerated(t: seq<Block>, pageId: int, inputs: seq<BlockInput>, next: int)
    requires forall c :: c in t ==> c.id < next
    ensures FreshWritten(t, pageId, inputs, next, 0) && FreshExact(t, pageId, inputs, next, 0)
  {
    assert forall x :: 0 <= x < |t| ==> t[x] in t;
  }

  lemma StepProgress(table: seq<Block>, next: int, pageId: int, inputs: seq<BlockInput>,
                     t: seq<Block>, n: int, i: int, t': seq<Block>, n': int)
    requires 0 <= i < |inputs| && Progress(table, next, pageId, inputs, t, n, i)
    requires ApplyInput(t, n, pageId, i, inputs[i]) == Success((t', n'))
    ensures Progress(table, next, pageId, inputs, t', n', i + 1)
  {
    ForeignSame(t, table, pageId, inputs[i].id);
    var row := RowFor(pageId, inputs[i], n, i);
    ReplacesFacts(t, t', row);
    StepKeepsOthers(t, t', pageId, row);
    StepPageIds(t, t', row, pageId, inputs, i, InputIds(inputs), next, n);
    StepExplicit(t, t', row, pageId, inputs, i, n);
    if IdsBelow(inputs, next) {
      StepFresh(t, t', row, pageId, inputs, i, next, n);
      StepFreshExact(t, t', row, pageId, inputs, i, next, n);
    }
  }

  lemma FinishProgress(table: seq<Block>, next: int, pageId: int, inputs: seq<BlockInput>, t: seq<Block>, n: int)
    requires WellFormed(table, next) && Progress(table, next, pageId, inputs, t, n, |inputs|)
    ensures forall i :: 0 <= i < |inputs| ==> ValidType(inputs[i].btype) && !ForeignId(table, pageId, inputs[i].id)
    ensures WellFormed(t, n)
    ensures Filter(t, OffPage(pageId)) == Filter(table, OffPage(pageId))
    ensures forall b, c :: b in table && b.pageId == pageId && b.id !in InputIds(inputs) && c in t ==> c.id != b.id
    ensures forall c :: c in t && c.pageId == pageId ==> c.id in InputIds(inputs) || c.id >= next
    ensures forall i :: 0 <= i < |inputs| && Present(inputs[i].id) && LastBefore(inputs, i, |inputs|)
                        ==> Stored(pageId, inputs[i], inputs[i].id.value, i) in t
    ensures IdsBelow(inputs, next) ==>
              forall i :: 0 <= i < |inputs| && !Present(inputs[i].id)
                          ==> exists c :: c in t && c.id >= next && c == Stored(pageId, inputs[i], c.id, i)
    ensures IdsBelow(inputs, next) ==> FreshExact(t, pageId, inputs, next, |inputs|)
  {
    DeletedStayDeleted(table, next, pageId, InputIds(inputs), t);
  }

  lemma ForeignSame(t: seq<Block>, table: seq<Block>, pageId: int, id: Option<int>)
    requires Filter(t, OffPage(pageId)) == Filter(table, OffPage(pageId))
    ensures ForeignId(t, pageId, id) <==> ForeignId(table, pageId, id)
  {
    ForeignInOthers(t, pageId, id);
    ForeignInOthers(table, pageId, id);
  }

  /** An id is foreign exactly when a row of the other pages carries it. */
  lemma ForeignInOthers(t: seq<Block>, pageId: int, id: Option<int>)
    ensures ForeignId(t, pageId, id) <==>
              Present(id) && exists b :: b in Filter(t, OffPage(pageId)) && b.id == id.value
  {
    var f := Filter(t, OffPage(pageId));
    if ForeignId(t, pageId, id) {
      var k :| 0 <= k < |t| && t[k].id == id.value && t[k].pageId != pageId;
      assert t[k] in f;
    }
    if Present(id) && exists b :: b in f && b.id == id.value {
      var b :| b in f && b.id == id.value;
      var k :| 0 <= k < |t| && t[k] == b;
      assert t[k].id == id.value && t[k].pageId != pageId;
    }
  }

  /** Writing a row keeps it, keeps every row with another id, and adds nothing else. */
  lemma ReplacesFacts(t: seq<Block>, t': seq<Block>, row: Block)
    requires Replaces(t, t', row)
    ensures row in t'
    ensures forall w :: w in t && w.id != row.id ==> w in t'
    ensures forall c :: c in t' ==> c == row || c in t
  {
    if t' != t + [row] {
      var k :| 0 <= k < |t| && t[k].id == row.id && t[k].pageId == row.pageId && t' == t[k := row];
      assert t'[k] == row;
      forall w | w in t && w.id != row.id
        ensures w in t'
      {
        var m :| 0 <= m < |t| && t[m] == w;
        assert t'[m] == w;
      }
      forall c | c in t'
        ensures c == row || c in t
      {
        var m :| 0 <= m < |t'| && t'[m] == c;
        if m != k {
          assert t[m] == c;
        }
      }
    }
  }

  /** A loop step touches only rows of the page. */
  lemma StepKeepsOthers(t: seq<Block>, t': seq<Block>, pageId: int, row: Block)
    requires row.pageId == pageId && Replaces(t, t', row)
    ensures Filter(t', OffPage(pageId)) == Filter(t, OffPage(pageId))
  {
    if t' == t + [row] {
      FilterConcat(t, [row], OffPage(pageId));
      assert [row][..0] == [];
    } else {
      var k :| 0 <= k < |t| && t[k].id == row.id && t[k].pageId == row.pageId && t' == t[k := row];
      FilterUpdateDropped(t, k, row, OffPage(pageId));
    }
  }

  lemma StepPageIds(t: seq<Block>, t': seq<Block>, row: Block, pageId: int, inputs: seq<BlockInput>, i: int,
                    ids: set<int>, next: int, n: int)
    requires 0 <= i < |inputs| && ValidType(inputs[i].btype) && n >= next
    requires ids == InputIds(inputs) && row == RowFor(pageId, inputs[i], n, i)
    requires forall c :: c in t' ==> c == row || c in t
    requires PageIdsFrom(t, pageId, ids, next)
    ensures PageIdsFrom(t', pageId, ids, next)
  {
    assert Present(inputs[i].id) ==> row.id in ids;
  }

  lemma StepExplicit(t: seq<Block>, t': seq<Block>, row: Block, pageId: int, inputs: seq<BlockInput>, i: int, n: int)
    requires 0 <= i < |inputs| && ValidType(inputs[i].btype) && row == RowFor(pageId, inputs[i], n, i)
    requires row in t' && forall w :: w in t && w.id != row.id ==> w in t'
    requires !Present(inputs[i].id) ==> forall w :: w in t ==> w in t'
    requires ExplicitWritten(t, pageId, inputs, i)
    ensures ExplicitWritten(t', pageId, inputs, i + 1)
  {
    forall j | 0 <= j < i + 1 && Present(inputs[j].id) && ValidType(inputs[j].btype) && LastBefore(inputs, j, i + 1)
      ensures Stored(pageId, inputs[j], inputs[j].id.value, j) in t'
    {
      if j < i {
        assert LastBefore(inputs, j, i);
        assert inputs[i].id != inputs[j].id;
      }
    }
  }

  lemma StepFresh(t: seq<Block>, t': seq<Block>, row: Block, pageId: int, inputs: seq<BlockInput>, i: int,
                  next: int, n: int)
    requires 0 <= i < |inputs| && ValidType(inputs[i].btype) && n >= next && row == RowFor(pageId, inputs[i], n, i)
    requires IdsBelow(inputs, next) && WellFormed(t, n)
    requires row in t' && forall w :: w in t && w.id != row.id ==> w in t'
    requires FreshWritten(t, pageId, inputs, next, i)
    ensures FreshWritten(t', pageId, inputs, next, i + 1)
  {
    forall j | 0 <= j < i + 1 && !Present(inputs[j].id) && ValidType(inputs[j].btype)
      ensures exists c :: c in t' && c.id >= next && c == Stored(pageId, inputs[j], c.id, j)
    {
      if j < i {
        var c :| c in t && c.id >= next && c == Stored(pageId, inputs[j], c.id, j);
        assert c in t';
      } else {
        assert row.id == n;
      }
    }
  }

  lemma StepFreshExact(t: seq<Block>, t': seq<Block>, row: Block, pageId: int, inputs: seq<BlockInput>, i: int,
                       next: int, n: int)
    requires 0 <= i < |inputs| && ValidType(inputs[i].btype) && n >= next && row == RowFor(pageId, inputs[i], n, i)
    requires IdsBelow(inputs, next) && Replaces(t, t', row)
    requires !Present(inputs[i].id) ==> t' == t + [row]
    requires FreshExact(t, pageId, inputs, next, i)
    ensures FreshExact(t', pageId, inputs, next, i + 1)
  {
    ReplacesFacts(t, t', row);
    forall c | c in t' && c.id >= next
      ensures exists j :: 0 <= j < i + 1 && !Present(inputs[j].id) && ValidType(inputs[j].btype)
                          && c == Stored(pageId, inputs[j], c.id, j)
    {
      if c == row {
        assert !Present(inputs[i].id);
      }
    }
    if !Present(inputs[i].id) {
      forall x, y | 0 <= x < y < |t'| && t'[x].id >= next && t'[y].id >= next
        ensures t'[x].orderIndex != t'[y].orderIndex
      {
        if y == |t| {
          assert t'[x] == t[x] && t[x] in t;
          var j :| 0 <= j < i && !Present(inputs[j].id) && ValidType(inputs[j].btype)
                   && t[x] == Stored(pageId, inputs[j], t[x].id, j);
        } else {
          assert t'[x] == t[x] && t'[y] == t[y];
        }
      }
    } else {
      assert row.id < next;
      forall x, y | 0 <= x < y < |t'| && t'[x].id >= next && t'[y].id >= next
        ensures t'[x].orderIndex != t'[y].orderIndex
      {
        if t' == t + [row] {
          assert t'[x] == t[x] && t'[y] == t[y];
        } else {
          var k :| 0 <= k < |t| && t[k].id == row.id && t[k].pageId == row.pageId && t' == t[k := row];
          assert t'[x] == t[x] && t'[y] == t[y];
        }
      }
    }
  }

  /** A row of the page whose id was not sent is gone for good: no row of the final table has its id. */
  lemma DeletedStayDeleted(table: seq<Block>, next: int, pageId: int, ids: set<int>, after: seq<Block>)
    requires WellFormed(table, next)
    requires Filter(after, OffPage(pageId)) == Filter(table, OffPage(pageId))
    requires PageIdsFrom(after, pageId, ids, next)
    ensures forall b, c :: b in table && b.pageId == pageId && b.id !in ids && c in after ==> c.id != b.id
  {
    forall b, c | b in table && b.pageId == pageId && b.id !in ids && c in after
      ensures c.id != b.id
    {
      if c.pageId != pageId {
        assert c in Filter(after, OffPage(pageId));
        assert c in table;
        var x :| 0 <= x < |table| && table[x] == b;
        var y :| 0 <= y < |table| && table[y] == c;
        assert x != y;
      }
    }
  }
}

=== FILE: blocks.dfy ===
/** The `blocks` table and the operations of the `Block` model over it. The table is a sequence of
    rows; an operation returns the new table, and a failed transaction returns the old one. */
module Blocks {
  import opened Wrappers
  import opened Json
  import opened Seqs
  import opened UpdateBuilder

  /** `type VARCHAR(50) NOT NULL`; the session runs in strict mode, so a longer value is an error. */
  const TypeMaxLength := 50

  /** A row of `blocks` (timestamps omitted). */
  datatype Block = Block(
    id: int,
    pageId: int,
    btype: string,
    properties: JValue,
    format: JValue,
    parentId: Option<int>,
    orderIndex: int)

  /** A block as a caller supplies it; every field may be `undefined`. */
  datatype BlockInput = BlockInput(
    id: Option<int>,
    btype: Option<string>,
    properties: Option<JValue>,
    format: Option<JValue>,
    parentId: Option<int>)

  /** The table invariants the database maintains: primary keys are distinct and below the
      auto-increment counter `next`. */
  predicate WellFormed(table: seq<Block>, next: int) {
    && (forall i, j :: 0 <= i < j < |table| ==> table[i].id != table[j].id)
    && (forall i :: 0 <= i < |table| ==> table[i].id < next)
  }

  /** A `type` value the column accepts. */
  predicate ValidType(t: Option<string>) {
    t.Some? && |t.value| <= TypeMaxLength
  }

  function TypeError(t: Option<string>): string {
    if t.None? then "Column 'type' cannot be null" else "Data too long for column 'type'"
  }

  /** The row an insert or full update writes for `input`: `properties` and `format` default to `{}`
      and `parent_id` to null. */
  function Stored(pageId: int, input: BlockInput, id: int, orderIndex: int): Block
    requires ValidType(input.btype)
  {
    Block(id, pageId, input.btype.value, Or(input.properties, EmptyObject), Or(input.format, EmptyObject),
          IdOrNull(input.parentId), orderIndex)
  }

  function OnPage(pageId: int): Block -> bool {
    (b: Block) => b.pageId == pageId
  }

  function OffPage(pageId: int): Block -> bool {
    (b: Block) => b.pageId != pageId
  }

  function HasId(id: int): Block -> bool {
    (b: Block) => b.id == id
  }

  function WithoutId(id: int): Block -> bool {
    (b: Block) => b.id != id
  }

  function OrderIndex(b: Block): int {
    b.orderIndex
  }

  /** `Block.findByPageId`: the page's blocks, ascending by `order_index`. */
  function FindByPageId(table: seq<Block>, pageId: int): (r: seq<Block>)
    ensures SortedBy(r, OrderIndex)
    ensures forall b :: multiset(r)[b] == if b.pageId == pageId then multiset(table)[b] else 0
  {
    SortBy(Filter(table, OnPage(pageId)), OrderIndex)
  }

  /** `Block.findById`. */
  function FindById(table: seq<Block>, id: int): (r: Option<Block>)
    ensures r.Some? ==> r.value in table && r.value.id == id
    ensures r.None? <==> forall i :: 0 <= i < |table| ==> table[i].id != id
  {
    Find(table, HasId(id))
  }

  /** `Block.create`: appends one row with a fresh id. `page_id` and `type` are NOT NULL columns, so a
      missing one makes the insert fail. */
  function Create(table: seq<Block>, next: int, pageId: Option<int>, input: BlockInput, orderIndex: Option<int>)
    : (r: Result<(seq<Block>, int, Block)>)
    requires WellFormed(table, next)
    ensures r.Success? <==> pageId.Some? && ValidType(input.btype)
    ensures r.Success? ==>
              var (t, n, b) := r.value;
              && t == table + [b]
              && WellFormed(t, n)
              && (forall c :: c in table ==> c.id != b.id)
              && b == Stored(pageId.value, input, b.id, IdOrNull(orderIndex).GetOr(0))
              && b in FindByPageId(t, pageId.value)
  {
    if pageId.None? then Failure("Column 'page_id' cannot be null")
    else if !ValidType(input.btype) then Failure(TypeError(input.btype))
    else
      var b := Stored(pageId.value, input, next, IdOrNull(orderIndex).GetOr(0));
      var t := table + [b];
      AppendFresh(table, next, b);
      assert b in multiset(FindByPageId(t, pageId.value));
      Success((t, next + 1, b))
  }

  /** Appending a row with the counter's id keeps the table well formed and clashes with no row. */
  lemma AppendFresh(table: seq<Block>, next: int, b: Block)
    requires WellFormed(table, next) && b.id == next
    ensures WellFormed(table + [b], next + 1)
    ensures forall c :: c in table ==> c.id != b.id
  {
    var t := table + [b];
    assert forall i :: 0 <= i < |table| ==> t[i] == table[i];
  }

  /** `Block.delete`: removes the row with that id and reports whether one was removed. */
  function Delete(table: seq<Block>, id: int): (r: (seq<Block>, bool))
    ensures r.1 <==> exists i :: 0 <= i < |table| && table[i].id == id
    ensures forall b :: multiset(r.0)[b] == if b.id == id then 0 else multiset(table)[b]
  {
    var t := Filter(table, WithoutId(id));
    FilterLength(table, WithoutId(id));
    (t, |t| < |table|)
  }

  // ----- Block.update -----------------------------------------------------------------------

  /** The columns `Block.update` serialises with `JSON.stringify`. */
  const JsonColumns: set<string> := {"properties", "format"}

  /** Every column of `blocks`; a `SET` naming any other is rejected before a row is looked at. The
      two timestamps are columns of the table that the row model does not carry. */
  const TableColumns: set<string> :=
    {"id", "page_id", "type", "properties", "format", "parent_id", "order_index", "created_at", "updated_at"}

  /** Every assignment names a column of the table. */
  predicate KnownColumns(fields: seq<Assignment>) {
    Columns(fields) <= TableColumns
  }

  /** No two rows share an id, as the primary key guarantees. */
  predicate DistinctIds(table: seq<Block>) {
    forall i, j :: 0 <= i < j < |table| ==> table[i].id != table[j].id
  }

  /** The values each column of `blocks` takes: a number for `id`, `page_id` and `order_index`, a
      number or null for `parent_id`, a string of at most 50 characters for `type`, serialised JSON
      for `properties` and `format`, and anything for the timestamps. */
  predicate Accepts(a: Assignment) {
    match a.column
    case "id" => a.value.Plain? && a.value.v.JNum?
    case "page_id" => a.value.Plain? && a.value.v.JNum?
    case "order_index" => a.value.Plain? && a.value.v.JNum?
    case "parent_id" => a.value.Plain? && (a.value.v.JNum? || a.value.v.JNull?)
    case "type" => a.value.Plain? && a.value.v.JStr? && |a.value.v.s| <= TypeMaxLength
    case "properties" => a.value.JsonText?
    case "format" => a.value.JsonText?
    case "created_at" => true
    case "updated_at" => true
    case _ => false
  }

  /** A list every column accepts names only columns of the table. */
  lemma AcceptedKnown(fields: seq<Assignment>)
    ensures (forall a :: a in fields ==> Accepts(a)) ==> KnownColumns(fields)
  {
  }

  /** Rows `b` and `c` hold the same value in `column`. */
  predicate Agrees(b: Block, c: Block, column: string) {
    match column
    case "id" => b.id == c.id
    case "type" => b.btype == c.btype
    case "properties" => b.properties == c.properties
    case "format" => b.format == c.format
    case "parent_id" => b.parentId == c.parentId
    case "order_index" => b.orderIndex == c.orderIndex
    case "page_id" => b.pageId == c.pageId
    case _ => true
  }

  function NullableId(x: Option<int>): JValue {
    if x.None? then JNull else JNum(x.value)
  }

  /** Row `c` holds the value assignment `a` writes; a timestamp is not carried, so any value holds. */
  predicate Holds(c: Block, a: Assignment) {
    match a.column
    case "id" => a.value == Plain(JNum(c.id))
    case "type" => a.value == Plain(JStr(c.btype))
    case "properties" => a.value == JsonText(c.properties)
    case "format" => a.value == JsonText(c.format)
    case "parent_id" => a.value == Plain(NullableId(c.parentId))
    case "order_index" => a.value == Plain(JNum(c.orderIndex))
    case "page_id" => a.value == Plain(JNum(c.pageId))
    case "created_at" => true
    case "updated_at" => true
    case _ => false
  }

  /** One `column = ?` applied to a row; a value the column cannot take is an SQL error. */
  function ApplyField(b: Block, a: Assignment): (r: Result<Block>)
    ensures a.column !in TableColumns ==> r.Failure?
    ensures r.Success? <==> Accepts(a)
    ensures r.Success? ==> Holds(r.value, a)
    ensures r.Success? ==> forall column :: column != a.column ==> Agrees(b, r.value, column)
  {
    match (a.column, a.value)
    case ("id", Plain(JNum(n))) => Success(b.(id := n))
    case ("type", Plain(JStr(s))) =>
      if |s| <= TypeMaxLength then Success(b.(btype := s)) else Failure("Data too long for column 'type'")
    case ("properties", JsonText(v)) => Success(b.(properties := v))
    case ("format", JsonText(v)) => Success(b.(format := v))
    case ("parent_id", Plain(JNull)) => Success(b.(parentId := None))
    case ("parent_id", Plain(JNum(n))) => Success(b.(parentId := Some(n)))
    case ("order_index", Plain(JNum(n))) => Success(b.(orderIndex := n))
    case ("page_id", Plain(JNum(n))) => Success(b.(pageId := n))
    case ("created_at", _) => Success(b)
    case ("updated_at", _) => Success(b)
    case _ => Failure("Incorrect value for column '" + a.column + "'")
  }

  /** Everything `ApplyFields` promises about turning `b` into `c` with `fields`. */
  ghost predicate AppliedAll(b: Block, fields: seq<Assignment>, c: Block) {
    && (forall column :: column !in Columns(fields) ==> Agrees(b, c, column))
    && (forall i :: 0 <= i < |fields| && LastFor(fields, i) ==> Holds(c, fields[i]))
  }

  /** `fields[i]` is the last assignment to its column. */
  predicate LastFor(fields: seq<Assignment>, i: int)
    requires 0 <= i < |fields|
  {
    forall j :: i < j < |fields| ==> fields[j].column != fields[i].column
  }

  lemma AgreesTransfer(c: Block, d: Block, a: Assignment)
    requires Holds(c, a) && Agrees(c, d, a.column)
    ensures Holds(d, a)
  {
  }

  lemma AgreesChain(b: Block, c: Block, d: Block, column: string)
    requires Agrees(b, c, column) && Agrees(c, d, column)
    ensures Agrees(b, d, column)
  {
  }

  lemma ApplyFieldsStep(b: Block, fields: seq<Assignment>, c: Block, d: Block)
    requires |fields| > 0
    requires AppliedAll(b, fields[..|fields| - 1], c)
    requires Holds(d, fields[|fields| - 1])
    requires forall column :: column != fields[|fields| - 1].column ==> Agrees(c, d, column)
    ensures AppliedAll(b, fields, d)
  {
    var init := fields[..|fields| - 1];
    var last := fields[|fields| - 1];
    assert Columns(fields) == Columns(init) + {last.column} by {
      assert forall a :: a in fields <==> a in init || a == last;
    }
    forall column | column !in Columns(fields)
      ensures Agrees(b, d, column)
    {
      AgreesChain(b, c, d, column);
    }
    forall i | 0 <= i < |fields| && LastFor(fields, i)
      ensures Holds(d, fields[i])
    {
      if i < |fields| - 1 {
        assert init[i] == fields[i];
        assert LastFor(init, i);
        assert fields[i].column != last.column;
        AgreesTransfer(c, d, fields[i]);
      }
    }
  }

  /** The `SET` list applied left to right: the last assignment to a column wins and every column
      the list does not name keeps its value. */
  function ApplyFields(b: Block, fields: seq<Assignment>): (r: Result<Block>)
    ensures r.Success? <==> forall a :: a in fields ==> Accepts(a)
    ensures r.Success? ==> AppliedAll(b, fields, r.value)
  {
    if |fields| == 0 then Success(b)
    else
      InitLast(fields);
      match ApplyFields(b, fields[..|fields| - 1])
      case Failure(e) => Failure(e)
      case Success(c) =>
        var r := ApplyField(c, fields[|fields| - 1]);
        if r.Success? then
          ApplyFieldsStep(b, fields, c, r.value);
          r
        else r
  }

  /** The elements of a non-empty list are those of all but its last, and its last. */
  lemma InitLast(fields: seq<Assignment>)
    requires |fields| > 0
    ensures forall a :: a in fields <==> a in fields[..|fields| - 1] || a == fields[|fields| - 1]
  {
    assert fields == fields[..|fields| - 1] + [fields[|fields| - 1]];
  }

  /** A list that writes `id` only as the row's own id leaves the row's id as it was. */
  lemma {:induction false} KeptId(b: Block, fields: seq<Assignment>)
    requires KeepsId(fields, b.id) && ApplyFields(b, fields).Success?
    ensures ApplyFields(b, fields).value.id == b.id
  {
    if |fields| > 0 {
      var init := fields[..|fields| - 1];
      var last := fields[|fields| - 1];
      InitLast(fields);
      KeptId(b, init);
      var c := ApplyFields(b, init).value;
      var d := ApplyField(c, last).value;
      if last.column == "id" {
        assert Holds(d, last);
      } else {
        assert Agrees(c, d, "id");
      }
    }
  }

  /** Under distinct ids, a row that keeps its id takes no other row's id. */
  lemma OwnIdFree(table: seq<Block>, id: int, k: int, fields: seq<Assignment>)
    requires 0 <= k < |table| && table[k].id == id && ApplyFields(table[k], fields).Success?
    ensures DistinctIds(table) && KeepsId(fields, id) ==> IdFreeFor(table, k, ApplyFields(table[k], fields).value)
  {
    if DistinctIds(table) && KeepsId(fields, id) {
      KeptId(table[k], fields);
    }
  }

  /** No row other than the `k`-th carries the id `b` would give it. */
  predicate IdFreeFor(table: seq<Block>, k: int, b: Block) {
    forall j :: 0 <= j < |table| && j != k ==> table[j].id != b.id
  }

  /** `Block.update`: the builder's `SET` list applied to the row with that id, then that id read
      back. A column the table does not have is an error whether or not a row matches; a new `id`
      another row already has is a duplicate key. When the list rewrites `id`, the read-back finds
      no row. */
  function Update(table: seq<Block>, id: int, updates: Updates): (r: Result<(seq<Block>, Option<Block>)>)
    ensures r.Failure? && (forall i :: 0 <= i < |updates| ==> updates[i].1.None?) ==> r.error == NoFieldsMessage
    ensures (forall i :: 0 <= i < |updates| ==> updates[i].1.None?) ==> r.Failure?
    ensures !KnownColumns(Fields(updates, map[], JsonColumns)) ==> r.Failure?
    ensures r.Success? ==> |r.value.0| == |table|
    ensures r.Success? ==> forall k :: 0 <= k < |table| && table[k].id != id ==> r.value.0[k] == table[k]
    ensures r.Success? ==> r.value.1 == FindById(r.value.0, id)
    ensures r.Success? && (forall k :: 0 <= k < |table| ==> table[k].id != id) ==> r.value.0 == table
    ensures r.Success? ==> forall k :: 0 <= k < |table| && r.value.0[k] != table[k] ==>
              && table[k].id == id
              && AppliedAll(table[k], Fields(updates, map[], JsonColumns), r.value.0[k])
              && IdFreeFor(r.value.0, k, r.value.0[k])
    ensures r.Success? && "id" !in Columns(Fields(updates, map[], JsonColumns)) ==>
              forall k :: 0 <= k < |table| ==> r.value.0[k].id == table[k].id
    ensures r.Success? && (exists k :: 0 <= k < |table| && table[k].id == id) ==>
              exists k :: 0 <= k < |table| && table[k].id == id &&
                          AppliedAll(table[k], Fields(updates, map[], JsonColumns), r.value.0[k])
    ensures && DistinctIds(table)
            && (exists i :: 0 <= i < |updates| && updates[i].1.Some?)
            && (forall a :: a in Fields(updates, map[], JsonColumns) ==> Accepts(a))
            && KeepsId(Fields(updates, map[], JsonColumns), id)
            ==> r.Success?
  {
    var fields :- Build(updates, map[], JsonColumns);
    if !KnownColumns(fields) then
      AcceptedKnown(fields);
      Failure("Unknown column in 'field list'")
    else
      var k := FindIndex(table, HasId(id));
      if k == -1 then Success((table, None))
      else
        var b :- ApplyFields(table[k], fields);
        if !IdFreeFor(table, k, b) then
          OwnIdFree(table, id, k, fields);
          Failure("Duplicate entry for key 'PRIMARY'")
        else
          var t := table[k := b];
          Replaced(table, id, k, b, fields);
          Success((t, FindById(t, id)))
  }

  /** Writing `b` over the `k`-th row, which has the id updated, changes only that row. */
  lemma Replaced(table: seq<Block>, id: int, k: int, b: Block, fields: seq<Assignment>)
    requires 0 <= k < |table| && table[k].id == id
    requires AppliedAll(table[k], fields, b) && IdFreeFor(table, k, b)
    ensures var t := table[k := b];
            && |t| == |table|
            && (forall j :: 0 <= j < |table| && table[j].id != id ==> t[j] == table[j])
            && (forall j :: 0 <= j < |table| && t[j] != table[j] ==>
                  && table[j].id == id && AppliedAll(table[j], fields, t[j]) && IdFreeFor(t, j, t[j]))
            && ("id" !in Columns(fields) ==> forall j :: 0 <= j < |table| ==> t[j].id == table[j].id)
            && exists j :: 0 <= j < |table| && table[j].id == id && AppliedAll(table[j], fields, t[j])
  {
    var t := table[k := b];
    assert t[k] == b;
    if "id" !in Columns(fields) {
      assert Agrees(table[k], b, "id");
    }
  }

  /** A request that echoes the row's own `id` next to a new `type`, as an editor sends a whole row
      back, succeeds: the id is rewritten to itself and the new value is read back. */
  lemma EchoedIdAccepted(table: seq<Block>, id: int, v: string)
    requires forall i, j :: 0 <= i < j < |table| ==> table[i].id != table[j].id
    requires exists k :: 0 <= k < |table| && table[k].id == id
    requires |v| <= TypeMaxLength
    ensures var r := Update(table, id, [("id", Some(JNum(id))), ("type", Some(JStr(v)))]);
            r.Success? && r.value.1.Some? && r.value.1.value.btype == v
  {
    var updates: Updates := [("id", Some(JNum(id))), ("type", Some(JStr(v)))];
    EchoFields(id, v);
    var fields := Fields(updates, map[], JsonColumns);
    assert Build(updates, map[], JsonColumns) == Success(fields);
    assert KnownColumns(fields);
    var k := FindIndex(table, HasId(id));
    var b := table[k].(btype := v);
    EchoApplied(table[k], v);
    assert IdFreeFor(table, k, b);
    ReadBack(table, k, b);
  }

  lemma EchoFields(id: int, v: string)
    ensures var fields := Fields([("id", Some(JNum(id))), ("type", Some(JStr(v)))], map[], JsonColumns);
            && fields == [Assignment("id", Plain(JNum(id))), Assignment("type", Plain(JStr(v)))]
            && Columns(fields) == {"id", "type"}
  {
    var updates: Updates := [("id", Some(JNum(id))), ("type", Some(JStr(v)))];
    var first := Assignment("id", Plain(JNum(id)));
    var second := Assignment("type", Plain(JStr(v)));
    assert updates[..1][..0] == [];
    assert AssignmentOf("id", JNum(id), map[], JsonColumns) == first;
    assert AssignmentOf("type", JStr(v), map[], JsonColumns) == second;
    assert Fields(updates[..1][..0], map[], JsonColumns) == [];
    assert Fields(updates[..1], map[], JsonColumns) == [first];
    assert updates[..|updates| - 1] == updates[..1];
    var fields := Fields(updates, map[], JsonColumns);
    assert fields == [first, second];
    assert Columns(fields) == {"id", "type"} by {
      assert fields[0] in fields && fields[1] in fields;
    }
  }

  lemma EchoApplied(row: Block, v: string)
    requires |v| <= TypeMaxLength
    ensures ApplyFields(row, [Assignment("id", Plain(JNum(row.id))), Assignment("type", Plain(JStr(v)))])
            == Success(row.(btype := v))
  {
    var fields := [Assignment("id", Plain(JNum(row.id))), Assignment("type", Plain(JStr(v)))];
    assert fields[..1] == [fields[0]] && fields[..1][..0] == [];
    assert ApplyField(row, fields[0]) == Success(row);
    assert ApplyFields(row, fields[..1]) == Success(row);
  }

  /** After the `k`-th row is replaced by one whose id no other row has, reading that id back finds
      the new row. */
  lemma ReadBack(table: seq<Block>, k: int, b: Block)
    requires 0 <= k < |table| && IdFreeFor(table, k, b)
    ensures FindById(table[k := b], b.id) == Some(b)
  {
    var t := table[k := b];
    var found := FindById(t, b.id);
    assert found.Some? by {
      assert t[k].id == b.id;
    }
    var j :| 0 <= j < |t| && t[j] == found.value;
    assert j == k;
  }
}

=== FILE: error_handler.dfy ===
/** The application's error middleware: which status and message an error becomes, checked
    strictly in order, and the `notFound` error for unmatched routes. Logging is left out. */
module ErrorHandler {
  import opened Wrappers
  import opened Text

  /** An error value as the handler sees it. `validationMessages` is `Object.values(err.errors)`
      mapped to each entry's message (`None` when `errors` is missing, so the mapping throws). */
  datatype ErrorValue = ErrorValue(
    name: Option<string>,
    code: Option<string>,
    message: Option<string>,
    statusCode: Option<int>,
    validationMessages: Option<seq<Option<string>>>,
    stack: Option<string>)

  const DefaultMessage := "Internal Server Error"
  const DefaultStatus := 500

  /** `err.message` is a non-empty string. */
  predicate HasMessage(err: ErrorValue) {
    err.message.Some? && err.message.value != ""
  }

  /** The rules of the handler, in the order it tries them. */
  datatype Rule = Validation | Duplicate | MissingReference | BadInput | NotFoundMessage | InvalidMessage | CustomStatus | Fallback

  /** The first four rules, which look at the error's name and database code only. */
  function CodeRule(err: ErrorValue): (r: Option<Rule>)
    ensures r == Some(Validation) <==> err.name == Some("ValidationError")
    ensures r == Some(Duplicate) <==> err.name != Some("ValidationError") && err.code == Some("23505")
    ensures r == Some(MissingReference) <==> err.name != Some("ValidationError") && err.code == Some("23503")
    ensures r == Some(BadInput) <==> err.name != Some("ValidationError") && err.code == Some("22P02")
    ensures r.None? <==> err.name != Some("ValidationError") && err.code !in {Some("23505"), Some("23503"), Some("22P02")}
  {
    if err.name == Some("ValidationError") then Some(Validation)
    else if err.code == Some("23505") then Some(Duplicate)
    else if err.code == Some("23503") then Some(MissingReference)
    else if err.code == Some("22P02") then Some(BadInput)
    else None
  }

  /** The rule that decides an error: an earlier rule wins over every later one. The message test
      for "invalid" is guarded by the message's presence, as the "not found" test is. */
  function RuleOf(err: ErrorValue): (r: Rule)
    ensures CodeRule(err).Some? ==> r == CodeRule(err).value
    ensures CodeRule(err).None? ==>
              && (r == NotFoundMessage <==> HasMessage(err) && Contains(err.message.value, "not found"))
              && (r == InvalidMessage <==>
                    HasMessage(err) && !Contains(err.message.value, "not found")
                    && (Contains(err.message.value, "invalid") || Contains(err.message.value, "Invalid")))
              && (r == CustomStatus <==>
                    !(HasMessage(err) && (Contains(err.message.value, "not found") || Contains(err.message.value, "invalid")
                                           || Contains(err.message.value, "Invalid")))
                    && Present(err.statusCode))
  {
    match CodeRule(err)
    case Some(rule) => rule
    case None =>
      if HasMessage(err) && Contains(err.message.value, "not found") then NotFoundMessage
      else if HasMessage(err) && (Contains(err.message.value, "invalid") || Contains(err.message.value, "Invalid"))
      then InvalidMessage
      else if Present(err.statusCode) then CustomStatus
      else Fallback
  }

  /** The status, the `error` text and the `errors` list an error is answered with. */
  datatype Classified = Classified(status: int, error: string, errors: Option<seq<Option<string>>>)

  /** What a rule answers with; a validation error without `errors` throws (`None`). */
  function Answer(rule: Rule, err: ErrorValue): (r: Option<Classified>)
    ensures r.None? <==> rule == Validation && err.validationMessages.None?
    ensures r.Some? && rule != Validation ==> r.value.errors.None?
    ensures r.Some? && rule == Validation ==>
              r.value.status == 400 && r.value.error == "Validation Error" && r.value.errors == err.validationMessages
    ensures rule == Duplicate ==> r.value.status == 409 && r.value.error == "Duplicate entry"
    ensures rule == MissingReference ==> r.value.status == 400 && r.value.error == "Referenced record not found"
    ensures rule == BadInput ==> r.value.status == 400 && r.value.error == "Invalid input data"
    ensures rule == NotFoundMessage ==> r.value.status == 404 && r.value.error == err.message.GetOr("")
    ensures rule == InvalidMessage ==> r.value.status == 400 && r.value.error == err.message.GetOr("")
    ensures rule == CustomStatus && Present(err.statusCode) ==> r.value.status == err.statusCode.value
    ensures rule == CustomStatus && HasMessage(err) ==> r.value.error == err.message.value
    ensures rule == CustomStatus && !HasMessage(err) ==> r.value.error == DefaultMessage
    ensures rule == Fallback ==> r.value.status == DefaultStatus && r.value.error == DefaultMessage
  {
    match rule
    case Validation =>
      if err.validationMessages.None? then None
      else Some(Classified(400, "Validation Error", err.validationMessages))
    case Duplicate => Some(Classified(409, "Duplicate entry", None))
    case MissingReference => Some(Classified(400, "Referenced record not found", None))
    case BadInput => Some(Classified(400, "Invalid input data", None))
    case NotFoundMessage => Some(Classified(404, err.message.GetOr(""), None))
    case InvalidMessage => Some(Classified(400, err.message.GetOr(""), None))
    case CustomStatus => Some(Classified(err.statusCode.GetOr(DefaultStatus), StrOr(err.message, DefaultMessage), None))
    case Fallback => Some(Classified(DefaultStatus, DefaultMessage, None))
  }

  /** The handler's classification with the message test fixed to `err.message && (... || ...)`. */
  function Classify(err: ErrorValue): (r: Option<Classified>)
    ensures r.None? <==> err.name == Some("ValidationError") && err.validationMessages.None?
    ensures r.Some? && RuleOf(err) in {NotFoundMessage, InvalidMessage} ==>
              HasMessage(err) && r.value.error == err.message.value
    ensures r.Some? && RuleOf(err) == CustomStatus ==> r.value.status == err.statusCode.value
    ensures r.Some? && RuleOf(err) == Fallback ==> r.value == Classified(DefaultStatus, DefaultMessage, None)
    ensures r.Some? && err.name == Some("ValidationError") ==>
              r.value == Classified(400, "Validation Error", err.validationMessages)
    ensures r.Some? && err.name != Some("ValidationError") ==> r.value.errors.None?
  {
    Answer(RuleOf(err), err)
  }

  /** The classification exactly as written: `err.message && err.message.includes('invalid') ||
      err.message.includes('Invalid')` reads `err.message.includes` even when the message is
      missing, which throws (`None`). */
  function ClassifyAsWritten(err: ErrorValue): (r: Option<Classified>)
    ensures r.None? <==>
              || (err.name == Some("ValidationError") && err.validationMessages.None?)
              || (CodeRule(err).None? && err.message.None?)
  {
    match CodeRule(err)
    case Some(rule) => Answer(rule, err)
    case None =>
      if HasMessage(err) && Contains(err.message.value, "not found") then Answer(NotFoundMessage, err)
      else if (HasMessage(err) && Contains(err.message.value, "invalid"))
              || (if err.message.Some? then Contains(err.message.value, "Invalid") else false)
      then Answer(InvalidMessage, err)
      else if err.message.None? then None
      else if Present(err.statusCode) then Answer(CustomStatus, err)
      else Answer(Fallback, err)
  }

  /** The written handler agrees with the fixed one wherever it does not throw, and throws beyond
      the fixed one exactly for errors without a message that no code rule catches. */
  lemma AsWrittenAgrees(err: ErrorValue)
    ensures ClassifyAsWritten(err).Some? ==> ClassifyAsWritten(err) == Classify(err)
    ensures ClassifyAsWritten(err).None? && Classify(err).Some? <==> CodeRule(err).None? && err.message.None?
  {
  }

  /** An error carrying only a status code, as `next({ statusCode: 403 })` passes on. */
  const BareStatusError := ErrorValue(None, None, None, Some(403), None, None)

  /** The written handler throws on it, where the evident intent is a 403 answer. */
  lemma BareStatusErrorThrows()
    ensures ClassifyAsWritten(BareStatusError).None?
    ensures Classify(BareStatusError) == Some(Classified(403, DefaultMessage, None))
  {
  }

  /** A database code or a validation error decides the answer whatever status code the error
      carries: earlier rules win. */
  lemma EarlierRuleWins(err: ErrorValue, statusCode: Option<int>)
    requires CodeRule(err).Some?
    ensures Classify(err.(statusCode := statusCode)) == Classify(err)
  {
  }

  /** A message that says "not found" gives 404 whatever status code the error carries. */
  lemma NotFoundMessageWins(err: ErrorValue, statusCode: Option<int>)
    requires CodeRule(err).None? && HasMessage(err) && Contains(err.message.value, "not found")
    ensures Classify(err.(statusCode := statusCode)) == Some(Classified(404, err.message.value, None))
  {
  }

  /** The body the handler sends; the development extras are the raw message and the stack. */
  datatype Extras = Extras(message: Option<string>, stack: Option<string>)
  datatype ErrorResponse = ErrorResponse(status: int, error: string, errors: Option<seq<Option<string>>>, extras: Option<Extras>)

  /** `errorHandler`: the classified answer, with the raw message and stack only in development
      mode (`NODE_ENV` is `development`). `None` when classifying throws. */
  function HandleError(err: ErrorValue, development: bool): (r: Option<ErrorResponse>)
    ensures r.Some? <==> Classify(err).Some?
    ensures r.Some? ==> (r.value.extras.Some? <==> development)
    ensures r.Some? && development ==> r.value.extras == Some(Extras(err.message, err.stack))
    ensures r.Some? ==> r.value.status == Classify(err).value.status && r.value.error == Classify(err).value.error
    ensures r.Some? ==> r.value.errors == Classify(err).value.errors
    ensures r.Some? && r.value.errors.Some? ==> err.name == Some("ValidationError") && r.value.errors == err.validationMessages
  {
    match Classify(err)
    case None => None
    case Some(c) => Some(ErrorResponse(c.status, c.error, c.errors, if development then Some(Extras(err.message, err.stack)) else None))
  }

  /** Production and development answers differ only in the extras. */
  lemma ModesDifferOnlyInExtras(err: ErrorValue)
    ensures HandleError(err, true).Some? <==> HandleError(err, false).Some?
    ensures HandleError(err, true).Some? ==> HandleError(err, true).value.(extras := None) == HandleError(err, false).value
  {
  }

  /** `notFound`: the error an unmatched route raises (its stack is left out). */
  function NotFound(url: string): (r: ErrorValue)
    ensures r.statusCode == Some(404) && r.message == Some("Not Found - " + url)
    ensures r.name == Some("Error") && r.code.None?
  {
    ErrorValue(Some("Error"), None, Some("Not Found - " + url), Some(404), None, None)
  }

  /** An unmatched route is answered 404 unless its URL says "not found" (still 404) or "invalid"
      (then 400, because the message rules come before the status code). */
  lemma NotFoundAnswer(url: string)
    ensures var msg := "Not Found - " + url;
            var c := Classify(NotFound(url));
            && c.Some?
            && (Contains(msg, "not found") ==> c.value == Classified(404, msg, None))
            && (!Contains(msg, "not found") && (Contains(msg, "invalid") || Contains(msg, "Invalid")) ==>
                  c.value == Classified(400, msg, None))
            && (!Contains(msg, "not found") && !Contains(msg, "invalid") && !Contains(msg, "Invalid") ==>
                  c.value == Classified(404, msg, None))
  {
  }
}

=== FILE: helpers.dfy ===
/** The pure string and object helpers of `utils/helpers.js`: slugs, file names, UUIDs, file
    extensions and shallow merges. Strings are sequences of Unicode scalar values; letter case is
    ASCII only. */
module Helpers {
  import opened Text
  import opened Seqs
  import opened Json

  // ---------------------------------------------------------------------------------------------
  // generateSlug
  // ---------------------------------------------------------------------------------------------

  /** The regular-expression class `\w`. */
  predicate IsWordChar(c: char) {
    IsAlnum(c) || c == '_'
  }

  /** The regular-expression class `\s`: ECMAScript white space and line terminators. */
  predicate IsSpace(c: char) {
    || c == '\t' || c == '\n' || c == '\U{000B}' || c == '\U{000C}' || c == '\r' || c == ' '
    || c == '\U{00A0}' || c == '\U{1680}' || c == '\U{2028}' || c == '\U{2029}' || c == '\U{202F}'
    || c == '\U{205F}' || c == '\U{3000}' || c == '\U{FEFF}'
    || '\U{2000}' <= c <= '\U{200A}'
  }

  /** The class `[\s_-]` whose runs become one dash. */
  predicate IsSeparator(c: char) {
    IsSpace(c) || c == '_' || c == '-'
  }

  /** The class `[\w\s-]` that survives the first replacement. */
  predicate Kept(c: char) {
    IsWordChar(c) || IsSpace(c) || c == '-'
  }

  predicate NotSeparator(c: char) {
    !IsSeparator(c)
  }

  predicate NotDash(c: char) {
    c != '-'
  }

  /** A character a slug may hold. */
  predicate IsSlugChar(c: char) {
    IsLower(c) || IsDigit(c) || c == '-'
  }

  predicate NoDoubleDash(s: string) {
    forall i, j :: 0 <= i < |s| && 0 <= j < |s| && j == i + 1 ==> !(s[i] == '-' && s[j] == '-')
  }

  /** What `generateSlug` promises of its result. */
  predicate IsSlug(s: string) {
    && (forall i :: 0 <= i < |s| ==> IsSlugChar(s[i]))
    && NoDoubleDash(s)
    && (|s| > 0 ==> s[0] != '-' && s[|s| - 1] != '-')
  }

  /** `replace(/[\s_-]+/g, '-')`: every maximal run of separators becomes one dash. `afterSep`
      says whether the character before `s` belonged to such a run. */
  function Collapse(s: string, afterSep: bool): (r: string)
    ensures |r| <= |s|
    ensures forall i :: 0 <= i < |r| ==> r[i] == '-' || (r[i] in s && !IsSeparator(r[i]))
    ensures NoDoubleDash(r)
    ensures afterSep && |r| > 0 ==> r[0] != '-'
    decreases |s|
  {
    if |s| == 0 then []
    else if IsSeparator(s[0]) then
      if afterSep then Collapse(s[1..], true) else ['-'] + Collapse(s[1..], true)
    else [s[0]] + Collapse(s[1..], false)
  }

  /** `replace(/^-+/, '')`. */
  function TrimLeading(s: string): (r: string)
    ensures |r| <= |s| && r == s[|s| - |r|..]
    ensures forall i :: 0 <= i < |s| - |r| ==> s[i] == '-'
    ensures |r| > 0 ==> r[0] != '-'
    decreases |s|
  {
    if |s| > 0 && s[0] == '-' then TrimLeading(s[1..]) else s
  }

  /** `replace(/-+$/, '')`. */
  function TrimTrailing(s: string): (r: string)
    ensures |r| <= |s| && r == s[..|r|]
    ensures forall i :: |r| <= i < |s| ==> s[i] == '-'
    ensures |r| > 0 ==> r[|r| - 1] != '-'
    decreases |s|
  {
    if |s| > 0 && s[|s| - 1] == '-' then TrimTrailing(s[..|s| - 1]) else s
  }

  /** `replace(/^-+|-+$/g, '')`. */
  function TrimDashes(s: string): string {
    TrimTrailing(TrimLeading(s))
  }

  /** `generateSlug`: lower-case, drop everything outside `[\w\s-]`, turn separator runs into one
      dash, trim dashes at both ends. */
  function Slug(title: string): (r: string)
    ensures IsSlug(r)
  {
    var lowered := Lower(title);
    var kept := Filter(lowered, Kept);
    var collapsed := Collapse(kept, false);
    SlugShape(lowered, kept, collapsed);
    TrimDashes(collapsed)
  }

  lemma SlugShape(lowered: string, kept: string, collapsed: string)
    requires forall i :: 0 <= i < |lowered| ==> !IsUpper(lowered[i])
    requires kept == Filter(lowered, Kept) && collapsed == Collapse(kept, false)
    ensures IsSlug(TrimDashes(collapsed))
  {
    forall i | 0 <= i < |collapsed|
      ensures IsSlugChar(collapsed[i])
    {
      if collapsed[i] != '-' {
        assert collapsed[i] in lowered;
      }
    }
    TrimDashesShape(collapsed);
  }

  /** Trimming the dashes off a dash-separated word list gives a slug. */
  lemma TrimDashesShape(s: string)
    requires forall i :: 0 <= i < |s| ==> IsSlugChar(s[i])
    requires NoDoubleDash(s)
    ensures IsSlug(TrimDashes(s))
  {
    var front := TrimLeading(s);
    SliceShape(s, |s| - |front|, |s|);
    var r := TrimTrailing(front);
    SliceShape(front, 0, |r|);
  }

  /** A slice of a dash-separated word list is one too. */
  lemma SliceShape(s: string, a: nat, b: nat)
    requires a <= b <= |s|
    requires forall i :: 0 <= i < |s| ==> IsSlugChar(s[i])
    requires NoDoubleDash(s)
    ensures forall i :: 0 <= i < b - a ==> IsSlugChar(s[a..b][i])
    ensures NoDoubleDash(s[a..b])
  {
    var t := s[a..b];
    assert forall i :: 0 <= i < |t| ==> t[i] == s[a + i];
    forall i, j | 0 <= i < |t| && 0 <= j < |t| && j == i + 1
      ensures !(t[i] == '-' && t[j] == '-')
    {
      assert t[i] == s[a + i] && t[j] == s[a + j];
    }
  }

  /** A slug's own slug is itself. */
  lemma SlugIdempotent(title: string)
    ensures Slug(Slug(title)) == Slug(title)
  {
    SlugFixed(Slug(title));
  }

  /** Every slug-shaped string is left unchanged by `Slug`. */
  lemma SlugFixed(s: string)
    requires IsSlug(s)
    ensures Slug(s) == s
  {
    assert Lower(s) == s;
    FilterAll(s, Kept);
    CollapseFixed(s, false);
  }

  lemma {:induction false} CollapseFixed(s: string, afterSep: bool)
    requires forall i :: 0 <= i < |s| ==> IsSlugChar(s[i])
    requires NoDoubleDash(s)
    requires afterSep && |s| > 0 ==> s[0] != '-'
    ensures Collapse(s, afterSep) == s
    decreases |s|
  {
    if |s| > 0 {
      CollapseFixed(s[1..], s[0] == '-');
      assert s == [s[0]] + s[1..];
    }
  }

  /** The slug keeps exactly the title's ASCII letters and digits, lower-cased and in order;
      everything else is a dash. */
  lemma SlugKeepsAlnum(title: string)
    ensures Filter(Slug(title), NotDash) == Filter(Lower(title), IsAlnum)
  {
    var lowered := Lower(title);
    var kept := Filter(lowered, Kept);
    var collapsed := Collapse(kept, false);
    assert Filter(Slug(title), NotDash) == Filter(kept, NotSeparator) by {
      TrimFilter(collapsed);
      CollapseFilter(kept, false);
    }
    assert Filter(kept, NotSeparator) == Filter(kept, IsAlnum) by {
      forall i | 0 <= i < |kept|
        ensures NotSeparator(kept[i]) == IsAlnum(kept[i])
      {
        KeptSeparator(kept[i]);
      }
      FilterCongruent(kept, NotSeparator, IsAlnum);
    }
    FilterWeaker(lowered, Kept, IsAlnum);
  }

  /** Among the characters the first replacement keeps, the non-separators are the letters and
      digits. */
  lemma KeptSeparator(c: char)
    requires Kept(c)
    ensures NotSeparator(c) == IsAlnum(c)
  {
  }

  /** Trimming dashes loses no other character. */
  lemma TrimFilter(s: string)
    ensures Filter(TrimDashes(s), NotDash) == Filter(s, NotDash)
  {
    TrimLeadingFilter(s);
    TrimTrailingFilter(TrimLeading(s));
  }

  lemma {:induction false} TrimLeadingFilter(s: string)
    ensures Filter(TrimLeading(s), NotDash) == Filter(s, NotDash)
    decreases |s|
  {
    if |s| > 0 && s[0] == '-' {
      TrimLeadingFilter(s[1..]);
      FilterHead(s, NotDash);
    }
  }

  lemma {:induction false} TrimTrailingFilter(s: string)
    ensures Filter(TrimTrailing(s), NotDash) == Filter(s, NotDash)
    decreases |s|
  {
    if |s| > 0 && s[|s| - 1] == '-' {
      TrimTrailingFilter(s[..|s| - 1]);
    }
  }

  /** Collapsing separators keeps every non-separator and turns the rest into dashes. */
  lemma {:induction false} CollapseFilter(s: string, afterSep: bool)
    ensures Filter(Collapse(s, afterSep), NotDash) == Filter(s, NotSeparator)
    decreases |s|
  {
    if |s| > 0 {
      CollapseFilter(s[1..], IsSeparator(s[0]));
      CollapseFilterStep(s, afterSep);
    }
  }

  lemma CollapseFilterStep(s: string, afterSep: bool)
    requires |s| > 0
    requires Filter(Collapse(s[1..], IsSeparator(s[0])), NotDash) == Filter(s[1..], NotSeparator)
    ensures Filter(Collapse(s, afterSep), NotDash) == Filter(s, NotSeparator)
  {
    var rest := Collapse(s[1..], IsSeparator(s[0]));
    FilterHead(s, NotSeparator);
    if !IsSeparator(s[0]) {
      FilterCons(s[0], rest, NotDash);
    } else if !afterSep {
      FilterCons('-', rest, NotDash);
    }
  }

  /** Two words joined by any run of spaces, underscores or dashes become the two words, lower-cased,
      joined by exactly one dash: "Hello World", "hello_world" and "Hello -- World" all give
      "hello-world". */
  lemma SlugJoinsWords(a: string, sep: string, b: string)
    requires |a| > 0 && forall i :: 0 <= i < |a| ==> IsAlnum(a[i])
    requires |sep| > 0 && forall i :: 0 <= i < |sep| ==> IsSeparator(sep[i])
    requires |b| > 0 && forall i :: 0 <= i < |b| ==> IsAlnum(b[i])
    ensures Slug(a + sep + b) == Lower(a) + "-" + Lower(b)
  {
    var la, lb := Lower(a), Lower(b);
    LoweredJoin(a, sep, b);
    LowerAlnum(a);
    LowerAlnum(b);
    KeptJoin(la, sep, lb);
    CollapsedJoin(la, sep, lb);
    TrimmedJoin(la + "-" + lb);
  }

  lemma LowerAlnum(w: string)
    requires forall i :: 0 <= i < |w| ==> IsAlnum(w[i])
    ensures forall i :: 0 <= i < |Lower(w)| ==> IsAlnum(Lower(w)[i]) && !IsSeparator(Lower(w)[i])
  {
  }

  lemma KeptJoin(la: string, sep: string, lb: string)
    requires forall i :: 0 <= i < |la| ==> IsAlnum(la[i])
    requires forall i :: 0 <= i < |sep| ==> IsSeparator(sep[i])
    requires forall i :: 0 <= i < |lb| ==> IsAlnum(lb[i])
    ensures Filter(la + sep + lb, Kept) == la + sep + lb
  {
    var s := la + sep + lb;
    forall i | 0 <= i < |s|
      ensures Kept(s[i])
    {
      if i < |la| {
        assert s[i] == la[i];
      } else if i < |la| + |sep| {
        assert s[i] == sep[i - |la|];
      } else {
        assert s[i] == lb[i - |la| - |sep|];
      }
    }
    FilterAll(s, Kept);
  }

  lemma LoweredJoin(a: string, sep: string, b: string)
    requires forall i :: 0 <= i < |sep| ==> IsSeparator(sep[i])
    ensures Lower(a + sep + b) == Lower(a) + sep + Lower(b)
  {
    LowerSeparators(sep);
    LowerConcat(a + sep, b);
    LowerConcat(a, sep);
  }

  lemma CollapsedJoin(la: string, sep: string, lb: string)
    requires |la| > 0 && forall i :: 0 <= i < |la| ==> !IsSeparator(la[i])
    requires |sep| > 0 && forall i :: 0 <= i < |sep| ==> IsSeparator(sep[i])
    requires |lb| > 0 && forall i :: 0 <= i < |lb| ==> !IsSeparator(lb[i])
    ensures Collapse(la + sep + lb, false) == la + "-" + lb
  {
    AppendAssociative(la, sep, lb);
    CollapseWord(la, sep + lb, false);
    CollapseRun(sep, lb);
    CollapseWord(lb, [], true);
    assert lb + [] == lb;
  }

  /** A string that neither starts nor ends with a dash loses nothing to the trim. */
  lemma TrimmedJoin(s: string)
    requires |s| > 0 && s[0] != '-' && s[|s| - 1] != '-'
    ensures TrimDashes(s) == s
  {
  }

  lemma LowerConcat(x: string, y: string)
    ensures Lower(x + y) == Lower(x) + Lower(y)
  {
  }

  lemma LowerSeparators(sep: string)
    requires forall i :: 0 <= i < |sep| ==> IsSeparator(sep[i])
    ensures Lower(sep) == sep
  {
  }

  /** A word with no separator passes through `Collapse` unchanged and ends a separator run. */
  lemma {:induction false} CollapseWord(w: string, rest: string, afterSep: bool)
    requires |w| > 0 && forall i :: 0 <= i < |w| ==> !IsSeparator(w[i])
    ensures Collapse(w + rest, afterSep) == w + Collapse(rest, false)
    decreases |w|
  {
    assert (w + rest)[1..] == w[1..] + rest;
    if |w| > 1 {
      CollapseWord(w[1..], rest, false);
    } else {
      assert w[1..] + rest == rest;
    }
  }

  /** A separator run becomes one dash when no run precedes it. */
  lemma {:induction false} CollapseRun(sep: string, rest: string)
    requires |sep| > 0 && forall i :: 0 <= i < |sep| ==> IsSeparator(sep[i])
    ensures Collapse(sep + rest, false) == "-" + Collapse(rest, true)
  {
    assert (sep + rest)[1..] == sep[1..] + rest;
    CollapseRunAfter(sep[1..], rest);
  }

  /** A separator run right after another adds nothing. */
  lemma {:induction false} CollapseRunAfter(sep: string, rest: string)
    requires forall i :: 0 <= i < |sep| ==> IsSeparator(sep[i])
    ensures Collapse(sep + rest, true) == Collapse(rest, true)
    decreases |sep|
  {
    if |sep| == 0 {
      assert sep + rest == rest;
    } else {
      assert (sep + rest)[1..] == sep[1..] + rest;
      CollapseRunAfter(sep[1..], rest);
    }
  }

  // ---------------------------------------------------------------------------------------------
  // sanitizeFilename
  // ---------------------------------------------------------------------------------------------

  const FilenameMaxLength := 100

  /** The class `[a-z0-9.-]` matched case-insensitively. */
  predicate IsFilenameChar(c: char) {
    IsAlnum(c) || c == '.' || c == '-'
  }

  /** `sanitizeFilename`: every character outside the class becomes `_`, the rest is lower-cased,
      and the result is cut to 100 characters. */
  function SanitizeFilename(filename: string): (r: string)
    ensures |r| == Min(|filename|, FilenameMaxLength)
    ensures forall i :: 0 <= i < |r| ==>
              r[i] == (if IsFilenameChar(filename[i]) then LowerChar(filename[i]) else '_')
  {
    var replaced := seq(|filename|, i requires 0 <= i < |filename| =>
                          if IsFilenameChar(filename[i]) then filename[i] else '_');
    var lowered := Lower(replaced);
    if |lowered| <= FilenameMaxLength then lowered else lowered[..FilenameMaxLength]
  }

  /** A sanitised name holds only lower-case letters, digits, `.`, `-` and `_`, and sanitising it
      again changes nothing. */
  lemma SanitizeFilenameIdempotent(filename: string)
    ensures forall i :: 0 <= i < |SanitizeFilename(filename)| ==>
              var c := SanitizeFilename(filename)[i];
              IsLower(c) || IsDigit(c) || c == '.' || c == '-' || c == '_'
    ensures SanitizeFilename(SanitizeFilename(filename)) == SanitizeFilename(filename)
  {
  }

  // ---------------------------------------------------------------------------------------------
  // isValidUUID
  // ---------------------------------------------------------------------------------------------

  /** `[0-9a-f]` under the case-insensitive flag. */
  predicate IsHex(c: char) {
    IsDigit(c) || 'a' <= c <= 'f' || 'A' <= c <= 'F'
  }

  predicate AllHex(s: string) {
    forall i :: 0 <= i < |s| ==> IsHex(s[i])
  }

  /** The UUID pattern group by group: 8, 4, 4 and 4 hex digits and 12 more, dash-separated, the
      third group led by a version digit `1`-`5` and the fourth by a variant digit `89ab`. */
  predicate IsValidUUID(s: string) {
    && |s| == 36
    && AllHex(s[0..8]) && s[8] == '-'
    && AllHex(s[9..13]) && s[13] == '-'
    && '1' <= s[14] <= '5' && AllHex(s[15..18]) && s[18] == '-'
    && s[19] in {'8', '9', 'a', 'b', 'A', 'B'} && AllHex(s[20..23]) && s[23] == '-'
    && AllHex(s[24..36])
  }

  predicate IsDashPosition(i: int) {
    i == 8 || i == 13 || i == 18 || i == 23
  }

  /** The pattern position by position: dashes at 8, 13, 18 and 23, hex digits elsewhere, a version
      digit at 14 and a variant digit at 19. */
  lemma UUIDPositions(s: string)
    ensures IsValidUUID(s) <==>
              && |s| == 36
              && (forall i :: 0 <= i < 36 ==> if IsDashPosition(i) then s[i] == '-' else IsHex(s[i]))
              && '1' <= s[14] <= '5'
              && s[19] in {'8', '9', 'a', 'b', 'A', 'B'}
  {
    if |s| == 36 {
      assert forall i :: 0 <= i < 8 ==> s[0..8][i] == s[i];
      assert forall i :: 0 <= i < 4 ==> s[9..13][i] == s[9 + i] && s[20..23][i % 3] == s[20 + i % 3];
      assert forall i :: 0 <= i < 3 ==> s[15..18][i] == s[15 + i];
      assert forall i :: 0 <= i < 12 ==> s[24..36][i] == s[24 + i];
    }
  }

  // ---------------------------------------------------------------------------------------------
  // getFileExtension / isImageFile
  // ---------------------------------------------------------------------------------------------

  function TrimTrailingSlashes(p: string): (r: string)
    ensures |r| <= |p| && r == p[..|r|] && (|r| > 0 ==> r[|r| - 1] != '/')
    ensures forall i :: |r| <= i < |p| ==> p[i] == '/'
    decreases |p|
  {
    if |p| > 0 && p[|p| - 1] == '/' then TrimTrailingSlashes(p[..|p| - 1]) else p
  }

  /** What follows the last `/` of `p`. */
  function AfterLastSlash(p: string): (r: string)
    ensures |r| <= |p| && r == p[|p| - |r|..] && '/' !in r
    ensures |r| < |p| ==> p[|p| - |r| - 1] == '/'
    decreases |p|
  {
    if |p| == 0 || p[|p| - 1] == '/' then []
    else AfterLastSlash(p[..|p| - 1]) + [p[|p| - 1]]
  }

  /** The last path segment, as POSIX `path.basename` takes it: trailing slashes ignored. */
  function BaseName(p: string): (r: string)
    ensures '/' !in r
  {
    AfterLastSlash(TrimTrailingSlashes(p))
  }

  /** The index of the last `c` in `s`, or -1. */
  function LastIndexOf(s: string, c: char): (r: int)
    ensures -1 <= r < |s|
    ensures r >= 0 ==> s[r] == c
    ensures forall i :: r < i < |s| ==> s[i] != c
    decreases |s|
  {
    if |s| == 0 then -1
    else if s[|s| - 1] == c then |s| - 1
    else LastIndexOf(s[..|s| - 1], c)
  }

  /** POSIX `path.extname`: from the last dot of the last segment on, unless the segment has no
      dot, its only dot-led part is at its start (`.bashrc`), or it is `..`. */
  function Extname(p: string): (r: string)
    ensures |r| > 0 ==> r[0] == '.'
    ensures forall i :: 0 <= i < |r| ==> r[i] != '/' && (i > 0 ==> r[i] != '.')
    ensures EndsWith(BaseName(p), r)
    ensures r == [] <==> (var d := LastIndexOf(BaseName(p), '.'); d <= 0 || BaseName(p) == "..")
  {
    SegmentExtension(BaseName(p))
  }

  /** The extension of one path segment. */
  function SegmentExtension(base: string): (r: string)
    requires '/' !in base
    ensures |r| > 0 ==> r[0] == '.'
    ensures forall i :: 0 <= i < |r| ==> r[i] != '/' && (i > 0 ==> r[i] != '.')
    ensures EndsWith(base, r)
    ensures r == [] <==> (var d := LastIndexOf(base, '.'); d <= 0 || base == "..")
  {
    var d := LastIndexOf(base, '.');
    if d <= 0 || base == ".." then
      assert EndsWith(base, []) by { assert base[|base|..] == []; }
      []
    else
      ExtShape(base, d);
      base[d..]
  }

  /** The tail of a segment from its last dot on: dot-led, with no further dot or slash. */
  lemma ExtShape(base: string, d: int)
    requires '/' !in base && 0 <= d < |base| && base[d] == '.'
    requires forall i :: d < i < |base| ==> base[i] != '.'
    ensures var ext := base[d..];
            && ext[0] == '.' && EndsWith(base, ext)
            && forall i :: 0 <= i < |ext| ==> ext[i] != '/' && (i > 0 ==> ext[i] != '.')
  {
    var ext := base[d..];
    assert forall i :: 0 <= i < |ext| ==> ext[i] == base[d + i];
    assert base[|base| - |ext|..] == ext;
  }

  /** A dot-free, slash-free stem followed by a dot-led extension has exactly that extension. */
  lemma ExtnameOfStemAndExtension(stem: string, ext: string)
    requires |stem| > 0 && '.' !in stem && '/' !in stem
    requires |ext| > 1 && ext[0] == '.' && '.' !in ext[1..] && '/' !in ext
    ensures Extname(stem + ext) == ext
  {
    var p := stem + ext;
    assert ext == [ext[0]] + ext[1..];
    assert TrimTrailingSlashes(p) == p;
    AfterLastSlashAll(p);
    var d := LastIndexOf(p, '.');
    assert p[|stem|] == '.';
    assert forall i :: |stem| < i < |p| ==> p[i] == ext[1..][i - |stem| - 1];
    assert d == |stem|;
    assert p[d..] == ext;
  }

  /** A path with no slash is its own last segment. */
  lemma {:induction false} AfterLastSlashAll(p: string)
    requires '/' !in p
    ensures AfterLastSlash(p) == p
    decreases |p|
  {
    if |p| > 0 {
      assert '/' !in p[..|p| - 1];
      AfterLastSlashAll(p[..|p| - 1]);
    }
  }

  /** A name without a dot, or with only a leading one, has no extension. */
  lemma ExtnameOfDotless(stem: string)
    requires '/' !in stem && forall i :: 0 < i < |stem| ==> stem[i] != '.'
    ensures Extname(stem) == []
  {
    AfterLastSlashAll(stem);
    if |stem| > 0 {
      assert TrimTrailingSlashes(stem) == stem;
    }
  }

  /** `getFileExtension`: the extension, lower-cased. */
  function GetFileExtension(filename: string): (r: string)
    ensures |r| == |Extname(filename)| && forall i :: 0 <= i < |r| ==> !IsUpper(r[i])
    ensures forall i :: 0 <= i < |r| ==> r[i] == LowerChar(Extname(filename)[i])
    ensures (forall i :: 0 <= i < |r| ==> !IsUpper(Extname(filename)[i])) ==> r == Extname(filename)
  {
    Lower(Extname(filename))
  }

  const ImageExtensions: seq<string> := [".jpg", ".jpeg", ".png", ".gif", ".webp", ".svg"]

  /** `isImageFile`. */
  predicate IsImageFile(filename: string) {
    GetFileExtension(filename) in ImageExtensions
  }

  /** A dot-free name followed by one of the image extensions, in any letter case, is an image;
      without any extension it is not. */
  lemma ImageFileByExtension(stem: string, ext: string)
    requires |stem| > 0 && '.' !in stem && '/' !in stem
    requires |ext| > 1 && ext[0] == '.' && '.' !in ext[1..] && '/' !in ext
    ensures IsImageFile(stem + ext) <==> Lower(ext) in ImageExtensions
    ensures !IsImageFile(stem)
  {
    assert GetFileExtension(stem + ext) == Lower(ext) by {
      ExtnameOfStemAndExtension(stem, ext);
    }
    assert GetFileExtension(stem) == [] by {
      ExtnameOfDotless(stem);
    }
    NoExtensionNoImage(stem);
  }

  lemma NoExtensionNoImage(filename: string)
    requires GetFileExtension(filename) == []
    ensures !IsImageFile(filename)
  {
    assert forall k :: 0 <= k < |ImageExtensions| ==> |ImageExtensions[k]| > 0;
  }

  // ---------------------------------------------------------------------------------------------
  // mergeObjects
  // ---------------------------------------------------------------------------------------------

  /** `{ ...target, ...source }`: every key of either, the source's value winning. */
  function MergeObjects(target: map<string, JValue>, source: map<string, JValue>): (r: map<string, JValue>)
    ensures r.Keys == target.Keys + source.Keys
    ensures forall k :: k in source ==> r[k] == source[k]
    ensures forall k :: k in target && k !in source ==> r[k] == target[k]
  {
    target + source
  }

  /** Merging the same source twice is merging it once, and merging nothing changes nothing. */
  lemma MergeObjectsIdempotent(target: map<string, JValue>, source: map<string, JValue>)
    ensures MergeObjects(MergeObjects(target, source), source) == MergeObjects(target, source)
    ensures MergeObjects(target, map[]) == target
  {
  }
}

=== FILE: history.dfy ===
/** The `block_history` table and the queries of the `BlockHistory` model over it. Every query
    catches its own errors and returns an empty or null result instead. The JSON text parser is the
    parameter `parse`; the joined `blocks` and `pages` tables are passed in. */
module BlockHistory {
  import opened Wrappers
  import opened Json
  import opened Seqs
  import Blocks
  import Pages

  /** `operation VARCHAR(50) NOT NULL`; the session runs in strict mode. */
  const OperationMaxLength := 50
  const DefaultOperation := "update"
  const SecondsPerDay := 86400
  const DefaultDaysToKeep := 30

  /** A row of `block_history`. `snapshotData` is `None` for SQL NULL; `blockData` is NOT NULL. */
  datatype HistoryRecord = HistoryRecord(
    id: int,
    userId: int,
    pageId: int,
    blockId: Option<int>,
    blockData: JValue,
    operation: string,
    snapshotData: Option<JValue>,
    createdBy: int,
    createdAt: int)

  /** The `historyData` a caller passes to `BlockHistory.create`; every field may be `undefined`. */
  datatype HistoryInput = HistoryInput(
    userId: Option<int>,
    pageId: Option<int>,
    blockId: Option<int>,
    blockData: Option<JValue>,
    operation: Option<string>,
    snapshotData: Option<JValue>,
    createdBy: Option<int>)

  /** Primary keys are distinct and below the auto-increment counter `next`. */
  predicate WellFormed(table: seq<HistoryRecord>, next: int) {
    && (forall i, j :: 0 <= i < j < |table| ==> table[i].id != table[j].id)
    && (forall i :: 0 <= i < |table| ==> table[i].id < next)
  }

  /** The value JavaScript sees for a nullable JSON column: SQL NULL reads as `null`. */
  function Column(x: Option<JValue>): JValue {
    x.GetOr(JNull)
  }

  /** The insert `BlockHistory.create` issues can succeed: an owner is given, the NOT NULL `page_id`
      is given, and the operation fits its column. */
  predicate Insertable(input: HistoryInput) {
    Present(input.userId) && input.pageId.Some? && |StrOr(input.operation, DefaultOperation)| <= OperationMaxLength
  }

  /** `BlockHistory.create`: appends one record at time `now` and returns its id, or appends nothing
      and returns `None` (the caught error) when there is no truthy `user_id` or the insert fails.
      `block_id` defaults to null, both payloads to `{}`, the operation to 'update' and the author
      to the owner. */
  function Create(table: seq<HistoryRecord>, next: int, now: int, input: HistoryInput)
    : (r: (seq<HistoryRecord>, int, Option<int>))
    requires WellFormed(table, next)
    ensures r.2.Some? <==> Insertable(input)
    ensures r.2.None? ==> r.0 == table && r.1 == next
    ensures r.2.Some? ==>
              && |r.0| == |table| + 1 && r.0[..|table|] == table
              && WellFormed(r.0, r.1)
              && r.0[|table|].id == r.2.value
              && (forall rec :: rec in table ==> rec.id != r.2.value)
    ensures r.2.Some? ==>
              var rec := r.0[|table|];
              && rec.userId == input.userId.value && rec.pageId == input.pageId.value && rec.createdAt == now
              && (Present(input.blockId) ==> rec.blockId == input.blockId)
              && (!Present(input.blockId) ==> rec.blockId.None?)
              && (!TruthyOpt(input.blockData) ==> rec.blockData == EmptyObject)
              && (TruthyOpt(input.blockData) ==> rec.blockData == input.blockData.value)
              && (!TruthyOpt(input.snapshotData) ==> rec.snapshotData == Some(EmptyObject))
              && (TruthyOpt(input.snapshotData) ==> rec.snapshotData == input.snapshotData)
              && (input.operation.None? || input.operation == Some("") ==> rec.operation == DefaultOperation)
              && (input.operation.Some? && input.operation != Some("") ==> rec.operation == input.operation.value)
              && (!Present(input.createdBy) ==> rec.createdBy == input.userId.value)
              && (Present(input.createdBy) ==> rec.createdBy == input.createdBy.value)
  {
    if !Insertable(input) then (table, next, None)
    else
      var rec := HistoryRecord(
        next, input.userId.value, input.pageId.value, IdOrNull(input.blockId), Or(input.blockData, EmptyObject),
        StrOr(input.operation, DefaultOperation), Some(Or(input.snapshotData, EmptyObject)),
        if Present(input.createdBy) then input.createdBy.value else input.userId.value, now);
      var t := table + [rec];
      assert t[..|table|] == table;
      (t, next + 1, Some(next))
  }

  // ----- joins and the parsed view of a row ---------------------------------------------------

  /** `LEFT JOIN blocks b ON h.block_id = b.id`, selecting `b.type`. */
  function BlockType(blocks: seq<Blocks.Block>, blockId: Option<int>): (r: Option<string>)
    ensures r.Some? <==> blockId.Some? && exists b :: b in blocks && b.id == blockId.value
    ensures r.Some? ==> exists b :: b in blocks && b.id == blockId.value && b.btype == r.value
  {
    if blockId.None? then None
    else
      match Blocks.FindById(blocks, blockId.value)
      case None => None
      case Some(b) => Some(b.btype)
  }

  /** `LEFT JOIN pages p ON h.page_id = p.id`, selecting `p.title`. */
  function PageTitle(pages: seq<Pages.Page>, pageId: int): (r: Option<string>)
    ensures r.Some? <==> exists p :: p in pages && p.id == pageId
    ensures r.Some? ==> exists p :: p in pages && p.id == pageId && p.title == r.value
  {
    match Pages.FindById(pages, pageId)
    case None => None
    case Some(p) => Some(p.title)
  }

  /** A row as `getPageHistory` and `getHistoryById` return it: both payloads normalised by
      `safeParseJSON`, with the joined block type and page title. */
  datatype HistoryView = HistoryView(
    record: HistoryRecord,
    blockData: JValue,
    snapshotData: JValue,
    blockType: Option<string>,
    pageTitle: Option<string>)

  function ViewOf(rec: HistoryRecord, blocks: seq<Blocks.Block>, pages: seq<Pages.Page>,
                  parse: string -> Option<JValue>): HistoryView
  {
    HistoryView(rec, SafeParse(Some(rec.blockData), parse), SafeParse(Some(Column(rec.snapshotData)), parse),
                BlockType(blocks, rec.blockId), PageTitle(pages, rec.pageId))
  }

  function Views(rows: seq<HistoryRecord>, blocks: seq<Blocks.Block>, pages: seq<Pages.Page>,
                 parse: string -> Option<JValue>): (r: seq<HistoryView>)
    ensures |r| == |rows|
    ensures forall i :: 0 <= i < |rows| ==> r[i] == ViewOf(rows[i], blocks, pages, parse)
  {
    seq(|rows|, i requires 0 <= i < |rows| => ViewOf(rows[i], blocks, pages, parse))
  }

  // ----- listings -------------------------------------------------------------------------

  /** `WHERE h.page_id = ? AND h.user_id = ?`. */
  predicate OwnedBy(pageId: int, userId: int, rec: HistoryRecord) {
    rec.pageId == pageId && rec.userId == userId
  }

  function Owned(pageId: int, userId: int): HistoryRecord -> bool {
    (rec: HistoryRecord) => OwnedBy(pageId, userId, rec)
  }

  /** The sort key of `ORDER BY h.created_at DESC`. */
  function Newest(rec: HistoryRecord): int {
    -rec.createdAt
  }

  /** The rows passing `where`, newest first. */
  function Listing(table: seq<HistoryRecord>, where: HistoryRecord -> bool): (r: seq<HistoryRecord>)
    ensures |r| == |Filter(table, where)|
    ensures forall i, j :: 0 <= i < j < |r| ==> r[i].createdAt >= r[j].createdAt
    ensures forall rec :: multiset(r)[rec] == if where(rec) then multiset(table)[rec] else 0
    ensures forall i :: 0 <= i < |r| ==> r[i] in table && where(r[i])
  {
    var f := Filter(table, where);
    var r := SortBy(f, Newest);
    ListingFacts(table, where, f, r);
    r
  }

  /** No two rows passing `where` share a `created_at`: `ORDER BY created_at DESC` then leaves no
      tie for the database to break. */
  predicate DistinctTimes(table: seq<HistoryRecord>, where: HistoryRecord -> bool) {
    forall a, b :: a in table && b in table && where(a) && where(b) && a.createdAt == b.createdAt ==> a == b
  }

  /** Without ties, `Listing` is the only newest-first arrangement of the rows passing `where`: any
      order the database returns them in is this one. */
  lemma ListingDetermined(table: seq<HistoryRecord>, where: HistoryRecord -> bool, other: seq<HistoryRecord>)
    requires DistinctTimes(table, where)
    requires multiset(other) == multiset(Filter(table, where))
    requires forall i, j :: 0 <= i < j < |other| ==> other[i].createdAt >= other[j].createdAt
    ensures other == Listing(table, where)
  {
    var f := Filter(table, where);
    var r := SortBy(f, Newest);
    assert r == Listing(table, where);
    assert SortedBy(other, Newest) by {
      forall i, j | 0 <= i < j < |other|
        ensures Newest(other[i]) <= Newest(other[j])
      {
      }
    }
    SortByMembers(f, Newest);
    SortedUnique(r, other, Newest);
  }

  lemma ListingFacts(table: seq<HistoryRecord>, where: HistoryRecord -> bool, f: seq<HistoryRecord>, r: seq<HistoryRecord>)
    requires f == Filter(table, where) && r == SortBy(f, Newest)
    ensures forall i, j :: 0 <= i < j < |r| ==> r[i].createdAt >= r[j].createdAt
    ensures forall rec :: multiset(r)[rec] == if where(rec) then multiset(table)[rec] else 0
    ensures forall i :: 0 <= i < |r| ==> r[i] in table && where(r[i])
  {
    assert SortedBy(r, Newest);
    forall i, j | 0 <= i < j < |r|
      ensures r[i].createdAt >= r[j].createdAt
    {
      assert Newest(r[i]) <= Newest(r[j]);
    }
    SortByMembers(f, Newest);
    forall i | 0 <= i < |r|
      ensures r[i] in table && where(r[i])
    {
      assert r[i] in f;
    }
  }

  // ----- getPageHistory -------------------------------------------------------------------

  /** The value of `Math.ceil(total / limit)`: a count, or `Infinity` or `NaN` for a zero limit. */
  datatype PageCount = Count(n: int) | Infinity | NaN

  /** `Math.ceil(a / b)` for a non-negative `a` and positive `b`. */
  function CeilDiv(a: nat, b: int): (r: nat)
    requires b > 0
    ensures (r - 1) * b < a <= r * b
  {
    var q := (a + b - 1) / b;
    assert q * b <= a + b - 1 < (q + 1) * b;
    q
  }

  function TotalPages(total: nat, limit: int): (r: PageCount)
    requires limit >= 0
    ensures limit > 0 ==> r.Count? && (r.n - 1) * limit < total <= r.n * limit
    ensures limit == 0 ==> (r == NaN <==> total == 0) && (r == Infinity <==> total > 0)
  {
    if limit > 0 then Count(CeilDiv(total, limit))
    else if total == 0 then NaN
    else Infinity
  }

  /** What `getPageHistory` returns. */
  datatype HistoryPage = HistoryPage(history: seq<HistoryView>, total: nat, page: int, limit: int, totalPages: PageCount)

  /** `BlockHistory.getPageHistory`: the page `page` (1-based) of `limit` records of the page and
      user, newest first, with the number of matching records. A negative `LIMIT` or `OFFSET` is an
      SQL error, answered with the empty result. */
  function GetPageHistory(table: seq<HistoryRecord>, blocks: seq<Blocks.Block>, pages: seq<Pages.Page>,
                          pageId: int, userId: int, page: int, limit: int, parse: string -> Option<JValue>)
    : (r: HistoryPage)
    ensures r.page == page && r.limit == limit
    ensures var offset := Offset(page, limit);
            limit < 0 || offset < 0 ==> r == HistoryPage([], 0, page, limit, Count(0))
    ensures var offset := Offset(page, limit);
            var rows := Listing(table, Owned(pageId, userId));
            limit >= 0 && offset >= 0 ==>
              && r.total == |Filter(table, Owned(pageId, userId))|
              && r.totalPages == TotalPages(r.total, limit)
              && |r.history| == Max(0, Min(r.total - offset, limit))
              && (forall i :: 0 <= i < |r.history| ==> r.history[i] == ViewOf(rows[offset + i], blocks, pages, parse))
    ensures forall v :: v in r.history ==> v.record in table && OwnedBy(pageId, userId, v.record)
    ensures forall i, j :: 0 <= i < j < |r.history| ==> r.history[i].record.createdAt >= r.history[j].record.createdAt
  {
    var offset := Offset(page, limit);
    if limit < 0 || offset < 0 then HistoryPage([], 0, page, limit, Count(0))
    else
      var rows := Listing(table, Owned(pageId, userId));
      ShownFacts(table, blocks, pages, pageId, userId, offset, limit, parse);
      HistoryPage(Views(Window(rows, offset, limit), blocks, pages, parse), |rows|, page, limit, TotalPages(|rows|, limit))
  }

  lemma ShownFacts(table: seq<HistoryRecord>, blocks: seq<Blocks.Block>, pages: seq<Pages.Page>,
                   pageId: int, userId: int, offset: nat, limit: nat, parse: string -> Option<JValue>)
    ensures var rows := Listing(table, Owned(pageId, userId));
            var h := Views(Window(rows, offset, limit), blocks, pages, parse);
            && |h| == Max(0, Min(|rows| - offset, limit))
            && (forall i :: 0 <= i < |h| ==> h[i] == ViewOf(rows[offset + i], blocks, pages, parse))
            && (forall v :: v in h ==> v.record in table && OwnedBy(pageId, userId, v.record))
            && (forall i, j :: 0 <= i < j < |h| ==> h[i].record.createdAt >= h[j].record.createdAt)
  {
    var rows := Listing(table, Owned(pageId, userId));
    var w := Window(rows, offset, limit);
    var h := Views(w, blocks, pages, parse);
    forall i | 0 <= i < |rows|
      ensures rows[i] in table && OwnedBy(pageId, userId, rows[i])
    {
      assert Owned(pageId, userId)(rows[i]);
    }
    forall i | 0 <= i < |h|
      ensures h[i] == ViewOf(rows[offset + i], blocks, pages, parse)
    {
      assert h[i] == ViewOf(w[i], blocks, pages, parse) && w[i] == rows[offset + i];
    }
    WindowViews(rows, table, pageId, userId, offset, h, blocks, pages, parse);
  }

  /** Views of consecutive rows of a newest-first listing of the page and user are of such rows and
      newest first. */
  lemma WindowViews(rows: seq<HistoryRecord>, table: seq<HistoryRecord>, pageId: int, userId: int, offset: nat,
                    h: seq<HistoryView>, blocks: seq<Blocks.Block>, pages: seq<Pages.Page>, parse: string -> Option<JValue>)
    requires forall i :: 0 <= i < |rows| ==> rows[i] in table && OwnedBy(pageId, userId, rows[i])
    requires forall i, j :: 0 <= i < j < |rows| ==> rows[i].createdAt >= rows[j].createdAt
    requires |h| > 0 ==> offset + |h| <= |rows|
    requires forall i :: 0 <= i < |h| ==> h[i] == ViewOf(rows[offset + i], blocks, pages, parse)
    ensures forall v :: v in h ==> v.record in table && OwnedBy(pageId, userId, v.record)
    ensures forall i, j :: 0 <= i < j < |h| ==> h[i].record.createdAt >= h[j].record.createdAt
  {
    forall v | v in h
      ensures v.record in table && OwnedBy(pageId, userId, v.record)
    {
      var i :| 0 <= i < |h| && h[i] == v;
      assert v.record == rows[offset + i];
    }
    forall i, j | 0 <= i < j < |h|
      ensures h[i].record.createdAt >= h[j].record.createdAt
    {
      assert h[i].record == rows[offset + i] && h[j].record == rows[offset + j];
    }
  }

  /** `(page - 1) * limit`: the number of rows skipped before page `page`. */
  function Offset(page: int, limit: int): int {
    (page - 1) * limit
  }

  /** Row `k` of the listing is on page `k / limit + 1`, at position `k % limit`. */
  lemma PageOfRow(k: nat, limit: int)
    requires limit > 0
    ensures k / limit + 1 >= 1 && 0 <= k % limit < limit
    ensures Offset(k / limit + 1, limit) + k % limit == k
  {
    assert Offset(k / limit + 1, limit) == (k / limit) * limit;
  }

  /** A page that starts before the end of the listing is within `ceil(total / limit)` pages. */
  lemma PageWithin(page: int, limit: int, total: nat)
    requires limit > 0 && page >= 1 && Offset(page, limit) < total
    ensures Offset(page, limit) >= 0
    ensures page <= CeilDiv(total, limit)
  {
    var n := CeilDiv(total, limit);
    assert (page - 1) * limit < n * limit;
  }

  /** Index `idx` of page `page` is the listing's row `(page - 1) * limit + idx`, and the page is
      within `totalPages`. */
  lemma PageShows(table: seq<HistoryRecord>, blocks: seq<Blocks.Block>, pages: seq<Pages.Page>,
                  pageId: int, userId: int, page: int, limit: int, idx: int, parse: string -> Option<JValue>)
    requires limit > 0 && page >= 1 && 0 <= idx < limit
    requires Offset(page, limit) + idx < |Filter(table, Owned(pageId, userId))|
    ensures var r := GetPageHistory(table, blocks, pages, pageId, userId, page, limit, parse);
            && r.totalPages.Count? && page <= r.totalPages.n
            && idx < |r.history|
            && r.history[idx] == ViewOf(Listing(table, Owned(pageId, userId))[Offset(page, limit) + idx], blocks, pages, parse)
  {
    PageWithin(page, limit, |Filter(table, Owned(pageId, userId))|);
  }

  /** Paging covers the listing: for a positive limit, the record at position `k` of the newest-first
      listing is shown at index `k % limit` of page `k / limit + 1`, and that page is at most
      `totalPages`. Each page is a separate query, so this needs the page's records to have distinct
      `created_at` values: then the listing is the only order any query can return
      (`ListingDetermined`), and no record is shown twice or skipped. */
  lemma PagesCover(table: seq<HistoryRecord>, blocks: seq<Blocks.Block>, pages: seq<Pages.Page>,
                   pageId: int, userId: int, limit: int, k: int, parse: string -> Option<JValue>)
    requires limit > 0 && 0 <= k < |Filter(table, Owned(pageId, userId))|
    requires DistinctTimes(table, Owned(pageId, userId))
    ensures var page := k / limit + 1;
            var r := GetPageHistory(table, blocks, pages, pageId, userId, page, limit, parse);
            && 1 <= page && r.totalPages.Count? && page <= r.totalPages.n
            && k % limit < |r.history|
            && r.history[k % limit] == ViewOf(Listing(table, Owned(pageId, userId))[k], blocks, pages, parse)
  {
    var page, idx := k / limit + 1, k % limit;
    PageOfRow(k, limit);
    PageShows(table, blocks, pages, pageId, userId, page, limit, idx, parse);
    var rows := Listing(table, Owned(pageId, userId));
    assert rows[Offset(page, limit) + idx] == rows[k];
  }

  // ----- getRecentSnapshots ---------------------------------------------------------------

  /** `snapshot_data IS NOT NULL AND snapshot_data != '{}'`. */
  predicate HasSnapshotData(rec: HistoryRecord) {
    rec.snapshotData.Some? && rec.snapshotData.value != EmptyObject
  }

  predicate SnapshotRow(pageId: int, userId: int, rec: HistoryRecord) {
    OwnedBy(pageId, userId, rec) && HasSnapshotData(rec)
  }

  function SnapshotRows(pageId: int, userId: int): HistoryRecord -> bool {
    (rec: HistoryRecord) => SnapshotRow(pageId, userId, rec)
  }

  /** A row as `getRecentSnapshots` returns it. */
  datatype SnapshotEntry = SnapshotEntry(record: HistoryRecord, snapshotData: JValue, changeCount: int)

  /** `BlockHistory.getRecentSnapshots`: the newest `limit` records of the page and user that hold a
      snapshot, each with its parsed snapshot and a change count of 1. A negative `LIMIT` is an SQL
      error, answered with `[]`. */
  function GetRecentSnapshots(table: seq<HistoryRecord>, pageId: int, userId: int, limit: int,
                              parse: string -> Option<JValue>): (r: seq<SnapshotEntry>)
    ensures limit < 0 ==> r == []
    ensures limit >= 0 ==> |r| == Min(|Filter(table, SnapshotRows(pageId, userId))|, limit)
    ensures forall e :: e in r ==>
              && e.record in table && SnapshotRow(pageId, userId, e.record) && e.changeCount == 1
              && e.snapshotData == SafeParse(Some(Column(e.record.snapshotData)), parse)
    ensures forall i, j :: 0 <= i < j < |r| ==> r[i].record.createdAt >= r[j].record.createdAt
    ensures forall i :: 0 <= i < |r| ==> r[i].record == Listing(table, SnapshotRows(pageId, userId))[i]
  {
    if limit < 0 then []
    else
      var rows := Window(Listing(table, SnapshotRows(pageId, userId)), 0, limit);
      seq(|rows|, i requires 0 <= i < |rows| =>
        SnapshotEntry(rows[i], SafeParse(Some(Column(rows[i].snapshotData)), parse), 1))
  }

  // ----- getHistoryById -------------------------------------------------------------------

  function IdAndUser(historyId: int, userId: int): HistoryRecord -> bool {
    (rec: HistoryRecord) => rec.id == historyId && rec.userId == userId
  }

  /** `BlockHistory.getHistoryById`: the record with that id, if it belongs to the user. */
  function GetHistoryById(table: seq<HistoryRecord>, blocks: seq<Blocks.Block>, pages: seq<Pages.Page>,
                          historyId: int, userId: int, parse: string -> Option<JValue>): (r: Option<HistoryView>)
    ensures r.None? <==> forall rec :: rec in table ==> rec.id != historyId || rec.userId != userId
    ensures r.Some? ==>
              && r.value.record in table && r.value.record.id == historyId && r.value.record.userId == userId
              && r.value == ViewOf(r.value.record, blocks, pages, parse)
  {
    match Find(table, IdAndUser(historyId, userId))
    case None => None
    case Some(rec) => Some(ViewOf(rec, blocks, pages, parse))
  }

  // ----- getPageAtHistory -----------------------------------------------------------------

  /** The blocks of a historical page: the snapshot's `blocks` value verbatim, or the page's current
      rows. */
  datatype PageBlocks = SnapshotBlocks(value: JValue) | CurrentBlocks(rows: seq<Blocks.Block>)

  /** What `getPageAtHistory` returns. */
  datatype HistoricalPage = HistoricalPage(
    pageId: int,
    title: string,
    icon: string,
    coverImage: Option<string>,
    blocks: PageBlocks,
    historyId: int,
    snapshotTime: int,
    operation: string,
    isFullSnapshot: bool,
    snapshotData: JValue)

  /** `snapshotData && snapshotData.blocks`. */
  predicate HasBlocks(snapshot: JValue) {
    Truthy(snapshot) && TruthyOpt(Member(snapshot, "blocks"))
  }

  function AtPage(pageId: int, historyId: int): HistoryRecord -> bool {
    (rec: HistoryRecord) => rec.id == historyId && rec.pageId == pageId
  }

  /** `BlockHistory.getPageAtHistory`: the page as recorded by history entry `historyId` of page
      `pageId`, whoever owns the entry. The blocks are the snapshot's own when it has any, otherwise
      the page's current blocks in `order_index` order. Title, icon and cover come from the joined
      page, each falling back (to 'Untitled', '📄' and null) when the page is missing or the value
      falsy. */
  function GetPageAtHistory(table: seq<HistoryRecord>, blocks: seq<Blocks.Block>, pages: seq<Pages.Page>,
                            pageId: int, historyId: int, parse: string -> Option<JValue>): (r: Option<HistoricalPage>)
    ensures r.None? <==> forall rec :: rec in table ==> rec.id != historyId || rec.pageId != pageId
    ensures r.Some? ==>
              && r.value.pageId == pageId && r.value.historyId == historyId
              && r.value.title != "" && r.value.icon != ""
              && exists rec :: (rec in table && rec.id == historyId && rec.pageId == pageId
                                && r.value.snapshotData == SafeParse(Some(Column(rec.snapshotData)), parse)
                                && r.value.snapshotTime == rec.createdAt && r.value.operation == rec.operation)
    ensures r.Some? ==>
              var page := Pages.FindById(pages, pageId);
              && (page.Some? && page.value.title != "" ==> r.value.title == page.value.title)
              && (page.None? || page.value.title == "" ==> r.value.title == Pages.DefaultTitle)
              && (page.Some? && page.value.icon.Some? && page.value.icon.value != "" ==> r.value.icon == page.value.icon.value)
              && (page.None? || page.value.icon.None? || page.value.icon == Some("") ==> r.value.icon == Pages.DefaultIcon)
              && (r.value.coverImage.Some? <==> page.Some? && page.value.coverImage.Some? && page.value.coverImage != Some(""))
              && (r.value.coverImage.Some? ==> r.value.coverImage == page.value.coverImage)
    ensures r.Some? ==> (r.value.isFullSnapshot <==> HasBlocks(r.value.snapshotData))
    ensures r.Some? && r.value.isFullSnapshot ==> r.value.blocks == SnapshotBlocks(Member(r.value.snapshotData, "blocks").value)
    ensures r.Some? && !r.value.isFullSnapshot ==> r.value.blocks == CurrentBlocks(Blocks.FindByPageId(blocks, pageId))
  {
    match Find(table, AtPage(pageId, historyId))
    case None => None
    case Some(rec) =>
      var snapshot := SafeParse(Some(Column(rec.snapshotData)), parse);
      var page := Pages.FindById(pages, pageId);
      var title := if page.Some? then StrOr(Some(page.value.title), Pages.DefaultTitle) else Pages.DefaultTitle;
      var icon := if page.Some? then StrOr(page.value.icon, Pages.DefaultIcon) else Pages.DefaultIcon;
      var cover := if page.Some? && page.value.coverImage.Some? && page.value.coverImage.value != "" then page.value.coverImage else None;
      var full := HasBlocks(snapshot);
      var shown := if full then SnapshotBlocks(Member(snapshot, "blocks").value) else CurrentBlocks(Blocks.FindByPageId(blocks, pageId));
      Some(HistoricalPage(pageId, title, icon, cover, shown, rec.id, rec.createdAt, rec.operation, full, snapshot))
  }

  /** A snapshot recorded with a truthy `blocks` member is given back verbatim by `getPageAtHistory`
      for the id `create` returned. */
  lemma CreateThenPageAtHistory(table: seq<HistoryRecord>, next: int, now: int, input: HistoryInput,
                                blocks: seq<Blocks.Block>, pages: seq<Pages.Page>, parse: string -> Option<JValue>)
    requires WellFormed(table, next) && Insertable(input)
    requires input.snapshotData.Some? && input.snapshotData.value.JObj?
    requires "blocks" in input.snapshotData.value.fields && Truthy(input.snapshotData.value.fields["blocks"])
    ensures var (t, _, id) := Create(table, next, now, input);
            var r := GetPageAtHistory(t, blocks, pages, input.pageId.value, id.value, parse);
            && r.Some? && r.value.isFullSnapshot && r.value.snapshotTime == now
            && r.value.blocks == SnapshotBlocks(input.snapshotData.value.fields["blocks"])
  {
    var (t, _, id) := Create(table, next, now, input);
    var added := t[|table|];
    var snapshot := input.snapshotData.value;
    assert added.snapshotData == input.snapshotData;
    OnlyAdded(table, t, id.value);
    assert added in t;
    var r := GetPageAtHistory(t, blocks, pages, input.pageId.value, id.value, parse);
    assert r.Some? && r.value.snapshotData == snapshot && r.value.snapshotTime == now;
    assert Member(snapshot, "blocks") == Some(snapshot.fields["blocks"]);
  }

  /** After one append with a fresh id, the appended record is the only one with that id. */
  lemma OnlyAdded(table: seq<HistoryRecord>, t: seq<HistoryRecord>, id: int)
    requires |t| == |table| + 1 && t[..|table|] == table && t[|table|].id == id
    requires forall rec :: rec in table ==> rec.id != id
    ensures forall rec :: rec in t && rec.id == id ==> rec == t[|table|]
  {
    forall rec | rec in t && rec.id == id
      ensures rec == t[|table|]
    {
      var k :| 0 <= k < |t| && t[k] == rec;
      var prefix := t[..|table|];
      assert k < |table| ==> rec in prefix;
    }
  }

  /** A record `create` appended is found again by `getHistoryById` for its owner, with both
      payloads given back unchanged when they were objects. */
  lemma CreateThenGetById(table: seq<HistoryRecord>, next: int, now: int, input: HistoryInput,
                          blocks: seq<Blocks.Block>, pages: seq<Pages.Page>, parse: string -> Option<JValue>)
    requires WellFormed(table, next) && Insertable(input)
    ensures var (t, _, id) := Create(table, next, now, input);
            var r := GetHistoryById(t, blocks, pages, id.value, input.userId.value, parse);
            && r.Some? && r.value.record == t[|table|] && r.value.record.createdAt == now
            && (input.blockData.Some? && input.blockData.value.JObj? ==> r.value.blockData == input.blockData.value)
            && (input.snapshotData.Some? && input.snapshotData.value.JObj? ==> r.value.snapshotData == input.snapshotData.value)
  {
    var (t, _, id) := Create(table, next, now, input);
    var added := t[|table|];
    OnlyAdded(table, t, id.value);
    assert added in t;
    var r := GetHistoryById(t, blocks, pages, id.value, input.userId.value, parse);
    assert r.Some? && r.value.record == added;
    assert r.value == ViewOf(added, blocks, pages, parse);
    if input.blockData.Some? && input.blockData.value.JObj? {
      ParsedObject(input.blockData.value, parse);
    }
    if input.snapshotData.Some? && input.snapshotData.value.JObj? {
      ParsedObject(input.snapshotData.value, parse);
    }
  }

  /** An object column is given back as it is. */
  lemma ParsedObject(v: JValue, parse: string -> Option<JValue>)
    requires v.JObj?
    ensures SafeParse(Some(v), parse) == v && SafeParse(Some(Column(Some(v))), parse) == v
  {
  }

  // ----- cleanupOldHistory ----------------------------------------------------------------

  /** `created_at < cutoff`, and `user_id = userId` when `userId` is truthy. */
  predicate Expired(cutoff: int, userId: Option<int>, rec: HistoryRecord) {
    rec.createdAt < cutoff && (Present(userId) ==> rec.userId == userId.value)
  }

  function ExpiredRows(cutoff: int, userId: Option<int>): HistoryRecord -> bool {
    (rec: HistoryRecord) => Expired(cutoff, userId, rec)
  }

  function KeptRows(cutoff: int, userId: Option<int>): HistoryRecord -> bool {
    (rec: HistoryRecord) => !Expired(cutoff, userId, rec)
  }

  /** The cutoff `daysToKeep` days before `now`; `daysToKeep` defaults to 30. */
  function Cutoff(now: int, daysToKeep: Option<int>): int {
    now - daysToKeep.GetOr(DefaultDaysToKeep) * SecondsPerDay
  }

  /** `BlockHistory.cleanupOldHistory`: deletes the records older than the cutoff, only the user's
      when a user is given, and returns the number deleted. */
  function CleanupOldHistory(table: seq<HistoryRecord>, now: int, daysToKeep: Option<int>, userId: Option<int>)
    : (r: (seq<HistoryRecord>, nat))
    ensures forall rec :: multiset(r.0)[rec] == if Expired(Cutoff(now, daysToKeep), userId, rec) then 0 else multiset(table)[rec]
    ensures r.1 == |table| - |r.0|
    ensures r.1 == |Filter(table, ExpiredRows(Cutoff(now, daysToKeep), userId))|
  {
    var cutoff := Cutoff(now, daysToKeep);
    var kept := Filter(table, KeptRows(cutoff, userId));
    FilterSplit(table, ExpiredRows(cutoff, userId), KeptRows(cutoff, userId));
    (kept, |table| - |kept|)
  }

  /** Running the cleanup again with the same cutoff deletes nothing. */
  lemma CleanupIdempotent(table: seq<HistoryRecord>, now: int, daysToKeep: Option<int>, userId: Option<int>)
    ensures var (once, _) := CleanupOldHistory(table, now, daysToKeep, userId);
            CleanupOldHistory(once, now, daysToKeep, userId) == (once, 0)
  {
    var cutoff := Cutoff(now, daysToKeep);
    var once := CleanupOldHistory(table, now, daysToKeep, userId).0;
    FilterAll(once, KeptRows(cutoff, userId));
  }

  /** A cleanup scoped to a user leaves every other user's records in place. */
  lemma CleanupScoped(table: seq<HistoryRecord>, now: int, daysToKeep: Option<int>, userId: int, rec: HistoryRecord)
    requires userId != 0 && rec in table && rec.userId != userId
    ensures rec in CleanupOldHistory(table, now, daysToKeep, Some(userId)).0
  {
    var r := CleanupOldHistory(table, now, daysToKeep, Some(userId)).0;
    assert multiset(r)[rec] == multiset(table)[rec];
    assert rec in multiset(table);
  }
}

=== FILE: history_controller.dfy ===
/** The handlers of `blockHistoryController`: the authentication and ownership guards each runs before
    touching history, the operation labels of the timeline, and the checks of `restoreSnapshot`.
    Request parsing, clocks and date formatting are left to the caller. */
module HistoryController {
  import opened Wrappers
  import opened Json
  import opened Seqs
  import Blocks
  import Pages
  import opened BlockHistory
  import opened Timeline

  /** A handler's JSON answer: an error status with its message, or success with data. */
  datatype Response<T> = Fail(status: int, error: string) | Ok(data: T)

  const AuthenticationRequired := "Authentication required"
  const PageNotFound := "Page not found"
  const AccessDenied := "Access denied"
  const EntryNotFound := "History entry not found"
  const NotASnapshot := "This is not a snapshot entry"
  const InternalError := "Internal Server Error"

  /** The query defaults of the handlers. */
  const DefaultPage := 1
  const DefaultHistoryLimit := 20
  const DefaultTimelineLimit := 50
  const DefaultSnapshotLimit := 20

  /** The guard every page-scoped handler runs, in order: 401 without a user, 404 without the page,
      403 when the page's owner is not the user (a strict comparison, so an ownerless page is denied
      too). `None` lets the handler go on. */
  function Guard(pages: seq<Pages.Page>, pageId: int, userId: Option<int>): (r: Option<(int, string)>)
    ensures r == Some((401, AuthenticationRequired)) <==> !Present(userId)
    ensures r == Some((404, PageNotFound)) <==> Present(userId) && Pages.FindById(pages, pageId).None?
    ensures r == Some((403, AccessDenied)) <==>
              Present(userId) && exists p :: p in pages && p.id == pageId && Pages.FindById(pages, pageId) == Some(p) && p.userId != userId
    ensures r.None? <==>
              Present(userId) && exists p :: p in pages && p.id == pageId && Pages.FindById(pages, pageId) == Some(p) && p.userId == userId
  {
    if !Present(userId) then Some((401, AuthenticationRequired))
    else
      match Pages.FindById(pages, pageId)
      case None => Some((404, PageNotFound))
      case Some(p) => if p.userId != userId then Some((403, AccessDenied)) else None
  }

  /** A handler body run only when the guard lets it through. */
  function Guarded<T>(pages: seq<Pages.Page>, pageId: int, userId: Option<int>, body: int -> T): (r: Response<T>)
    ensures Guard(pages, pageId, userId).Some? ==>
              r == Fail(Guard(pages, pageId, userId).value.0, Guard(pages, pageId, userId).value.1)
    ensures Guard(pages, pageId, userId).None? ==> Present(userId) && r == Ok(body(userId.value))
  {
    match Guard(pages, pageId, userId)
    case Some((status, error)) => Fail(status, error)
    case None => Ok(body(userId.value))
  }

  /** `getPageHistory`: the guard, then one page of the page's history for the user. */
  function GetPageHistory(history: seq<HistoryRecord>, blocks: seq<Blocks.Block>, pages: seq<Pages.Page>,
                          pageId: int, userId: Option<int>, page: Option<int>, limit: Option<int>,
                          parse: string -> Option<JValue>): (r: Response<HistoryPage>)
    ensures r.Ok? <==> Guard(pages, pageId, userId).None?
    ensures r.Ok? ==>
              r.data == BlockHistory.GetPageHistory(history, blocks, pages, pageId, userId.value,
                                                    page.GetOr(DefaultPage), limit.GetOr(DefaultHistoryLimit), parse)
  {
    Guarded(pages, pageId, userId,
            (u: int) => BlockHistory.GetPageHistory(history, blocks, pages, pageId, u,
                                                    page.GetOr(DefaultPage), limit.GetOr(DefaultHistoryLimit), parse))
  }

  /** The label of an operation on the timeline. */
  function OperationLabel(operation: string): (r: string)
    ensures r == "Created" <==> operation == "create"
    ensures r == "Deleted" <==> operation == "delete"
    ensures r == "Saved" <==> operation == "snapshot"
    ensures r == "Updated" <==> operation !in {"create", "delete", "snapshot"}
  {
    if operation == "snapshot" then "Saved"
    else if operation == "delete" then "Deleted"
    else if operation == "create" then "Created"
    else "Updated"
  }

  /** A timeline entry as the handler sends it (date and time text omitted). */
  datatype FormattedEntry = FormattedEntry(
    id: int,
    timestamp: int,
    operation: string,
    operationText: string,
    blockId: Option<int>,
    blockType: Option<string>,
    previewContent: JValue,
    preview: seq<Option<JValue>>,
    hasSnapshot: bool,
    hasBlockData: bool)

  function Format(e: TimelineEntry): (r: FormattedEntry)
    ensures r.id == e.id && r.timestamp == e.createdAt && r.operation == e.operation
    ensures r.operationText == OperationLabel(e.operation)
    ensures r.previewContent == Or(Some(e.previewContent), EmptyString) && r.preview == e.preview
  {
    FormattedEntry(e.id, e.createdAt, e.operation, OperationLabel(e.operation), e.blockId, e.blockType,
                   Or(Some(e.previewContent), EmptyString), e.preview, e.hasSnapshot, e.hasBlockData)
  }

  /** `getTimelineEntries`: the guard, then the page's timeline with operation labels. */
  function GetTimelineEntries(history: seq<HistoryRecord>, blocks: seq<Blocks.Block>, pages: seq<Pages.Page>,
                              pageId: int, userId: Option<int>, limit: Option<int>,
                              parse: string -> Option<JValue>): (r: Response<seq<FormattedEntry>>)
    ensures r.Ok? <==> Guard(pages, pageId, userId).None?
    ensures r.Ok? ==>
              var entries := Timeline.GetTimelineEntries(history, blocks, pageId, userId.value, limit.GetOr(DefaultTimelineLimit), parse);
              |r.data| == |entries| && forall i :: 0 <= i < |entries| ==> r.data[i] == Format(entries[i])
  {
    Guarded(pages, pageId, userId,
            (u: int) =>
              var entries := Timeline.GetTimelineEntries(history, blocks, pageId, u, limit.GetOr(DefaultTimelineLimit), parse);
              seq(|entries|, i requires 0 <= i < |entries| => Format(entries[i])))
  }

  /** `getPageAtHistory`: the guard, then the historical page, or 404 when the model finds no entry. */
  function GetPageAtHistory(history: seq<HistoryRecord>, blocks: seq<Blocks.Block>, pages: seq<Pages.Page>,
                            pageId: int, historyId: int, userId: Option<int>, parse: string -> Option<JValue>)
    : (r: Response<HistoricalPage>)
    ensures Guard(pages, pageId, userId).Some? ==> r.Fail? && r.status == Guard(pages, pageId, userId).value.0
    ensures Guard(pages, pageId, userId).None? ==>
              var found := BlockHistory.GetPageAtHistory(history, blocks, pages, pageId, historyId, parse);
              && (r == Fail(404, EntryNotFound) <==> found.None?)
              && (found.Some? ==> r == Ok(found.value))
  {
    match Guard(pages, pageId, userId)
    case Some((status, error)) => Fail(status, error)
    case None =>
      match BlockHistory.GetPageAtHistory(history, blocks, pages, pageId, historyId, parse)
      case None => Fail(404, EntryNotFound)
      case Some(p) => Ok(p)
  }

  /** What `restoreSnapshot` answers with (the restore time omitted). */
  datatype Restored = Restored(snapshot: JValue, pageId: int)

  /** `restoreSnapshot`: 401 without a user, 404 when the entry is not the user's, 400 when it holds
      no snapshot blocks, 403 when its page is missing or not the user's, and otherwise the snapshot
      and its page. No table is changed. */
  function RestoreSnapshot(history: seq<HistoryRecord>, blocks: seq<Blocks.Block>, pages: seq<Pages.Page>,
                           historyId: int, userId: Option<int>, parse: string -> Option<JValue>): (r: Response<Restored>)
    ensures !Present(userId) ==> r == Fail(401, AuthenticationRequired)
    ensures Present(userId) ==>
              var entry := GetHistoryById(history, blocks, pages, historyId, userId.value, parse);
              && (entry.None? ==> r == Fail(404, EntryNotFound))
              && (entry.Some? && !HasBlocks(entry.value.snapshotData) ==> r == Fail(400, NotASnapshot))
              && (entry.Some? && HasBlocks(entry.value.snapshotData) ==>
                    var page := Pages.FindById(pages, entry.value.record.pageId);
                    && (page.None? || page.value.userId != userId ==> r == Fail(403, AccessDenied))
                    && (page.Some? && page.value.userId == userId ==>
                          r == Ok(Restored(entry.value.snapshotData, entry.value.record.pageId))))
    ensures r.Ok? ==>
              exists rec :: rec in history && rec.id == historyId && Some(rec.userId) == userId
                            && r.data.pageId == rec.pageId && HasBlocks(r.data.snapshot)
  {
    if !Present(userId) then Fail(401, AuthenticationRequired)
    else
      match GetHistoryById(history, blocks, pages, historyId, userId.value, parse)
      case None => Fail(404, EntryNotFound)
      case Some(entry) =>
        if !HasBlocks(entry.snapshotData) then Fail(400, NotASnapshot)
        else
          match Pages.FindById(pages, entry.record.pageId)
          case None => Fail(403, AccessDenied)
          case Some(page) =>
            if page.userId != userId then Fail(403, AccessDenied)
            else Ok(Restored(entry.snapshotData, entry.record.pageId))
  }

  /** `snapshot_data?.blocks?.slice(0, 3).map(b => b.type) || []`, or `None` where it throws: the
      optional chaining only guards a null or missing `blocks`. */
  function SnapshotPreview(snapshot: JValue): (r: Option<seq<Option<JValue>>>)
    ensures Member(snapshot, "blocks").None? || Member(snapshot, "blocks") == Some(JNull) ==> r == Some([])
    ensures r.Some? ==> |r.value| <= PreviewLength
    ensures Member(snapshot, "blocks").Some? && Member(snapshot, "blocks") != Some(JNull) ==>
              r == TypesOf(Member(snapshot, "blocks").value)
  {
    match Member(snapshot, "blocks")
    case None => Some([])
    case Some(JNull) => Some([])
    case Some(shown) => TypesOf(shown)
  }

  /** A recent snapshot as the handler sends it (date and time text omitted). */
  datatype FormattedSnapshot = FormattedSnapshot(id: int, timestamp: int, operation: string, preview: seq<Option<JValue>>)

  /** `getRecentSnapshots`: the guard, then the page's recent snapshots with their block-type
      previews. A preview that throws reaches the error handler, which answers 500. */
  function GetRecentSnapshots(history: seq<HistoryRecord>, pages: seq<Pages.Page>, pageId: int, userId: Option<int>,
                              limit: Option<int>, parse: string -> Option<JValue>): (r: Response<seq<FormattedSnapshot>>)
    ensures Guard(pages, pageId, userId).Some? ==>
              r == Fail(Guard(pages, pageId, userId).value.0, Guard(pages, pageId, userId).value.1)
    ensures Guard(pages, pageId, userId).None? ==>
              var snapshots := BlockHistory.GetRecentSnapshots(history, pageId, userId.value, limit.GetOr(DefaultSnapshotLimit), parse);
              && (r == Fail(500, InternalError) <==> exists i :: 0 <= i < |snapshots| && SnapshotPreview(snapshots[i].snapshotData).None?)
              && (r.Ok? ==> |r.data| == |snapshots|)
              && (r.Ok? ==> forall i :: 0 <= i < |snapshots| ==>
                    && r.data[i].id == snapshots[i].record.id
                    && Some(r.data[i].preview) == SnapshotPreview(snapshots[i].snapshotData))
  {
    match Guard(pages, pageId, userId)
    case Some((status, error)) => Fail(status, error)
    case None =>
      var snapshots := BlockHistory.GetRecentSnapshots(history, pageId, userId.value, limit.GetOr(DefaultSnapshotLimit), parse);
      if exists i :: 0 <= i < |snapshots| && SnapshotPreview(snapshots[i].snapshotData).None? then Fail(500, InternalError)
      else
        Ok(seq(|snapshots|, i requires 0 <= i < |snapshots| =>
          var s := snapshots[i];
          FormattedSnapshot(s.record.id, s.record.createdAt, s.record.operation, SnapshotPreview(s.snapshotData).value)))
  }

  /** `cleanupHistory`: 401 without a user; otherwise the user's records older than `days` days
      (default 30) are deleted and their number answered. */
  function CleanupHistory(history: seq<HistoryRecord>, now: int, days: Option<int>, userId: Option<int>)
    : (r: (seq<HistoryRecord>, Response<nat>))
    ensures !Present(userId) ==> r == (history, Fail(401, AuthenticationRequired))
    ensures Present(userId) ==> r.1.Ok? && r.1.data == |history| - |r.0|
    ensures Present(userId) ==> forall rec ::
              multiset(r.0)[rec] == if rec.userId == userId.value && rec.createdAt < now - days.GetOr(30) * 86400
                                    then 0 else multiset(history)[rec]
    ensures forall rec :: rec in history && Some(rec.userId) != userId ==> rec in r.0
    ensures forall rec :: rec in r.0 ==> rec in history
  {
    if !Present(userId) then (history, Fail(401, AuthenticationRequired))
    else
      var (kept, count) := CleanupOldHistory(history, now, Some(days.GetOr(DefaultDaysToKeep)), userId);
      CleanupKeepsOthers(history, now, Some(days.GetOr(DefaultDaysToKeep)), userId.value);
      (kept, Ok(count))
  }

  lemma CleanupKeepsOthers(history: seq<HistoryRecord>, now: int, days: Option<int>, userId: int)
    requires userId != 0
    ensures var kept := CleanupOldHistory(history, now, days, Some(userId)).0;
            && (forall rec :: rec in history && rec.userId != userId ==> rec in kept)
            && (forall rec :: rec in kept ==> rec in history)
  {
    var kept := CleanupOldHistory(history, now, days, Some(userId)).0;
    forall rec | rec in history && rec.userId != userId
      ensures rec in kept
    {
      CleanupScoped(history, now, days, userId, rec);
    }
    forall rec | rec in kept
      ensures rec in history
    {
      assert rec in multiset(kept);
    }
  }

  /** A handler stopped by its guard answers the same whatever the history holds: no history is
      consulted before the guard passes. */
  lemma GuardBeforeHistory(h1: seq<HistoryRecord>, h2: seq<HistoryRecord>, blocks: seq<Blocks.Block>,
                           pages: seq<Pages.Page>, pageId: int, historyId: int, userId: Option<int>,
                           page: Option<int>, limit: Option<int>, parse: string -> Option<JValue>)
    requires Guard(pages, pageId, userId).Some?
    ensures GetPageHistory(h1, blocks, pages, pageId, userId, page, limit, parse)
            == GetPageHistory(h2, blocks, pages, pageId, userId, page, limit, parse)
    ensures GetTimelineEntries(h1, blocks, pages, pageId, userId, limit, parse)
            == GetTimelineEntries(h2, blocks, pages, pageId, userId, limit, parse)
    ensures GetPageAtHistory(h1, blocks, pages, pageId, historyId, userId, parse)
            == GetPageAtHistory(h2, blocks, pages, pageId, historyId, userId, parse)
    ensures GetRecentSnapshots(h1, pages, pageId, userId, limit, parse)
            == GetRecentSnapshots(h2, pages, pageId, userId, limit, parse)
  {
  }
}

=== FILE: json.dfy ===
/** JSON values as the JavaScript code sees them after the MySQL driver has decoded a JSON column,
    together with the handful of JavaScript operations the core applies to them. */
module Json {
  import opened Wrappers

  /** A JSON value. Numbers are integers: no core operation depends on fractional values. */
  datatype JValue =
    | JNull
    | JBool(b: bool)
    | JNum(n: int)
    | JStr(s: string)
    | JArr(items: seq<JValue>)
    | JObj(fields: map<string, JValue>)

  /** The value `{}`. */
  const EmptyObject: JValue := JObj(map[])

  /** The value `''`. */
  const EmptyString: JValue := JStr("")

  /** JavaScript truthiness: `null`, `false`, `0` and `''` are falsy; every array and object is truthy. */
  predicate Truthy(v: JValue) {
    match v
    case JNull => false
    case JBool(b) => b
    case JNum(n) => n != 0
    case JStr(s) => s != ""
    case JArr(_) => true
    case JObj(_) => true
  }

  /** Truthiness of a possibly-undefined value. */
  predicate TruthyOpt(v: Option<JValue>) {
    v.Some? && Truthy(v.value)
  }

  /** `v || fallback`. */
  function Or(v: Option<JValue>, fallback: JValue): JValue {
    if TruthyOpt(v) then v.value else fallback
  }

  /** Property access `v.key`: only objects have the named own properties the core reads;
      on every other value the property is `undefined`. */
  function Member(v: JValue, key: string): Option<JValue> {
    match v
    case JObj(m) => if key in m then Some(m[key]) else None
    case _ => None
  }

  /** Index access `v[0]`: the first element of an array, the first character of a string,
      the property "0" of an object, and `undefined` otherwise. */
  function First(v: JValue): Option<JValue> {
    match v
    case JArr(items) => if |items| > 0 then Some(items[0]) else None
    case JStr(s) => if |s| > 0 then Some(JStr([s[0]])) else None
    case JObj(m) => if "0" in m then Some(m["0"]) else None
    case _ => None
  }

  /** `typeof v === 'object'` for a truthy value. */
  predicate IsObjectLike(v: JValue) {
    v.JArr? || v.JObj?
  }

  /** `safeParseJSON`: never fails. A falsy input gives `{}`, an object or array is returned unchanged,
      a string is handed to the text parser `parse` (`None` meaning it threw, which gives `{}`),
      and any other value gives `{}`. */
  function SafeParse(data: Option<JValue>, parse: string -> Option<JValue>): (r: JValue)
    ensures !TruthyOpt(data) ==> r == EmptyObject
    ensures TruthyOpt(data) && IsObjectLike(data.value) ==> r == data.value
    ensures TruthyOpt(data) && data.value.JStr? ==> r == parse(data.value.s).GetOr(EmptyObject)
    ensures TruthyOpt(data) && (data.value.JNum? || data.value.JBool?) ==> r == EmptyObject
    ensures || r == EmptyObject
            || (IsObjectLike(r) && r == data.value)
            || (data.Some? && data.value.JStr? && Some(r) == parse(data.value.s))
  {
    if !TruthyOpt(data) then EmptyObject
    else
      match data.value
      case JArr(_) => data.value
      case JObj(_) => data.value
      case JStr(s) => parse(s).GetOr(EmptyObject)
      case _ => EmptyObject
  }

  /** Parsing an already-decoded object or array again changes nothing, and a result that is an
      object or array is a fixed point of `SafeParse`: stored payloads can be normalised any number
      of times. */
  lemma SafeParseIdempotent(data: Option<JValue>, parse: string -> Option<JValue>)
    requires IsObjectLike(SafeParse(data, parse))
    ensures SafeParse(Some(SafeParse(data, parse)), parse) == SafeParse(data, parse)
  {
  }
}

=== FILE: pages.dfy ===
/** The `pages` table and the operations of the `Page` model over it. */
module Pages {
  import opened Wrappers
  import opened Json
  import opened Seqs
  import opened UpdateBuilder

  /** `title VARCHAR(255)`, `slug VARCHAR(255)` and `icon VARCHAR(50)`; the session runs in strict
      mode, so a longer value is an error. */
  const TitleMaxLength := 255
  const SlugMaxLength := 255
  const IconMaxLength := 50

  /** `is_published BOOLEAN` is `TINYINT(1)`: a signed byte. */
  const FlagMin := -128
  const FlagMax := 127

  const DefaultTitle := "Untitled"
  const DefaultIcon := "📄"

  /** A row of `pages` (slug, publication flag and `updated_at` omitted). `userId` is the owner the
      history controller compares against. */
  datatype Page = Page(
    id: int,
    userId: Option<int>,
    title: string,
    content: JValue,
    parentId: Option<int>,
    icon: Option<string>,
    coverImage: Option<string>,
    createdAt: int)

  /** The `pageData` a caller passes to `Page.create`; every field may be `undefined`. */
  datatype PageInput = PageInput(
    title: Option<string>,
    content: Option<JValue>,
    parentId: Option<int>,
    icon: Option<string>,
    coverImage: Option<string>)

  /** Primary keys are distinct and below the auto-increment counter `next`. */
  predicate WellFormed(table: seq<Page>, next: int) {
    && (forall i, j :: 0 <= i < j < |table| ==> table[i].id != table[j].id)
    && (forall i :: 0 <= i < |table| ==> table[i].id < next)
  }

  /** The values `Page.create` writes fit their columns. */
  predicate Fits(input: PageInput) {
    |StrOr(input.title, DefaultTitle)| <= TitleMaxLength && |StrOr(input.icon, DefaultIcon)| <= IconMaxLength
  }

  function HasId(id: int): Page -> bool {
    (p: Page) => p.id == id
  }

  function WithoutId(id: int): Page -> bool {
    (p: Page) => p.id != id
  }

  /** `Page.findById`. */
  function FindById(table: seq<Page>, id: int): (r: Option<Page>)
    ensures r.Some? ==> r.value in table && r.value.id == id
    ensures r.None? <==> forall i :: 0 <= i < |table| ==> table[i].id != id
  {
    Find(table, HasId(id))
  }

  /** `Page.create`: inserts one row at time `now` with a fresh id, falsy fields replaced by their
      defaults, and returns the row as read back. The insert names no owner column. */
  function Create(table: seq<Page>, next: int, now: int, input: PageInput): (r: Result<(seq<Page>, int, Page)>)
    requires WellFormed(table, next)
    ensures r.Success? <==> Fits(input)
    ensures r.Success? ==>
              var (t, n, p) := r.value;
              && t == table + [p]
              && WellFormed(t, n)
              && (forall q :: q in table ==> q.id != p.id)
              && FindById(t, p.id) == Some(p)
              && p.createdAt == now && p.userId.None?
  {
    if !Fits(input) then Failure("Data too long")
    else
      var p := Page(next, None, StrOr(input.title, DefaultTitle), Or(input.content, EmptyObject),
                    IdOrNull(input.parentId), Some(StrOr(input.icon, DefaultIcon)), IdOrStr(input.coverImage), now);
      var t := table + [p];
      assert t[|table|] == p;
      Success((t, next + 1, p))
  }

  /** `x || null` on an optional string. */
  function IdOrStr(x: Option<string>): Option<string> {
    if x.Some? && x.value != "" then x else None
  }

  /** Every absent or falsy field of the input is stored as its default: title 'Untitled', content
      `{}`, no parent, icon '📄' and no cover image; present values are stored as given. */
  lemma CreateDefaults(table: seq<Page>, next: int, now: int, input: PageInput)
    requires WellFormed(table, next) && Fits(input)
    ensures var p := Create(table, next, now, input).value.2;
            && (input.title.None? || input.title == Some("") ==> p.title == "Untitled")
            && (input.title.Some? && input.title != Some("") ==> p.title == input.title.value)
            && (!TruthyOpt(input.content) ==> p.content == JObj(map[]))
            && (TruthyOpt(input.content) ==> p.content == input.content.value)
            && (Present(input.parentId) <==> p.parentId.Some?)
            && (Present(input.parentId) ==> p.parentId == input.parentId)
            && (input.icon.None? || input.icon == Some("") ==> p.icon == Some("📄"))
            && (input.icon.Some? && input.icon != Some("") ==> p.icon == input.icon)
            && (input.coverImage.None? || input.coverImage == Some("") <==> p.coverImage.None?)
            && (p.coverImage.Some? ==> p.coverImage == input.coverImage)
  {
  }

  /** The argument of `Page.findAll`: omitted (`undefined`), `null`, or a parent id. */
  datatype ParentArg = Undefined | Null | Id(id: int)

  /** The filter `findAll` applies for an argument, after the default parameter `parentId = null`
      has replaced an omitted one; `Undefined` would list every page. */
  function Effective(arg: ParentArg): (r: ParentArg)
    ensures !r.Undefined?
  {
    if arg.Undefined? then Null else arg
  }

  /** Whether page `p` passes the `findAll` filter for argument `a`. */
  predicate Listed(a: ParentArg, p: Page) {
    match a
    case Undefined => true
    case Null => p.parentId.None?
    case Id(n) => p.parentId == Some(n)
  }

  function Selects(a: ParentArg): Page -> bool {
    (p: Page) => Listed(a, p)
  }

  /** The sort key of `ORDER BY created_at DESC`. */
  function Newest(p: Page): int {
    -p.createdAt
  }

  /** `Page.findAll`: the pages under the given parent (top-level pages for `null`), newest first. */
  function FindAll(table: seq<Page>, arg: ParentArg): (r: seq<Page>)
    ensures SortedBy(r, Newest)
    ensures forall p :: multiset(r)[p] == if Listed(Effective(arg), p) then multiset(table)[p] else 0
  {
    SortBy(Filter(table, Selects(Effective(arg))), Newest)
  }

  /** Omitting the argument lists the top-level pages, exactly as passing `null` does: the branch that
      would list every page is never taken. */
  lemma FindAllDefault(table: seq<Page>)
    ensures FindAll(table, Undefined) == FindAll(table, Null)
    ensures forall p :: p in FindAll(table, Undefined) <==> p in table && p.parentId.None?
  {
    forall p
      ensures p in FindAll(table, Undefined) <==> p in table && p.parentId.None?
    {
      assert p in FindAll(table, Undefined) <==> p in multiset(FindAll(table, Undefined));
    }
  }

  /** `Page.delete`: removes the row with that id and reports whether one was removed. */
  function Delete(table: seq<Page>, id: int): (r: (seq<Page>, bool))
    ensures r.1 <==> exists i :: 0 <= i < |table| && table[i].id == id
    ensures forall p :: multiset(r.0)[p] == if p.id == id then 0 else multiset(table)[p]
  {
    var t := Filter(table, WithoutId(id));
    FilterLength(table, WithoutId(id));
    (t, |t| < |table|)
  }

  // ----- Page.update ------------------------------------------------------------------------

  /** The request keys `Page.update` renames to a column. */
  const Renames: map<string, string> := map["coverImage" := "cover_image"]

  /** The columns `Page.update` serialises with `JSON.stringify`. */
  const JsonColumns: set<string> := {"content"}

  /** Every column `Page.update` may name: the columns of `pages` and the owner column the history
      controller reads. A `SET` naming any other is rejected before a row is looked at. The slug,
      the publication flag and `updated_at` are columns the row model does not carry. */
  const TableColumns: set<string> :=
    {"id", "user_id", "title", "slug", "content", "parent_id", "icon", "cover_image", "is_published",
     "created_at", "updated_at"}

  /** Every assignment names a column of the table. */
  predicate KnownColumns(fields: seq<Assignment>) {
    Columns(fields) <= TableColumns
  }

  /** No two rows share an id, as the primary key guarantees. */
  predicate DistinctIds(table: seq<Page>) {
    forall i, j :: 0 <= i < j < |table| ==> table[i].id != table[j].id
  }

  /** The values each column of `pages` takes: a number for `id`, a number or null for `user_id`
      and `parent_id`, a string of at most 255 characters for `title`, at most 50 or null for
      `icon`, any string or null for `cover_image`, serialised JSON for `content`, a string of at
      most 255 characters for `slug` (NOT NULL), a boolean, null or signed byte for `is_published`,
      and anything for the two timestamps. */
  predicate Accepts(a: Assignment) {
    match a.column
    case "id" => a.value.Plain? && a.value.v.JNum?
    case "user_id" => a.value.Plain? && (a.value.v.JNum? || a.value.v.JNull?)
    case "parent_id" => a.value.Plain? && (a.value.v.JNum? || a.value.v.JNull?)
    case "title" => a.value.Plain? && a.value.v.JStr? && |a.value.v.s| <= TitleMaxLength
    case "icon" => a.value.Plain? && (a.value.v.JNull? || (a.value.v.JStr? && |a.value.v.s| <= IconMaxLength))
    case "cover_image" => a.value.Plain? && (a.value.v.JNull? || a.value.v.JStr?)
    case "content" => a.value.JsonText?
    case "slug" => a.value.Plain? && a.value.v.JStr? && |a.value.v.s| <= SlugMaxLength
    case "is_published" =>
      a.value.Plain? && (a.value.v.JBool? || a.value.v.JNull? || (a.value.v.JNum? && FlagMin <= a.value.v.n <= FlagMax))
    case "created_at" => true
    case "updated_at" => true
    case _ => false
  }

  /** A list every column accepts names only columns of the table. */
  lemma AcceptedKnown(fields: seq<Assignment>)
    ensures (forall a :: a in fields ==> Accepts(a)) ==> KnownColumns(fields)
  {
  }

  /** Rows `p` and `q` hold the same value in `column`. */
  predicate Agrees(p: Page, q: Page, column: string) {
    match column
    case "id" => p.id == q.id
    case "user_id" => p.userId == q.userId
    case "title" => p.title == q.title
    case "content" => p.content == q.content
    case "parent_id" => p.parentId == q.parentId
    case "icon" => p.icon == q.icon
    case "cover_image" => p.coverImage == q.coverImage
    case "created_at" => p.createdAt == q.createdAt
    case _ => true
  }

  function NullableId(x: Option<int>): JValue {
    if x.None? then JNull else JNum(x.value)
  }

  function NullableText(x: Option<string>): JValue {
    if x.None? then JNull else JStr(x.value)
  }

  /** Row `q` holds the value assignment `a` writes; a column the row model does not carry, or a
      timestamp, holds any value. */
  predicate Holds(q: Page, a: Assignment) {
    match a.column
    case "id" => a.value == Plain(JNum(q.id))
    case "user_id" => a.value == Plain(NullableId(q.userId))
    case "title" => a.value == Plain(JStr(q.title))
    case "content" => a.value == JsonText(q.content)
    case "parent_id" => a.value == Plain(NullableId(q.parentId))
    case "icon" => a.value == Plain(NullableText(q.icon))
    case "cover_image" => a.value == Plain(NullableText(q.coverImage))
    case "slug" => true
    case "is_published" => true
    case "created_at" => true
    case "updated_at" => true
    case _ => false
  }

  /** One `column = ?` applied to a row; a value the column cannot take is an SQL error. */
  function ApplyField(p: Page, a: Assignment): (r: Result<Page>)
    ensures a.column !in TableColumns ==> r.Failure?
    ensures r.Success? <==> Accepts(a)
    ensures r.Success? ==> Holds(r.value, a)
    ensures r.Success? ==> forall column :: column != a.column ==> Agrees(p, r.value, column)
  {
    match (a.column, a.value)
    case ("id", Plain(JNum(n))) => Success(p.(id := n))
    case ("user_id", Plain(JNull)) => Success(p.(userId := None))
    case ("user_id", Plain(JNum(n))) => Success(p.(userId := Some(n)))
    case ("title", Plain(JStr(s))) =>
      if |s| <= TitleMaxLength then Success(p.(title := s)) else Failure("Data too long for column 'title'")
    case ("content", JsonText(v)) => Success(p.(content := v))
    case ("parent_id", Plain(JNull)) => Success(p.(parentId := None))
    case ("parent_id", Plain(JNum(n))) => Success(p.(parentId := Some(n)))
    case ("icon", Plain(JNull)) => Success(p.(icon := None))
    case ("icon", Plain(JStr(s))) =>
      if |s| <= IconMaxLength then Success(p.(icon := Some(s))) else Failure("Data too long for column 'icon'")
    case ("cover_image", Plain(JNull)) => Success(p.(coverImage := None))
    case ("cover_image", Plain(JStr(s))) => Success(p.(coverImage := Some(s)))
    case ("slug", Plain(JStr(s))) =>
      if |s| <= SlugMaxLength then Success(p) else Failure("Data too long for column 'slug'")
    case ("is_published", Plain(JBool(_))) => Success(p)
    case ("is_published", Plain(JNull)) => Success(p)
    case ("is_published", Plain(JNum(n))) =>
      if FlagMin <= n <= FlagMax then Success(p) else Failure("Out of range value for column 'is_published'")
    case ("created_at", _) => Success(p)
    case ("updated_at", _) => Success(p)
    case _ => Failure("Incorrect value for column '" + a.column + "'")
  }

  /** `fields[i]` is the last assignment to its column. */
  predicate LastFor(fields: seq<Assignment>, i: int)
    requires 0 <= i < |fields|
  {
    forall j :: i < j < |fields| ==> fields[j].column != fields[i].column
  }

  /** Everything `ApplyFields` promises about turning `p` into `q` with `fields`. */
  ghost predicate AppliedAll(p: Page, fields: seq<Assignment>, q: Page) {
    && (forall column :: column !in Columns(fields) ==> Agrees(p, q, column))
    && (forall i :: 0 <= i < |fields| && LastFor(fields, i) ==> Holds(q, fields[i]))
  }

  lemma AgreesTransfer(q: Page, s: Page, a: Assignment)
    requires Holds(q, a) && Agrees(q, s, a.column)
    ensures Holds(s, a)
  {
  }

  lemma AgreesChain(p: Page, q: Page, s: Page, column: string)
    requires Agrees(p, q, column) && Agrees(q, s, column)
    ensures Agrees(p, s, column)
  {
  }

  lemma ApplyFieldsStep(p: Page, fields: seq<Assignment>, q: Page, s: Page)
    requires |fields| > 0
    requires AppliedAll(p, fields[..|fields| - 1], q)
    requires Holds(s, fields[|fields| - 1])
    requires forall column :: column != fields[|fields| - 1].column ==> Agrees(q, s, column)
    ensures AppliedAll(p, fields, s)
  {
    var init := fields[..|fields| - 1];
    var last := fields[|fields| - 1];
    assert Columns(fields) == Columns(init) + {last.column} by {
      assert forall a :: a in fields <==> a in init || a == last;
    }
    forall column | column !in Columns(fields)
      ensures Agrees(p, s, column)
    {
      AgreesChain(p, q, s, column);
    }
    forall i | 0 <= i < |fields| && LastFor(fields, i)
      ensures Holds(s, fields[i])
    {
      if i < |fields| - 1 {
        assert init[i] == fields[i];
        assert LastFor(init, i);
        assert fields[i].column != last.column;
        AgreesTransfer(q, s, fields[i]);
      }
    }
  }

  /** The `SET` list applied left to right: the last assignment to a column wins and every column
      the list does not name keeps its value. */
  function ApplyFields(p: Page, fields: seq<Assignment>): (r: Result<Page>)
    ensures r.Success? <==> forall a :: a in fields ==> Accepts(a)
    ensures r.Success? ==> AppliedAll(p, fields, r.value)
  {
    if |fields| == 0 then Success(p)
    else
      InitLast(fields);
      match ApplyFields(p, fields[..|fields| - 1])
      case Failure(e) => Failure(e)
      case Success(q) =>
        var r := ApplyField(q, fields[|fields| - 1]);
        if r.Success? then
          ApplyFieldsStep(p, fields, q, r.value);
          r
        else r
  }

  /** The elements of a non-empty list are those of all but its last, and its last. */
  lemma InitLast(fields: seq<Assignment>)
    requires |fields| > 0
    ensures forall a :: a in fields <==> a in fields[..|fields| - 1] || a == fields[|fields| - 1]
  {
    assert fields == fields[..|fields| - 1] + [fields[|fields| - 1]];
  }

  /** A list that writes `id` only as the row's own id leaves the row's id as it was. */
  lemma {:induction false} KeptId(p: Page, fields: seq<Assignment>)
    requires KeepsId(fields, p.id) && ApplyFields(p, fields).Success?
    ensures ApplyFields(p, fields).value.id == p.id
  {
    if |fields| > 0 {
      var init := fields[..|fields| - 1];
      var last := fields[|fields| - 1];
      InitLast(fields);
      KeptId(p, init);
      var q := ApplyFields(p, init).value;
      var s := ApplyField(q, last).value;
      if last.column == "id" {
        assert Holds(s, last);
      } else {
        assert Agrees(q, s, "id");
      }
    }
  }

  /** Under distinct ids, a row that keeps its id takes no other row's id. */
  lemma OwnIdFree(table: seq<Page>, id: int, k: int, fields: seq<Assignment>)
    requires 0 <= k < |table| && table[k].id == id && ApplyFields(table[k], fields).Success?
    ensures DistinctIds(table) && KeepsId(fields, id) ==> IdFreeFor(table, k, ApplyFields(table[k], fields).value)
  {
    if DistinctIds(table) && KeepsId(fields, id) {
      KeptId(table[k], fields);
    }
  }

  /** No row other than the `k`-th carries the id `p` would give it. */
  predicate IdFreeFor(table: seq<Page>, k: int, p: Page) {
    forall j :: 0 <= j < |table| && j != k ==> table[j].id != p.id
  }

  /** `Page.update`: the builder's `SET` list, with `coverImage` renamed and `content` serialised,
      applied to the row with that id, then that id read back. A column the table does not have is
      an error whether or not a row matches; a new `id` another row already has is a duplicate key.
      When the list rewrites `id`, the read-back finds no row. */
  function Update(table: seq<Page>, id: int, updates: Updates): (r: Result<(seq<Page>, Option<Page>)>)
    ensures (forall i :: 0 <= i < |updates| ==> updates[i].1.None?) ==> r == Failure(NoFieldsMessage)
    ensures !KnownColumns(Fields(updates, Renames, JsonColumns)) ==> r.Failure?
    ensures r.Success? ==> |r.value.0| == |table|
    ensures r.Success? ==> forall k :: 0 <= k < |table| && table[k].id != id ==> r.value.0[k] == table[k]
    ensures r.Success? ==> r.value.1 == FindById(r.value.0, id)
    ensures r.Success? && (forall k :: 0 <= k < |table| ==> table[k].id != id) ==> r.value.0 == table
    ensures r.Success? ==> forall k :: 0 <= k < |table| && r.value.0[k] != table[k] ==>
              && table[k].id == id
              && AppliedAll(table[k], Fields(updates, Renames, JsonColumns), r.value.0[k])
              && IdFreeFor(r.value.0, k, r.value.0[k])
    ensures r.Success? && "id" !in Columns(Fields(updates, Renames, JsonColumns)) ==>
              forall k :: 0 <= k < |table| ==> r.value.0[k].id == table[k].id
    ensures r.Success? && (exists k :: 0 <= k < |table| && table[k].id == id) ==>
              exists k :: 0 <= k < |table| && table[k].id == id &&
                          AppliedAll(table[k], Fields(updates, Renames, JsonColumns), r.value.0[k])
    ensures && DistinctIds(table)
            && (exists i :: 0 <= i < |updates| && updates[i].1.Some?)
            && (forall a :: a in Fields(updates, Renames, JsonColumns) ==> Accepts(a))
            && KeepsId(Fields(updates, Renames, JsonColumns), id)
            ==> r.Success?
  {
    var fields :- Build(updates, Renames, JsonColumns);
    if !KnownColumns(fields) then
      AcceptedKnown(fields);
      Failure("Unknown column in 'field list'")
    else
      var k := FindIndex(table, HasId(id));
      if k == -1 then Success((table, None))
      else
        var p :- ApplyFields(table[k], fields);
        if !IdFreeFor(table, k, p) then
          OwnIdFree(table, id, k, fields);
          Failure("Duplicate entry for key 'PRIMARY'")
        else
          var t := table[k := p];
          Replaced(table, id, k, p, fields);
          Success((t, FindById(t, id)))
  }

  /** Writing `p` over the `k`-th row, which has the id updated, changes only that row. */
  lemma Replaced(table: seq<Page>, id: int, k: int, p: Page, fields: seq<Assignment>)
    requires 0 <= k < |table| && table[k].id == id
    requires AppliedAll(table[k], fields, p) && IdFreeFor(table, k, p)
    ensures var t := table[k := p];
            && |t| == |table|
            && (forall j :: 0 <= j < |table| && table[j].id != id ==> t[j] == table[j])
            && (forall j :: 0 <= j < |table| && t[j] != table[j] ==>
                  && table[j].id == id && AppliedAll(table[j], fields, t[j]) && IdFreeFor(t, j, t[j]))
            && ("id" !in Columns(fields) ==> forall j :: 0 <= j < |table| ==> t[j].id == table[j].id)
            && exists j :: 0 <= j < |table| && table[j].id == id && AppliedAll(table[j], fields, t[j])
  {
    var t := table[k := p];
    assert t[k] == p;
    if "id" !in Columns(fields) {
      assert Agrees(table[k], p, "id");
    }
  }

  /** A `coverImage` key is written to the `cover_image` column as given; a `content` key is written
      serialised; every other key keeps its own name and value. */
  lemma UpdateMapping(key: string, v: JValue)
    ensures AssignmentOf(key, v, Renames, JsonColumns) ==
              if key == "coverImage" then Assignment("cover_image", Plain(v))
              else if key == "content" then Assignment("content", JsonText(v))
              else Assignment(key, Plain(v))
  {
  }

  /** A request that echoes the row's own `id` next to a new `title`, as an editor sends a whole row
      back, succeeds: the id is rewritten to itself and the new value is read back. */
  lemma EchoedIdAccepted(table: seq<Page>, id: int, v: string)
    requires forall i, j :: 0 <= i < j < |table| ==> table[i].id != table[j].id
    requires exists k :: 0 <= k < |table| && table[k].id == id
    requires |v| <= TitleMaxLength
    ensures var r := Update(table, id, [("id", Some(JNum(id))), ("title", Some(JStr(v)))]);
            r.Success? && r.value.1.Some? && r.value.1.value.title == v
  {
    var updates: Updates := [("id", Some(JNum(id))), ("title", Some(JStr(v)))];
    EchoFields(id, v);
    var fields := Fields(updates, Renames, JsonColumns);
    assert Build(updates, Renames, JsonColumns) == Success(fields);
    assert KnownColumns(fields);
    var k := FindIndex(table, HasId(id));
    var p := table[k].(title := v);
    EchoApplied(table[k], v);
    assert IdFreeFor(table, k, p);
    ReadBack(table, k, p);
  }

  lemma EchoFields(id: int, v: string)
    ensures var fields := Fields([("id", Some(JNum(id))), ("title", Some(JStr(v)))], Renames, JsonColumns);
            && fields == [Assignment("id", Plain(JNum(id))), Assignment("title", Plain(JStr(v)))]
            && Columns(fields) == {"id", "title"}
  {
    var updates: Updates := [("id", Some(JNum(id))), ("title", Some(JStr(v)))];
    var first := Assignment("id", Plain(JNum(id)));
    var second := Assignment("title", Plain(JStr(v)));
    assert updates[..1][..0] == [];
    assert AssignmentOf("id", JNum(id), Renames, JsonColumns) == first;
    assert AssignmentOf("title", JStr(v), Renames, JsonColumns) == second;
    assert Fields(updates[..1][..0], Renames, JsonColumns) == [];
    assert Fields(updates[..1], Renames, JsonColumns) == [first];
    assert updates[..|updates| - 1] == updates[..1];
    var fields := Fields(updates, Renames, JsonColumns);
    assert fields == [first, second];
    assert Columns(fields) == {"id", "title"} by {
      assert fields[0] in fields && fields[1] in fields;
    }
  }

  lemma EchoApplied(row: Page, v: string)
    requires |v| <= TitleMaxLength
    ensures ApplyFields(row, [Assignment("id", Plain(JNum(row.id))), Assignment("title", Plain(JStr(v)))])
            == Success(row.(title := v))
  {
    var fields := [Assignment("id", Plain(JNum(row.id))), Assignment("title", Plain(JStr(v)))];
    assert fields[..1] == [fields[0]] && fields[..1][..0] == [];
    assert ApplyField(row, fields[0]) == Success(row);
    assert ApplyFields(row, fields[..1]) == Success(row);
  }

  /** `{coverImage: a, cover_image: b}` names `cover_image` twice; the `SET` list keeps the keys'
      order, so the later key's value is the one read back. */
  lemma LaterKeyWins(table: seq<Page>, id: int, a: string, b: string)
    requires DistinctIds(table)
    requires exists k :: 0 <= k < |table| && table[k].id == id
    ensures var r := Update(table, id, [("coverImage", Some(JStr(a))), ("cover_image", Some(JStr(b)))]);
            r.Success? && r.value.1.Some? && r.value.1.value.coverImage == Some(b)
  {
    var updates: Updates := [("coverImage", Some(JStr(a))), ("cover_image", Some(JStr(b)))];
    LaterFields(a, b);
    var fields := Fields(updates, Renames, JsonColumns);
    assert Build(updates, Renames, JsonColumns) == Success(fields);
    assert KnownColumns(fields);
    var k := FindIndex(table, HasId(id));
    var p := table[k].(coverImage := Some(b));
    LaterApplied(table[k], a, b);
    assert IdFreeFor(table, k, p);
    ReadBack(table, k, p);
  }

  lemma LaterApplied(row: Page, a: string, b: string)
    ensures ApplyFields(row, [Assignment("cover_image", Plain(JStr(a))), Assignment("cover_image", Plain(JStr(b)))])
            == Success(row.(coverImage := Some(b)))
  {
    var fields := [Assignment("cover_image", Plain(JStr(a))), Assignment("cover_image", Plain(JStr(b)))];
    assert fields[..1] == [fields[0]] && fields[..1][..0] == [];
    assert ApplyFields(row, fields[..1]) == Success(row.(coverImage := Some(a)));
  }

  lemma LaterFields(a: string, b: string)
    ensures var fields := Fields([("coverImage", Some(JStr(a))), ("cover_image", Some(JStr(b)))], Renames, JsonColumns);
            && fields == [Assignment("cover_image", Plain(JStr(a))), Assignment("cover_image", Plain(JStr(b)))]
            && (forall x :: x in fields ==> Accepts(x))
            && "id" !in Columns(fields)
  {
    var updates: Updates := [("coverImage", Some(JStr(a))), ("cover_image", Some(JStr(b)))];
    assert updates[..0] == [] && updates[..1] == [updates[0]];
    assert DefinedCount(updates[..1]) == 1;
    var fields := Fields(updates, Renames, JsonColumns);
    assert fields[0] == Assignment("cover_image", Plain(JStr(a)));
  }

  /** After the `k`-th row is replaced by one whose id no other row has, reading that id back finds
      the new row. */
  lemma ReadBack(table: seq<Page>, k: int, p: Page)
    requires 0 <= k < |table| && IdFreeFor(table, k, p)
    ensures FindById(table[k := p], p.id) == Some(p)
  {
    var t := table[k := p];
    var found := FindById(t, p.id);
    assert found.Some? by {
      assert t[k].id == p.id;
    }
    var j :| 0 <= j < |t| && t[j] == found.value;
    assert j == k;
  }
}

=== FILE: seqs.dfy ===
/** Sequence operations that stand for the SQL the core issues against one table:
    `WHERE` is `Filter`, `ORDER BY` is the stable `SortBy`, `LIMIT`/`OFFSET` are `Window`,
    and a primary-key lookup is `Find`. */
module Seqs {
  import opened Wrappers

  /** The elements of `s` satisfying `p`, in their original order. */
  function Filter<T(!new)>(s: seq<T>, p: T -> bool): (r: seq<T>)
    ensures |r| <= |s|
    ensures forall i :: 0 <= i < |r| ==> p(r[i])
    ensures forall x :: x in r <==> x in s && p(x)
    ensures forall x :: multiset(r)[x] == if p(x) then multiset(s)[x] else 0
  {
    if |s| == 0 then []
    else
      var init := Filter(s[..|s| - 1], p);
      assert s == s[..|s| - 1] + [s[|s| - 1]];
      if p(s[|s| - 1]) then init + [s[|s| - 1]] else init
  }

  lemma {:induction false} FilterConcat<T(!new)>(a: seq<T>, b: seq<T>, p: T -> bool)
    ensures Filter(a + b, p) == Filter(a, p) + Filter(b, p)
    decreases |b|
  {
    if |b| == 0 {
      assert a + b == a;
    } else {
      var b' := b[..|b| - 1];
      assert (a + b)[..|a + b| - 1] == a + b';
      FilterConcat(a, b', p);
      FilterSnoc(a + b, p);
      FilterSnoc(b, p);
      var tail := if p(b[|b| - 1]) then [b[|b| - 1]] else [];
      assert (a + b)[|a + b| - 1] == b[|b| - 1];
      AppendAssociative(Filter(a, p), Filter(b', p), tail);
    }
  }

  lemma AppendAssociative<T>(x: seq<T>, y: seq<T>, z: seq<T>)
    ensures x + y + z == x + (y + z)
  {
  }

  /** One step of `Filter`'s definition: the last element is kept exactly when it passes. */
  lemma FilterSnoc<T(!new)>(s: seq<T>, p: T -> bool)
    requires |s| > 0
    ensures s == s[..|s| - 1] + [s[|s| - 1]]
    ensures Filter(s, p) == Filter(s[..|s| - 1], p) + (if p(s[|s| - 1]) then [s[|s| - 1]] else [])
  {
  }

  /** Filtering with a predicate that holds everywhere in `s` keeps all of `s`. */
  lemma {:induction false} FilterAll<T(!new)>(s: seq<T>, p: T -> bool)
    requires forall i :: 0 <= i < |s| ==> p(s[i])
    ensures Filter(s, p) == s
  {
    if |s| > 0 {
      var init := s[..|s| - 1];
      assert forall i :: 0 <= i < |init| ==> p(init[i]) by {
        assert forall i :: 0 <= i < |init| ==> init[i] == s[i];
      }
      FilterAll(init, p);
      FilterSnoc(s, p);
    }
  }

  /** Filtering twice with the same predicate is filtering once. */
  lemma FilterIdempotent<T(!new)>(s: seq<T>, p: T -> bool)
    ensures Filter(Filter(s, p), p) == Filter(s, p)
  {
    FilterAll(Filter(s, p), p);
  }

  /** Filtering keeps the length exactly when every element passes. */
  lemma FilterLength<T(!new)>(s: seq<T>, p: T -> bool)
    ensures |Filter(s, p)| == |s| <==> forall i :: 0 <= i < |s| ==> p(s[i])
  {
    if forall i :: 0 <= i < |s| ==> p(s[i]) {
      FilterAll(s, p);
    } else {
      var i :| 0 <= i < |s| && !p(s[i]);
      FilterShorter(s, p, i);
    }
  }

  /** Filtering out any element shortens the sequence. */
  lemma {:induction false} FilterShorter<T(!new)>(s: seq<T>, p: T -> bool, i: nat)
    requires i < |s| && !p(s[i])
    ensures |Filter(s, p)| < |s|
  {
    var init := s[..|s| - 1];
    if i < |s| - 1 {
      assert init[i] == s[i];
      FilterShorter(init, p, i);
    }
  }

  /** Replacing an element that the filter drops by another it drops leaves the filter unchanged. */
  lemma {:induction false} FilterUpdateDropped<T(!new)>(s: seq<T>, k: nat, y: T, p: T -> bool)
    requires k < |s| && !p(s[k]) && !p(y)
    ensures Filter(s[k := y], p) == Filter(s, p)
    decreases |s|
  {
    var s' := s[k := y];
    if k < |s| - 1 {
      FilterUpdateDropped(s[..|s| - 1], k, y, p);
      assert s'[..|s'| - 1] == s[..|s| - 1][k := y];
    } else {
      assert s'[..|s'| - 1] == s[..|s| - 1];
    }
  }

  /** Filtering first with a weaker predicate changes nothing. */
  lemma {:induction false} FilterWeaker<T(!new)>(s: seq<T>, weak: T -> bool, strong: T -> bool)
    requires forall x :: strong(x) ==> weak(x)
    ensures Filter(Filter(s, weak), strong) == Filter(s, strong)
  {
    if |s| > 0 {
      var init := s[..|s| - 1];
      var last := s[|s| - 1];
      FilterWeaker(init, weak, strong);
      if weak(last) {
        FilterConcat(Filter(init, weak), [last], strong);
        assert [last][..0] == [];
      }
    }
  }

  /** Splitting `s` by a predicate and its complement loses and duplicates nothing. */
  lemma {:induction false} FilterSplit<T(!new)>(s: seq<T>, p: T -> bool, q: T -> bool)
    requires forall x :: q(x) == !p(x)
    ensures |Filter(s, p)| + |Filter(s, q)| == |s|
  {
    if |s| > 0 {
      FilterSplit(s[..|s| - 1], p, q);
    }
  }

  /** Filtering a sequence led by `x`. */
  lemma FilterCons<T(!new)>(x: T, s: seq<T>, p: T -> bool)
    ensures Filter([x] + s, p) == (if p(x) then [x] else []) + Filter(s, p)
  {
    assert [x][..0] == [];
    assert Filter([x], p) == (if p(x) then [x] else []);
    FilterConcat([x], s, p);
  }

  /** `Filter` seen from the front. */
  lemma FilterHead<T(!new)>(s: seq<T>, p: T -> bool)
    requires |s| > 0
    ensures Filter(s, p) == (if p(s[0]) then [s[0]] else []) + Filter(s[1..], p)
  {
    HeadTail(s);
    FilterCons(s[0], s[1..], p);
  }

  lemma HeadTail<T>(s: seq<T>)
    requires |s| > 0
    ensures s == [s[0]] + s[1..]
  {
  }

  /** The two halves of a concatenation are its prefix and its suffix. */
  lemma Halves<T>(x: seq<T>, y: seq<T>)
    ensures (x + y)[..|x|] == x && (x + y)[|x|..] == y
  {
  }

  /** Taking no more than the first part of a concatenation takes from the first part alone. */
  lemma TakeConcat<T>(x: seq<T>, y: seq<T>, n: nat)
    requires n <= |x|
    ensures (x + y)[..n] == x[..n]
  {
  }

  /** Regrouping the middle three of five concatenated parts. */
  lemma RegroupMiddle<T>(a: seq<T>, b: seq<T>, c: seq<T>, d: seq<T>, e: seq<T>)
    ensures a + b + c + d + e == a + (b + c + d) + e
  {
  }

  /** Dropping a suffix and putting it back gives the sequence again. */
  lemma DropSuffix<T>(s: seq<T>, t: seq<T>)
    requires |t| <= |s| && s[|s| - |t|..] == t
    ensures s[..|s| - |t|] + t == s
  {
  }

  /** Two predicates that agree on the elements of `s` filter it alike. */
  lemma {:induction false} FilterCongruent<T(!new)>(s: seq<T>, p: T -> bool, q: T -> bool)
    requires forall i :: 0 <= i < |s| ==> p(s[i]) == q(s[i])
    ensures Filter(s, p) == Filter(s, q)
  {
    if |s| > 0 {
      FilterCongruent(s[..|s| - 1], p, q);
    }
  }

  /** Filtering drops everything when nothing in `s` passes. */
  lemma FilterNone<T(!new)>(s: seq<T>, p: T -> bool)
    requires forall i :: 0 <= i < |s| ==> !p(s[i])
    ensures Filter(s, p) == []
  {
  }

  /** The position of the first element of `s` satisfying `p`, or -1. */
  function FindIndex<T>(s: seq<T>, p: T -> bool): (r: int)
    ensures -1 <= r < |s|
    ensures r == -1 <==> forall i :: 0 <= i < |s| ==> !p(s[i])
    ensures r >= 0 ==> p(s[r]) && forall j :: 0 <= j < r ==> !p(s[j])
  {
    if |s| == 0 then -1
    else if p(s[0]) then 0
    else
      var r := FindIndex(s[1..], p);
      assert forall j :: 1 <= j < |s| ==> s[j] == s[1..][j - 1];
      if r == -1 then -1 else r + 1
  }

  /** The first element of `s` satisfying `p` (a lookup by a unique key). */
  function Find<T>(s: seq<T>, p: T -> bool): (r: Option<T>)
    ensures r.None? <==> forall i :: 0 <= i < |s| ==> !p(s[i])
    ensures r.Some? ==> r.value in s && p(r.value)
    ensures r.Some? ==> exists i :: 0 <= i < |s| && s[i] == r.value && forall j :: 0 <= j < i ==> !p(s[j])
  {
    var k := FindIndex(s, p);
    if k == -1 then None else Some(s[k])
  }

  /** Elements are in non-decreasing order of `key`. */
  predicate SortedBy<T>(s: seq<T>, key: T -> int) {
    forall i, j :: 0 <= i < j < |s| ==> key(s[i]) <= key(s[j])
  }

  function Insert<T(!new)>(x: T, s: seq<T>, key: T -> int): (r: seq<T>)
    requires SortedBy(s, key)
    ensures SortedBy(r, key)
    ensures multiset(r) == multiset(s) + multiset{x}
    ensures |r| == |s| + 1
  {
    if |s| == 0 then [x]
    else if key(x) <= key(s[0]) then [x] + s
    else
      var rest := Insert(x, s[1..], key);
      InsertHead(x, s, key, rest);
      assert s == [s[0]] + s[1..];
      [s[0]] + rest
  }

  lemma InsertHead<T(!new)>(x: T, s: seq<T>, key: T -> int, rest: seq<T>)
    requires |s| > 0 && SortedBy(s, key) && key(s[0]) < key(x)
    requires SortedBy(rest, key) && multiset(rest) == multiset(s[1..]) + multiset{x}
    ensures SortedBy([s[0]] + rest, key)
  {
    forall i | 0 <= i < |rest|
      ensures key(s[0]) <= key(rest[i])
    {
      var y := rest[i];
      assert y in multiset(rest);
      if y != x {
        assert y in multiset(s[1..]);
        assert y in s[1..];
      }
    }
    var t := [s[0]] + rest;
    forall i, j | 0 <= i < j < |t|
      ensures key(t[i]) <= key(t[j])
    {
      if i > 0 {
        assert t[i] == rest[i - 1] && t[j] == rest[j - 1];
      } else {
        assert t[j] == rest[j - 1];
      }
    }
  }

  /** Stable insertion sort by `key`, ascending: the model of `ORDER BY key ASC`. */
  function SortBy<T(!new)>(s: seq<T>, key: T -> int): (r: seq<T>)
    ensures SortedBy(r, key)
    ensures multiset(r) == multiset(s)
    ensures |r| == |s|
  {
    if |s| == 0 then []
    else
      assert s == [s[0]] + s[1..];
      Insert(s[0], SortBy(s[1..], key), key)
  }

  /** Sorting an already sorted sequence returns it unchanged. */
  lemma {:induction false} SortBySorted<T(!new)>(s: seq<T>, key: T -> int)
    requires SortedBy(s, key)
    ensures SortBy(s, key) == s
  {
    if |s| > 0 {
      SortBySorted(s[1..], key);
      assert s == [s[0]] + s[1..];
    }
  }

  /** Every element of a sorted sequence is an element of the input. */
  lemma SortByMembers<T(!new)>(s: seq<T>, key: T -> int)
    ensures forall x :: x in SortBy(s, key) <==> x in s
  {
    var r := SortBy(s, key);
    forall x
      ensures x in r <==> x in s
    {
      assert x in r <==> x in multiset(r);
      assert x in s <==> x in multiset(s);
    }
  }

  /** When elements with equal keys are equal, a multiset has one sorted arrangement: two sorted
      permutations of each other are the same sequence. */
  lemma {:induction false} SortedUnique<T(!new)>(x: seq<T>, y: seq<T>, key: T -> int)
    requires multiset(x) == multiset(y) && SortedBy(x, key) && SortedBy(y, key)
    requires forall a, b :: a in x && b in x && key(a) == key(b) ==> a == b
    ensures x == y
    decreases |x|
  {
    assert |x| == |multiset(x)| == |y|;
    if |x| > 0 {
      SortedHeads(x, y, key);
      SortedTail(x, key);
      SortedTail(y, key);
      MultisetTail(x);
      MultisetTail(y);
      var x', y' := x[1..], y[1..];
      assert forall a :: a in x' ==> a in x;
      SortedUnique(x', y', key);
      HeadTail(x);
      HeadTail(y);
    }
  }

  lemma SortedTail<T>(s: seq<T>, key: T -> int)
    requires |s| > 0 && SortedBy(s, key)
    ensures SortedBy(s[1..], key)
  {
    assert forall i :: 0 <= i < |s| - 1 ==> s[1..][i] == s[i + 1];
  }

  /** The first elements of two sorted permutations have the least key, so they are equal. */
  lemma SortedHeads<T(!new)>(x: seq<T>, y: seq<T>, key: T -> int)
    requires |x| > 0 && |y| > 0
    requires multiset(x) == multiset(y) && SortedBy(x, key) && SortedBy(y, key)
    requires forall a, b :: a in x && b in x && key(a) == key(b) ==> a == b
    ensures x[0] == y[0]
  {
    assert y[0] in multiset(x) && x[0] in multiset(y);
    var m :| 0 <= m < |x| && x[m] == y[0];
    var n :| 0 <= n < |y| && y[n] == x[0];
    assert key(x[0]) <= key(x[m]) && key(y[0]) <= key(y[n]);
  }

  lemma MultisetTail<T>(s: seq<T>)
    requires |s| > 0
    ensures multiset(s[1..]) == multiset(s) - multiset{s[0]}
  {
    assert s == [s[0]] + s[1..];
    assert multiset(s) == multiset{s[0]} + multiset(s[1..]);
  }

  function Min(a: int, b: int): int {
    if a <= b then a else b
  }

  function Max(a: int, b: int): int {
    if a >= b then a else b
  }

  /** `LIMIT limit OFFSET offset` over an already ordered result. */
  function Window<T>(s: seq<T>, offset: nat, limit: nat): (r: seq<T>)
    ensures |r| <= limit
    ensures |r| == Max(0, Min(|s| - offset, limit))
    ensures forall i :: 0 <= i < |r| ==> r[i] == s[offset + i]
  {
    if offset >= |s| then [] else s[offset..Min(|s|, offset + limit)]
  }
}

=== FILE: text.dfy ===
/** The JavaScript string primitives the core relies on, restricted to what it needs:
    ASCII lower-casing, `startsWith`, `includes` and `Array.prototype.join`. */
module Text {

  predicate IsUpper(c: char) {
    'A' <= c <= 'Z'
  }

  predicate IsLower(c: char) {
    'a' <= c <= 'z'
  }

  predicate IsDigit(c: char) {
    '0' <= c <= '9'
  }

  /** `[A-Za-z0-9]`. */
  predicate IsAlnum(c: char) {
    IsUpper(c) || IsLower(c) || IsDigit(c)
  }

  /** `toLowerCase` on one character (ASCII letters only). */
  function LowerChar(c: char): (r: char)
    ensures !IsUpper(r)
    ensures IsUpper(c) ==> IsLower(r)
    ensures !IsUpper(c) ==> r == c
  {
    if IsUpper(c) then (c as int + 32) as char else c
  }

  /** `toLowerCase` (ASCII letters only). */
  function Lower(s: string): (r: string)
    ensures |r| == |s|
    ensures forall i :: 0 <= i < |s| ==> r[i] == LowerChar(s[i])
  {
    seq(|s|, i requires 0 <= i < |s| => LowerChar(s[i]))
  }

  /** `s.startsWith(t)`. */
  predicate StartsWith(s: string, t: string) {
    |t| <= |s| && s[..|t|] == t
  }

  /** `s.endsWith(t)`. */
  predicate EndsWith(s: string, t: string) {
    |t| <= |s| && s[|s| - |t|..] == t
  }

  /** `s.includes(t)`. */
  predicate Contains(s: string, t: string)
    decreases |s|
  {
    StartsWith(s, t) || (|s| > 0 && Contains(s[1..], t))
  }

  /** `items.join(sep)`. */
  function Join(items: seq<string>, sep: string): string {
    if |items| == 0 then ""
    else if |items| == 1 then items[0]
    else items[0] + sep + Join(items[1..], sep)
  }
}

=== FILE: timeline.dfy ===
/** `BlockHistory.getTimelineEntries`: the newest meaningful records of a page with a preview derived
    from their payloads. The derivation can throw on malformed payloads, and the query then answers
    `[]` as a whole. */
module Timeline {
  import opened Wrappers
  import opened Json
  import opened Seqs
  import Blocks
  import opened BlockHistory

  /** At most this many snapshot block types are previewed. */
  const PreviewLength := 3

  /** `(snapshot_data IS NOT NULL OR block_data IS NOT NULL) AND (snapshot_data != '{}' OR
      block_data != '{}')`: `block_data` is NOT NULL, and a NULL snapshot compares as unknown. */
  predicate Meaningful(rec: HistoryRecord) {
    HasSnapshotData(rec) || rec.blockData != EmptyObject
  }

  predicate TimelineRow(pageId: int, userId: int, rec: HistoryRecord) {
    OwnedBy(pageId, userId, rec) && Meaningful(rec)
  }

  function TimelineRows(pageId: int, userId: int): HistoryRecord -> bool {
    (rec: HistoryRecord) => TimelineRow(pageId, userId, rec)
  }

  /** `blocks.slice(0, 3).map(b => b.type)`, or `None` where it throws: `blocks` is not an array
      (it has no `slice`, or a string's slice has no `map`), or one of the first three is `null`. */
  function TypesOf(blocks: JValue): (r: Option<seq<Option<JValue>>>)
    ensures r.Some? <==> blocks.JArr? && forall i :: 0 <= i < Min(PreviewLength, |blocks.items|) ==> blocks.items[i] != JNull
    ensures r.Some? ==> |r.value| == Min(PreviewLength, |blocks.items|) <= PreviewLength
    ensures r.Some? ==> forall i :: 0 <= i < |r.value| ==> r.value[i] == Member(blocks.items[i], "type")
  {
    match blocks
    case JArr(items) =>
      var first := items[..Min(PreviewLength, |items|)];
      if exists i :: 0 <= i < |first| && first[i] == JNull then None
      else Some(seq(|first|, i requires 0 <= i < |first| => Member(first[i], "type")))
    case _ => None
  }

  /** `props.title && Array.isArray(props.title) && props.title[0] ? props.title[0][0] || '' : ''`. */
  function TitleText(props: JValue): (r: JValue)
    ensures r == EmptyString || Truthy(r)
    ensures r != EmptyString ==> exists items :: Member(props, "title") == Some(JArr(items)) && |items| > 0 && Some(r) == First(items[0])
    ensures match Member(props, "title")
            case Some(JArr(items)) =>
              r == if |items| > 0 && Truthy(items[0]) then Or(First(items[0]), EmptyString) else EmptyString
            case _ => r == EmptyString
  {
    match Member(props, "title")
    case Some(JArr(items)) => if |items| > 0 && Truthy(items[0]) then Or(First(items[0]), EmptyString) else EmptyString
    case _ => EmptyString
  }

  /** The preview text of a snapshot: the title of its first block's properties, or `''`. */
  function SnapshotText(items: seq<JValue>): JValue {
    if |items| > 0 && Truthy(items[0]) && TruthyOpt(Member(items[0], "properties"))
    then TitleText(Member(items[0], "properties").value)
    else EmptyString
  }

  /** `(side.properties || {})` for a truthy side `new` or `old` of a block change. */
  function SideText(side: JValue): JValue {
    TitleText(Or(Member(side, "properties"), EmptyObject))
  }

  /** The preview text of a block change: from `new` when it is truthy, else from `old`, else `''`. */
  function ChangeText(blockData: JValue): JValue {
    if TruthyOpt(Member(blockData, "new")) then SideText(Member(blockData, "new").value)
    else if TruthyOpt(Member(blockData, "old")) then SideText(Member(blockData, "old").value)
    else EmptyString
  }

  /** An entry of the timeline. */
  datatype TimelineEntry = TimelineEntry(
    id: int,
    createdAt: int,
    operation: string,
    blockId: Option<int>,
    blockType: Option<string>,
    hasSnapshot: bool,
    hasBlockData: bool,
    previewContent: JValue,
    preview: seq<Option<JValue>>,
    snapshotData: JValue,
    blockData: JValue)

  /** The parsed snapshot of a record. */
  function SnapshotOf(rec: HistoryRecord, parse: string -> Option<JValue>): JValue {
    SafeParse(Some(Column(rec.snapshotData)), parse)
  }

  /** The entry derived from one row, or `None` where the derivation throws. */
  function EntryOf(rec: HistoryRecord, blocks: seq<Blocks.Block>, parse: string -> Option<JValue>): (r: Option<TimelineEntry>)
    ensures r.None? <==> HasBlocks(SnapshotOf(rec, parse)) && TypesOf(Member(SnapshotOf(rec, parse), "blocks").value).None?
    ensures r.Some? ==>
              && r.value.id == rec.id && r.value.createdAt == rec.createdAt && r.value.blockId == rec.blockId
              && r.value.operation == StrOr(Some(rec.operation), DefaultOperation)
              && r.value.snapshotData == SnapshotOf(rec, parse)
              && r.value.blockData == SafeParse(Some(rec.blockData), parse)
              && r.value.blockType == BlockType(blocks, rec.blockId)
    ensures r.Some? ==> (r.value.hasSnapshot <==> HasBlocks(r.value.snapshotData))
    ensures r.Some? ==>
              (r.value.hasBlockData <==>
                 Truthy(r.value.blockData)
                 && (TruthyOpt(Member(r.value.blockData, "new")) || TruthyOpt(Member(r.value.blockData, "old"))))
    ensures r.Some? && r.value.hasSnapshot ==>
              var items := Member(r.value.snapshotData, "blocks").value.items;
              && |r.value.preview| == Min(PreviewLength, |items|)
              && (forall i :: 0 <= i < |r.value.preview| ==> r.value.preview[i] == Member(items[i], "type"))
              && r.value.previewContent == SnapshotText(items)
    ensures r.Some? && !r.value.hasSnapshot ==>
              && (r.value.preview != [] <==>
                    Truthy(r.value.blockData) && r.value.blockType.Some? && r.value.blockType.value != "")
              && (r.value.preview != [] ==> r.value.preview == [Some(JStr(r.value.blockType.value))])
              && r.value.previewContent == (if Truthy(r.value.blockData) then ChangeText(r.value.blockData) else EmptyString)
  {
    var snapshot := SnapshotOf(rec, parse);
    var change := SafeParse(Some(rec.blockData), parse);
    var blockType := BlockType(blocks, rec.blockId);
    var hasBlockData := Truthy(change) && (TruthyOpt(Member(change, "new")) || TruthyOpt(Member(change, "old")));
    var operation := StrOr(Some(rec.operation), DefaultOperation);
    if HasBlocks(snapshot) then
      var shown := Member(snapshot, "blocks").value;
      match TypesOf(shown)
      case None => None
      case Some(types) =>
        Some(TimelineEntry(rec.id, rec.createdAt, operation, rec.blockId, blockType, true, hasBlockData,
                           SnapshotText(shown.items), types, snapshot, change))
    else
      var types := if Truthy(change) && blockType.Some? && blockType.value != "" then [Some(JStr(blockType.value))] else [];
      var text := if Truthy(change) then ChangeText(change) else EmptyString;
      Some(TimelineEntry(rec.id, rec.createdAt, operation, rec.blockId, blockType, false, hasBlockData,
                         text, types, snapshot, change))
  }

  /** The entries of all rows, or `None` when any derivation throws. */
  function AllEntries(rows: seq<HistoryRecord>, blocks: seq<Blocks.Block>, parse: string -> Option<JValue>)
    : (r: Option<seq<TimelineEntry>>)
    ensures r.None? <==> exists i :: 0 <= i < |rows| && EntryOf(rows[i], blocks, parse).None?
    ensures r.Some? ==> |r.value| == |rows|
    ensures r.Some? ==> forall i :: 0 <= i < |rows| ==> Some(r.value[i]) == EntryOf(rows[i], blocks, parse)
  {
    if exists i :: 0 <= i < |rows| && EntryOf(rows[i], blocks, parse).None? then None
    else Some(seq(|rows|, i requires 0 <= i < |rows| => EntryOf(rows[i], blocks, parse).value))
  }

  /** `BlockHistory.getTimelineEntries`: the entries of the newest `limit` meaningful records of the
      page and user, newest first; `[]` when the limit is negative (an SQL error) or when deriving
      any of them throws. */
  function GetTimelineEntries(table: seq<HistoryRecord>, blocks: seq<Blocks.Block>, pageId: int, userId: int,
                              limit: int, parse: string -> Option<JValue>): (r: seq<TimelineEntry>)
    ensures limit < 0 ==> r == []
    ensures |r| <= Max(0, limit)
    ensures var rows := Listing(table, TimelineRows(pageId, userId));
            r == [] <==>
              || limit <= 0 || |rows| == 0
              || exists i :: 0 <= i < Min(limit, |rows|) && EntryOf(rows[i], blocks, parse).None?
    ensures var rows := Listing(table, TimelineRows(pageId, userId));
            r != [] ==>
              && |r| == Min(limit, |rows|)
              && forall i :: 0 <= i < |r| ==> Some(r[i]) == EntryOf(rows[i], blocks, parse)
  {
    if limit < 0 then []
    else
      var rows := Listing(table, TimelineRows(pageId, userId));
      var all := AllEntries(Window(rows, 0, limit), blocks, parse);
      WindowEntries(rows, blocks, limit, parse);
      if all.None? then [] else all.value
  }

  lemma WindowEntries(rows: seq<HistoryRecord>, blocks: seq<Blocks.Block>, limit: nat, parse: string -> Option<JValue>)
    ensures var all := AllEntries(Window(rows, 0, limit), blocks, parse);
            && (all.None? <==> exists i :: 0 <= i < Min(limit, |rows|) && EntryOf(rows[i], blocks, parse).None?)
            && (all.Some? ==> |all.value| == Min(limit, |rows|))
            && (all.Some? ==> forall i :: 0 <= i < |all.value| ==> Some(all.value[i]) == EntryOf(rows[i], blocks, parse))
  {
    var shown := Window(rows, 0, limit);
    assert |shown| == Min(limit, |rows|);
    assert forall i :: 0 <= i < |shown| ==> shown[i] == rows[i];
  }

  /** Every timeline entry comes from a meaningful record of the page and user, and the entries are
      newest first. */
  lemma TimelineEntriesSound(table: seq<HistoryRecord>, blocks: seq<Blocks.Block>, pageId: int, userId: int,
                             limit: int, parse: string -> Option<JValue>)
    ensures var r := GetTimelineEntries(table, blocks, pageId, userId, limit, parse);
            && (forall e :: e in r ==> exists rec :: rec in table && TimelineRow(pageId, userId, rec) && rec.id == e.id)
            && (forall i, j :: 0 <= i < j < |r| ==> r[i].createdAt >= r[j].createdAt)
  {
    var r := GetTimelineEntries(table, blocks, pageId, userId, limit, parse);
    var rows := Listing(table, TimelineRows(pageId, userId));
    forall e | e in r
      ensures exists rec :: rec in table && TimelineRow(pageId, userId, rec) && rec.id == e.id
    {
      var i :| 0 <= i < |r| && r[i] == e;
      assert rows[i] in table && TimelineRows(pageId, userId)(rows[i]);
    }
    forall i, j | 0 <= i < j < |r|
      ensures r[i].createdAt >= r[j].createdAt
    {
      assert r[i].createdAt == rows[i].createdAt && r[j].createdAt == rows[j].createdAt;
    }
  }

  /** A record whose payloads are both `{}` never shows on the timeline. */
  lemma EmptyRecordsHidden(table: seq<HistoryRecord>, next: int, blocks: seq<Blocks.Block>, pageId: int, userId: int,
                           limit: int, parse: string -> Option<JValue>, rec: HistoryRecord)
    requires WellFormed(table, next) && rec in table
    requires rec.snapshotData == Some(EmptyObject) && rec.blockData == EmptyObject
    ensures forall e :: e in GetTimelineEntries(table, blocks, pageId, userId, limit, parse) ==> e.id != rec.id
  {
    TimelineEntriesSound(table, blocks, pageId, userId, limit, parse);
    forall e | e in GetTimelineEntries(table, blocks, pageId, userId, limit, parse)
      ensures e.id != rec.id
    {
      var other :| other in table && TimelineRow(pageId, userId, other) && other.id == e.id;
      var a :| 0 <= a < |table| && table[a] == rec;
      var b :| 0 <= b < |table| && table[b] == other;
      assert a != b;
    }
  }

  /** A snapshot whose `blocks` is an empty array still counts as a snapshot: the entry has
      `has_snapshot`, an empty preview and no preview text. */
  lemma EmptySnapshotCounts(rec: HistoryRecord, blocks: seq<Blocks.Block>, parse: string -> Option<JValue>)
    requires rec.snapshotData == Some(JObj(map["blocks" := JArr([])]))
    ensures var e := EntryOf(rec, blocks, parse);
            e.Some? && e.value.hasSnapshot && e.value.preview == [] && e.value.previewContent == EmptyString
  {
  }

  /** A snapshot whose first block is titled `[[t, ...], ...]` previews the text `t`. */
  lemma SnapshotTitlePreview(rec: HistoryRecord, blocks: seq<Blocks.Block>, parse: string -> Option<JValue>,
                             first: map<string, JValue>, t: string, rest: seq<JValue>)
    requires t != "" && "properties" in first
    requires first["properties"] == JObj(map["title" := JArr([JArr([JStr(t)] + rest)])])
    requires rec.snapshotData == Some(JObj(map["blocks" := JArr([JObj(first)])]))
    ensures var e := EntryOf(rec, blocks, parse);
            e.Some? && e.value.previewContent == JStr(t) && e.value.preview == [Member(JObj(first), "type")]
  {
    var items := [JObj(first)];
    var snapshot := JObj(map["blocks" := JArr(items)]);
    assert SnapshotOf(rec, parse) == snapshot;
    assert Member(snapshot, "blocks") == Some(JArr(items));
    var types := TypesOf(JArr(items));
    assert items[0] != JNull;
    assert types.Some? && |types.value| == 1 && types.value[0] == Member(JObj(first), "type");
    assert types.value == [Member(JObj(first), "type")];
    var title := JArr([JStr(t)] + rest);
    assert Member(first["properties"], "title") == Some(JArr([title]));
    assert First(title) == Some(JStr(t));
    assert SnapshotText(items) == TitleText(first["properties"]) == JStr(t);
  }
}

=== FILE: update_builder.dfy ===
/** The dynamic `UPDATE ... SET` builder shared by the block and page models: walk the keys of an
    `updates` object, skip `undefined` values, rename keys to column names, serialise the JSON
    columns, and refuse an update that names no field. */
module UpdateBuilder {
  import opened Wrappers
  import opened Json

  /** The keys of an `updates` object in enumeration order; `None` is an `undefined` value. */
  type Updates = seq<(string, Option<JValue>)>

  /** A bound parameter: `JSON.stringify(value)` for a JSON column, the value itself otherwise. */
  datatype SqlValue = JsonText(json: JValue) | Plain(v: JValue)

  /** One `column = ?` item of the `SET` list with its bound value. */
  datatype Assignment = Assignment(column: string, value: SqlValue)

  const NoFieldsMessage := "No fields to update"

  /** The column a key is written to: its entry in `renames`, or the key itself. */
  function ColumnOf(key: string, renames: map<string, string>): string {
    if key in renames then renames[key] else key
  }

  /** The assignment a defined key produces. */
  function AssignmentOf(key: string, v: JValue, renames: map<string, string>, jsonColumns: set<string>): Assignment {
    var column := ColumnOf(key, renames);
    Assignment(column, if column in jsonColumns then JsonText(v) else Plain(v))
  }

  /** The number of keys whose value is defined. */
  function DefinedCount(u: Updates): nat {
    if |u| == 0 then 0 else DefinedCount(u[..|u| - 1]) + (if u[|u| - 1].1.Some? then 1 else 0)
  }

  /** The `SET` list: one assignment per defined key, in key order, nothing for `undefined` keys. */
  function Fields(u: Updates, renames: map<string, string>, jsonColumns: set<string>): (r: seq<Assignment>)
    ensures |r| == DefinedCount(u)
    ensures forall i :: 0 <= i < |u| && u[i].1.Some? ==>
              AssignmentOf(u[i].0, u[i].1.value, renames, jsonColumns) in r
    ensures forall a :: a in r ==>
              exists i :: 0 <= i < |u| && u[i].1.Some? && a == AssignmentOf(u[i].0, u[i].1.value, renames, jsonColumns)
    ensures forall i :: 0 <= i < |u| && u[i].1.Some? ==>
              DefinedCount(u[..i]) < |r| && r[DefinedCount(u[..i])] == AssignmentOf(u[i].0, u[i].1.value, renames, jsonColumns)
  {
    if |u| == 0 then []
    else
      var init := Fields(u[..|u| - 1], renames, jsonColumns);
      var last := u[|u| - 1];
      assert forall i :: 0 <= i < |u| - 1 ==> u[..|u| - 1][i] == u[i];
      assert forall i :: 0 <= i < |u| - 1 ==> u[..|u| - 1][..i] == u[..i];
      if last.1.Some? then init + [AssignmentOf(last.0, last.1.value, renames, jsonColumns)] else init
  }

  /** The builder: the assignment list, or the "No fields to update" error when every key is undefined. */
  function Build(u: Updates, renames: map<string, string>, jsonColumns: set<string>): (r: Result<seq<Assignment>>)
    ensures r.Failure? <==> forall i :: 0 <= i < |u| ==> u[i].1.None?
    ensures r.Failure? ==> r.error == NoFieldsMessage
    ensures r.Success? ==> r.value == Fields(u, renames, jsonColumns) && |r.value| > 0
  {
    var fields := Fields(u, renames, jsonColumns);
    if |fields| == 0 then
      assert forall i :: 0 <= i < |u| ==> u[i].1.None?;
      Failure(NoFieldsMessage)
    else
      assert fields[0] in fields;
      Success(fields)
  }

  /** Every assignment to `id` in the list writes `id` itself, so the row keeps its key. */
  predicate KeepsId(fields: seq<Assignment>, id: int) {
    forall a :: a in fields && a.column == "id" ==> a.value == Plain(JNum(id))
  }

  /** The columns a `SET` list writes. */
  function Columns(fields: seq<Assignment>): set<string> {
    set a | a in fields :: a.column
  }
}

=== FILE: upload.dfy ===
/** The upload middleware: where an uploaded file is stored and under what name, which MIME types
    are accepted, how upload errors become responses, and the public URL of a stored file. The
    clock and random number behind the unique suffix are a parameter; the directories are named by
    their path below the server root. */
module Upload {
  import opened Wrappers
  import opened Text
  import opened Helpers
  import Seqs

  // ---------------------------------------------------------------------------------------------
  // storage.filename
  // ---------------------------------------------------------------------------------------------

  /** `replace(/[^a-z0-9]/gi, '_').toLowerCase()` on one character. */
  function SafeChar(c: char): (r: char)
    ensures IsAlnum(c) ==> r == LowerChar(c)
    ensures !IsAlnum(c) ==> r == '_'
  {
    if IsAlnum(c) then LowerChar(c) else '_'
  }

  /** The stored form of a file's base name: letters and digits lower-cased, everything else `_`. */
  function SafeName(s: string): (r: string)
    ensures |r| == |s|
    ensures forall i :: 0 <= i < |s| ==> r[i] == SafeChar(s[i])
  {
    seq(|s|, i requires 0 <= i < |s| => SafeChar(s[i]))
  }

  /** A safe name holds only lower-case letters, digits and `_`, and is its own safe name. */
  lemma SafeNameIdempotent(s: string)
    ensures forall i :: 0 <= i < |SafeName(s)| ==> IsLower(SafeName(s)[i]) || IsDigit(SafeName(s)[i]) || SafeName(s)[i] == '_'
    ensures SafeName(SafeName(s)) == SafeName(s)
  {
  }

  /** `path.basename(name, path.extname(name))`: the last segment without its extension. */
  function Stem(name: string): (r: string)
    ensures r + Extname(name) == BaseName(name)
  {
    var base := BaseName(name);
    var ext := Extname(name);
    Seqs.DropSuffix(base, ext);
    base[..|base| - |ext|]
  }

  /** `storage.filename`: the safe stem, a dash, the unique suffix (`Date.now() + '-' + random`),
      and the original extension unchanged. */
  function StoredFilename(originalName: string, suffix: string): (r: string)
    ensures |r| == |Stem(originalName)| + 1 + |suffix| + |Extname(originalName)|
    ensures r[..|Stem(originalName)|] == SafeName(Stem(originalName))
    ensures r[|Stem(originalName)|] == '-'
    ensures r[|Stem(originalName)| + 1..|r| - |Extname(originalName)|] == suffix
    ensures r[|r| - |Extname(originalName)|..] == Extname(originalName)
  {
    Dashed(SafeName(Stem(originalName)), suffix, Extname(originalName))
  }

  /** A name, a dash, a suffix and an extension, laid end to end. */
  function Dashed(name: string, suffix: string, ext: string): (r: string)
    ensures |r| == |name| + 1 + |suffix| + |ext|
    ensures r[..|name|] == name && r[|name|] == '-'
    ensures r[|name| + 1..|r| - |ext|] == suffix
    ensures r[|r| - |ext|..] == ext
  {
    var head := name + "-" + suffix;
    Seqs.Halves(name, "-");
    Seqs.TakeConcat(name + "-", suffix, |name|);
    Seqs.TakeConcat(head, ext, |name|);
    Seqs.Halves(head, ext);
    Seqs.Halves(name + "-", suffix);
    assert (head + ext)[|name| + 1..|head|] == head[|name| + 1..];
    head + ext
  }

  /** The stored file keeps the uploaded file's extension, so the type it is served with does not
      change, as long as the suffix holds no dot or slash (a timestamp and a number never do). */
  lemma StoredKeepsExtension(originalName: string, suffix: string)
    requires forall i :: 0 <= i < |suffix| ==> suffix[i] != '.' && suffix[i] != '/'
    ensures Extname(StoredFilename(originalName, suffix)) == Extname(originalName)
  {
    var head := SafeName(Stem(originalName)) + "-" + suffix;
    SafeHead(Stem(originalName), suffix);
    assert StoredFilename(originalName, suffix) == head + Extname(originalName);
    StoredExtension(head, Extname(originalName));
  }

  /** The part before the extension holds neither dots nor slashes. */
  lemma SafeHead(stem: string, suffix: string)
    requires forall i :: 0 <= i < |suffix| ==> suffix[i] != '.' && suffix[i] != '/'
    ensures var head := SafeName(stem) + "-" + suffix;
            forall i :: 0 <= i < |head| ==> head[i] != '.' && head[i] != '/'
  {
    var safe := SafeName(stem);
    var head := safe + "-" + suffix;
    forall i | 0 <= i < |head|
      ensures head[i] != '.' && head[i] != '/'
    {
      if i < |safe| {
        assert head[i] == SafeChar(stem[i]);
      } else if i > |safe| {
        assert head[i] == suffix[i - |safe| - 1];
      }
    }
  }

  lemma StoredExtension(head: string, ext: string)
    requires |head| > 0
    requires forall i :: 0 <= i < |head| ==> head[i] != '.' && head[i] != '/'
    requires |ext| > 0 ==> ext[0] == '.'
    requires forall i :: 0 <= i < |ext| ==> ext[i] != '/' && (i > 0 ==> ext[i] != '.')
    ensures Extname(head + ext) == ext
  {
    var r := head + ext;
    assert '/' !in r by {
      forall i | 0 <= i < |r| ensures r[i] != '/' {
        if i >= |head| {
          assert r[i] == ext[i - |head|];
        }
      }
    }
    AfterLastSlashAll(r);
    if |ext| > 0 {
      assert r[|r| - 1] == ext[|ext| - 1];
      assert TrimTrailingSlashes(r) == r;
      var d := LastIndexOf(r, '.');
      assert r[|head|] == '.';
      assert r[d..] == ext;
      assert r[0] == head[0];
    } else {
      assert r == head;
      assert TrimTrailingSlashes(r) == r;
      assert '.' !in r by {
        forall i | 0 <= i < |r| ensures r[i] != '.' {
          assert r[i] == head[i];
        }
      }
    }
  }

  // ---------------------------------------------------------------------------------------------
  // storage.destination
  // ---------------------------------------------------------------------------------------------

  datatype Directory = Images | Files

  /** The directory below the server root. */
  function DirectoryPath(d: Directory): string {
    match d
    case Images => "uploads/images"
    case Files => "uploads/files"
  }

  /** `mimetype.split('/')[0]`: everything before the first slash. */
  function MimeCategory(mimetype: string): (r: string)
    ensures StartsWith(mimetype, r)
    ensures '/' !in r
    ensures |r| < |mimetype| ==> mimetype[|r|] == '/'
    decreases |mimetype|
  {
    if |mimetype| == 0 || mimetype[0] == '/' then ""
    else [mimetype[0]] + MimeCategory(mimetype[1..])
  }

  /** `storage.destination`: images go to the images directory, every other file to the files one. */
  function Destination(mimetype: string): (r: Directory)
    ensures r == Images <==> MimeCategory(mimetype) == "image"
  {
    if MimeCategory(mimetype) == "image" then Images else Files
  }

  /** A type goes to the images directory exactly when it is `image` or starts with `image/`. */
  lemma DestinationByPrefix(mimetype: string)
    ensures Destination(mimetype) == Images <==> mimetype == "image" || StartsWith(mimetype, "image/")
  {
    var cat := MimeCategory(mimetype);
    if StartsWith(mimetype, "image/") {
      MimeCategoryOfPrefix(mimetype, "image");
    }
    if cat == "image" && mimetype != "image" {
      assert |cat| < |mimetype|;
      assert mimetype[..6] == cat + "/";
    }
  }

  /** A slash-free prefix followed by a slash is the category. */
  lemma {:induction false} MimeCategoryOfPrefix(mimetype: string, category: string)
    requires '/' !in category
    requires |category| < |mimetype| && mimetype[..|category|] == category && mimetype[|category|] == '/'
    ensures MimeCategory(mimetype) == category
    decreases |category|
  {
    if |category| > 0 {
      assert mimetype[0] == category[0];
      assert mimetype[1..][..|category| - 1] == category[1..];
      MimeCategoryOfPrefix(mimetype[1..], category[1..]);
    }
  }

  // ---------------------------------------------------------------------------------------------
  // fileFilter
  // ---------------------------------------------------------------------------------------------

  /** The MIME types an upload may have. */
  const AllowedTypes: seq<string> := [
    "image/jpeg", "image/jpg", "image/png", "image/gif", "image/webp", "image/svg+xml",
    "application/pdf",
    "application/msword",
    "application/vnd.openxmlformats-officedocument.wordprocessingml.document",
    "application/vnd.ms-excel",
    "application/vnd.openxmlformats-officedocument.spreadsheetml.sheet",
    "application/vnd.ms-powerpoint",
    "application/vnd.openxmlformats-officedocument.presentationml.presentation",
    "text/plain", "text/markdown", "text/csv",
    "application/json", "text/javascript", "text/typescript",
    "text/css", "text/html", "text/xml",
    "application/zip", "application/x-rar-compressed", "application/x-tar",
    "application/gzip"
  ]

  const InvalidTypePrefix := "Invalid file type"

  /** The rejection message, listing every allowed type. */
  function InvalidTypeMessage(): (r: string)
    ensures StartsWith(r, InvalidTypePrefix)
  {
    InvalidTypePrefix + ". Allowed types: " + Join(AllowedTypes, ", ")
  }

  datatype FilterDecision = Accept | Reject(message: string)

  /** `fileFilter`: accepts exactly the allowed types; a rejection names them all. */
  function FileFilter(mimetype: string): (r: FilterDecision)
    ensures r == Accept <==> mimetype in AllowedTypes
    ensures r.Reject? ==> r.message == InvalidTypeMessage() && StartsWith(r.message, InvalidTypePrefix)
  {
    if mimetype in AllowedTypes then Accept else Reject(InvalidTypeMessage())
  }

  /** Every accepted image type is stored with the images, every other accepted type with the files. */
  lemma AcceptedDestinations(mimetype: string)
    requires FileFilter(mimetype) == Accept
    ensures Destination(mimetype) == Images <==> StartsWith(mimetype, "image/")
  {
    DestinationByPrefix(mimetype);
    BareImageNotAllowed();
  }

  /** The bare category `image` is not an allowed type. */
  lemma BareImageNotAllowed()
    ensures "image" !in AllowedTypes
  {
    forall i | 0 <= i < |AllowedTypes|
      ensures AllowedTypes[i] != "image"
    {
      assert |AllowedTypes[i]| > 5;
    }
  }

  // ---------------------------------------------------------------------------------------------
  // limits and handleUploadError
  // ---------------------------------------------------------------------------------------------

  const MaxFileSize := 50 * 1024 * 1024
  const MaxFiles := 5

  const FileTooLarge := "File too large. Maximum size is 50MB."
  const TooManyFiles := "Too many files. Maximum is 5 files at once."

  /** An error reaching the upload error handler: whether multer raised it, its code and message. */
  datatype UploadError = UploadError(fromMulter: bool, code: Option<string>, message: Option<string>)

  /** The error a rejecting file filter raises. */
  function FilterError(d: FilterDecision): UploadError
    requires d.Reject?
  {
    UploadError(false, None, Some(d.message))
  }

  datatype UploadReply = Respond(status: int, error: string) | PassOn(err: UploadError)

  /** `handleUploadError`: the size and count limits of multer and the file filter's rejection
      become 400 answers; any other error goes on to the next handler unchanged. */
  function HandleUploadError(err: UploadError): (r: UploadReply)
    ensures err.fromMulter && err.code == Some("LIMIT_FILE_SIZE") ==> r == Respond(400, FileTooLarge)
    ensures err.fromMulter && err.code == Some("LIMIT_FILE_COUNT") ==> r == Respond(400, TooManyFiles)
    ensures r.Respond? ==> r.status == 400
    ensures r.PassOn? ==> r.err == err
    ensures !(err.fromMulter && err.code in {Some("LIMIT_FILE_SIZE"), Some("LIMIT_FILE_COUNT")}) ==>
              (r.Respond? <==> err.message.Some? && StartsWith(err.message.value, InvalidTypePrefix))
              && (r.Respond? ==> r.error == err.message.value)
  {
    if err.fromMulter && err.code == Some("LIMIT_FILE_SIZE") then Respond(400, FileTooLarge)
    else if err.fromMulter && err.code == Some("LIMIT_FILE_COUNT") then Respond(400, TooManyFiles)
    else if err.message.Some? && err.message.value != "" && StartsWith(err.message.value, InvalidTypePrefix)
    then Respond(400, err.message.value)
    else PassOn(err)
  }

  /** A file the filter rejects is answered with 400 and the list of allowed types. */
  lemma RejectedTypeAnswered(mimetype: string)
    requires FileFilter(mimetype).Reject?
    ensures HandleUploadError(FilterError(FileFilter(mimetype))) == Respond(400, InvalidTypeMessage())
  {
  }

  // ---------------------------------------------------------------------------------------------
  // getFileUrl
  // ---------------------------------------------------------------------------------------------

  const DefaultBaseUrl := "http://localhost:5000"
  const DefaultFileKind := "file"

  /** `getFileUrl`: `BASE_URL` (or the local default when unset or empty), then the kind's
      directory (`type` defaults to `file` when not given) and the file name. */
  function GetFileUrl(filename: string, kind: Option<string>, baseUrl: Option<string>): (r: string)
    ensures StartsWith(r, StrOr(baseUrl, DefaultBaseUrl) + "/uploads/")
    ensures EndsWith(r, kind.GetOr(DefaultFileKind) + "s/" + filename)
  {
    var base := StrOr(baseUrl, DefaultBaseUrl);
    var k := kind.GetOr(DefaultFileKind);
    var r := base + "/uploads/" + k + "s/" + filename;
    assert r[..|base + "/uploads/"|] == base + "/uploads/";
    assert r[|r| - |k + "s/" + filename|..] == k + "s/" + filename;
    r
  }

  /** The kind of URL that names a directory. */
  function KindOf(d: Directory): string {
    match d
    case Images => "image"
    case Files => "file"
  }

  /** The URL of a stored file points into the directory the storage put it in; with no kind given
      it points into the files directory. */
  lemma UrlMatchesDirectory(filename: string, d: Directory, baseUrl: Option<string>)
    ensures GetFileUrl(filename, Some(KindOf(d)), baseUrl)
            == StrOr(baseUrl, DefaultBaseUrl) + "/" + DirectoryPath(d) + "/" + filename
    ensures GetFileUrl(filename, None, baseUrl) == GetFileUrl(filename, Some(KindOf(Files)), baseUrl)
  {
    var base := StrOr(baseUrl, DefaultBaseUrl);
    assert "/uploads/" + KindOf(d) + "s/" == "/" + DirectoryPath(d) + "/" by {
      match d
      case Images =>
      case Files =>
    }
    Seqs.RegroupMiddle(base, "/uploads/", KindOf(d), "s/", filename);
    Seqs.RegroupMiddle(base, "/", DirectoryPath(d), "/", filename);
  }
}

=== FILE: wrappers.dfy ===
/** Failure-compatible wrappers shared by every module of the model.
    `Option` also stands for JavaScript's `undefined` (None) versus a present value. */
module Wrappers {

  datatype Option<+T> = None | Some(value: T) {

    /** Returns the wrapped value, or `default` when absent. */
    function GetOr(default: T): T {
      match this
      case Some(v) => v
      case None => default
    }
  }

  /** Outcome of an operation that can throw: the value, or the error message. */
  datatype Result<+R> = Success(value: R) | Failure(error: string) {

    predicate IsFailure() {
      Failure?
    }

    function PropagateFailure<U>(): Result<U>
      requires Failure?
    {
      Failure(error)
    }

    function Extract(): R
      requires Success?
    {
      value
    }
  }

  /** JavaScript truthiness of an optional numeric id: `undefined`, `null` and `0` are falsy. */
  predicate Present(x: Option<int>) {
    x.Some? && x.value != 0
  }

  /** `x || null` on an optional numeric id. */
  function IdOrNull(x: Option<int>): Option<int> {
    if Present(x) then x else None
  }

  /** `x || fallback` on an optional string: `undefined`, `null` and `''` are falsy. */
  function StrOr(x: Option<string>, fallback: string): string {
    if x.Some? && x.value != "" then x.value else fallback
  }
}
